=== FILE: README.md ===
# Car-price preprocessing, modelled in Dafny

This project models the preprocessing strategy of a car-price regression
pipeline. That strategy is `DataPreProcessStrategy.handle_data` in
`src/data_cleaning.py`. It takes a raw table of used-car listings and
returns a numeric table. It applies these steps in this order:

1. drop `name`, `max_power` and `torque`;
2. strip the units `kmpl` and `km/kg` from `mileage`, and `CC` from `engine`;
3. coerce `mileage`, `engine` and `seats` to numbers, turning unreadable text into missing values;
4. fill the missing values of those three columns with the column mean;
5. cast `seats` to 64-bit integers;
6. drop duplicate rows;
7. cap six numeric columns to their interquartile-range fences;
8. one-hot encode `fuel`, `seller_type` and `transmission`, dropping the first category;
9. map `owner` to ordinal codes.

A failing step makes the whole call fail with that step's error. In the
source, that error is logged and re-raised. The strategy interface and the
`DataCleaning` context that delegates to it are modelled as well.

The modules are:

- **Frames**: the data model. A frame is a height plus a sequence of named
  columns. A cell is text, a number (an exact `real`) or the missing marker.
  Looking up a label finds the first column with that name, or fails as a
  `KeyError` would.
- **Text**: the non-overlapping occurrences of a pattern, found left to
  right, are removed, as `str.replace` does.
- **Numbers**: the decimal grammar that coercion accepts, plus truncation
  toward zero.
- **Stats**: mean, sorting, the linearly interpolated quantile, the IQR
  fences and clamping.
- **Distinct**: selecting first occurrences.
- **Categories**: the code-point order of category labels and the owner
  lookup table.
- **Cleaning**, **Dedup**, **Outliers**, **Encoding**: the individual steps.
- **Preprocess**: the composed pipeline, the properties of the whole call,
  and the strategy dispatch.

Behaviour of the code worth knowing:

- **Filled columns can still have missing values.** A column with no number
  at all has a missing mean, and filling with it changes nothing. So the
  three filled columns are free of missing values only when each held at
  least one number (`Preprocess.Complete`). They are not free of them for
  every input.
- **Stripping can leave a unit behind.** Removing the occurrences of a unit
  can join the pieces around them into a new one: `"kmkmplpl"` becomes
  `"kmpl"` (`Text.MileageResidue`). This cannot happen with `CC`, because a
  doubled letter cannot be reassembled (`Text.RemoveDoubledLeavesNone`).
- **The owner codes collide.** `Test Drive Car` and `First Owner` share code
  3, exactly as the table in the source says.

## Model

| member | source | states |
|---|---|---|
| Frames.Find | src/data_cleaning.py:21-27 | looking up a label succeeds exactly when a column has that name, yields the first such column, and otherwise fails with `MissingColumn` for that label |
| Frames.ColumnOf | src/data_cleaning.py:21-27 | a label reads some cells exactly when a column carries it, and those are the cells of a column with that name |
| Frames.Replace | src/data_cleaning.py:21-34 | assigning a column keeps the frame rectangular, keeps every name, gives that column the new cells and leaves every other column unchanged |
| Frames.ReplaceLabels | src/data_cleaning.py:21-34 | after the assignment `data[name] = cells`, `name` reads the new cells and every other label reads what it read before |
| Frames.NumValues | src/data_cleaning.py:29-31 | the numbers a statistic skips missing values to reach: empty exactly when the column holds no number |
| Frames.NumValuesMultiset | src/data_cleaning.py:29-31 | each number is collected exactly as many times as the column holds it, so the mean weighs repeated values |
| Frames.NumValuesMembers | src/data_cleaning.py:29-31 | a value is among the collected numbers exactly when the column holds it as a number |
| Cleaning.Without | src/data_cleaning.py:20 | a column survives exactly when it was there and its name is not listed |
| Cleaning.WithoutAppend | src/data_cleaning.py:20 | filtering distributes over concatenation, so the surviving columns keep their relative order |
| Cleaning.WithoutNothing | src/data_cleaning.py:20 | a frame none of whose columns is listed is left as it is |
| Cleaning.DropColumns | src/data_cleaning.py:20 | dropping succeeds exactly when every listed label is present; otherwise it fails with `MissingColumn` for an absent listed label; on success the height is kept, the columns are exactly the unlisted ones in their original order, and every unlisted label reads the cells it read before |
| Cleaning.WithoutColumnOf | src/data_cleaning.py:20 | a label that is not dropped reads the same cells after the drop as before it, or is absent in both |
| Cleaning.WithoutAtMostOnce | src/data_cleaning.py:20 | dropping columns never makes a label appear on two columns |
| Text.RemoveAll | src/data_cleaning.py:21-23 | removal never lengthens the text, and leaves it unchanged exactly when the pattern does not occur in it |
| Text.RemoveLeftmost | src/data_cleaning.py:21-23 | the text before the leftmost occurrence is kept, that occurrence is removed, and removal carries on right after it; with `Text.RemoveAll` this pins the result to removing every non-overlapping occurrence found left to right |
| Text.KeepPrefix | src/data_cleaning.py:21-23 | a prefix in which no occurrence starts passes through removal unchanged |
| Text.RemoveFront | src/data_cleaning.py:21-23 | one unfolding of the definition of `RemoveAll`: an occurrence at the front is dropped and removal carries on after it; a step of the proof of `Text.RemoveLeftmost` |
| Text.RemoveTrailing | src/data_cleaning.py:21-23 | a value that holds its unit only once, at the end, loses exactly that unit |
| Text.RemoveDoubledLeavesNone | src/data_cleaning.py:23 | after removing every `cc`-style doubled pattern, none is left |
| Text.MileageResidue | src/data_cleaning.py:21 | `"kmkmplpl"` with `kmpl` removed is `"kmpl"`, which still contains `kmpl` |
| Cleaning.StripCell | src/data_cleaning.py:21-23 | text stays text and is unchanged exactly when it lacks the unit; a cell that is not text comes out missing |
| Cleaning.StripCells | src/data_cleaning.py:21-23 | `.str.replace` acts on each cell alone: the column keeps its length and row `i` of the result is row `i` stripped by `StripCell` |
| Cleaning.StripUnits | src/data_cleaning.py:21-23 | stripping fails only on an absent column, keeps every other column, and replaces the named one by its cells with the unit removed |
| Cleaning.StripEngineClean | src/data_cleaning.py:23 | no engine text still contains `CC` after stripping |
| Cleaning.StripSuffix | src/data_cleaning.py:21-23 | a reading written with its unit once at the end becomes the bare reading |
| Numbers.ParseNumber | src/data_cleaning.py:25-27 | a parsed value is negative only when the trimmed text starts with a minus sign |
| Numbers.ParseNumberAccepts | src/data_cleaning.py:25-27 | a text parses exactly when, with surrounding whitespace removed, it is a numeral with at most one leading sign; a numeral is digits and points only, with at most one point and at least one digit |
| Numbers.ParseSigned | src/data_cleaning.py:25-27 | a signed numeral reads as negative only when it starts with a minus sign |
| Numbers.SignedAccepts | src/data_cleaning.py:25-27 | the sign grammar accepts exactly a numeral, or a numeral after one `+` or `-` |
| Numbers.ParseUnsigned | src/data_cleaning.py:25-27 | an unsigned numeral never reads as a negative number |
| Numbers.UnsignedAccepts | src/data_cleaning.py:25-27 | the unsigned grammar accepts exactly the numerals |
| Numbers.DecimalValue | src/data_cleaning.py:25-27 | the digits after the point never bring a value below the number its whole digits spell |
| Numbers.NumeralSplit | src/data_cleaning.py:25-27 | a text is a numeral exactly when it is digits, optionally followed by a point and more digits, with a digit on at least one side of the point |
| Numbers.ParseShowNat | src/data_cleaning.py:25-27 | a printed natural number parses back to itself |
| Numbers.ParseFixedPoint | src/data_cleaning.py:25-27 | digits, a point and digits parse to the decimal value they spell |
| Numbers.ParseFixedPointValue | src/data_cleaning.py:25-27 | that value is the whole digits' value plus the fractional digits' value over `10^k`, for `k` fractional digits |
| Numbers.ParseShowFixed | src/data_cleaning.py:25-27 | a decimal printed with `k` fractional digits parses back to its value |
| Numbers.ParseNegated | src/data_cleaning.py:25-27 | a leading minus negates a parseable value and leaves an unparseable one unparseable |
| Numbers.SignedNegated | src/data_cleaning.py:25-27 | an unsigned numeral reads the same with the sign grammar, and with a minus in front it reads as its negation |
| Numbers.ParseDigits | src/data_cleaning.py:25-27 | digits with no point parse to their base-10 value |
| Numbers.ParsePlus | src/data_cleaning.py:25-27 | a leading plus sign is dropped and changes nothing else: `+e` reads as `e` reads unsigned |
| Numbers.ParsePadded | src/data_cleaning.py:25-27 | surrounding whitespace does not change what a text parses to |
| Numbers.ParseRejectsForeign | src/data_cleaning.py:25-27 | a text holding any character other than whitespace, a digit, a sign or a point does not parse |
| Numbers.UnsignedRejectsForeign | src/data_cleaning.py:25-27 | an unsigned numeral with a character that is neither a digit nor a point does not parse |
| Cleaning.CoerceCell | src/data_cleaning.py:25-27 | coercion never yields text; a number or a missing cell passes through; text becomes a number exactly when it parses, and then becomes the parsed value |
| Cleaning.CoerceCells | src/data_cleaning.py:25-27 | `pd.to_numeric` acts on each cell alone: the column keeps its length, row `i` of the result is row `i` coerced by `CoerceCell`, and no text is left |
| Cleaning.Coerce | src/data_cleaning.py:25-27 | coercing a column fails only when the column is absent, leaves every other column alone, and coerces each cell of the named one |
| Cleaning.CoerceIdempotent | src/data_cleaning.py:25-27 | coercing a coerced column changes nothing |
| Cleaning.StripThenCoerce | src/data_cleaning.py:21-27 | a decimal reading followed by a space and its unit comes through stripping and coercion as its number |
| Cleaning.FillCells | src/data_cleaning.py:29-31 | missing cells take the fill value and every other cell is unchanged |
| Cleaning.FillColumn | src/data_cleaning.py:29-31 | a column without numbers is unchanged, since its mean is missing; otherwise its missing cells take the mean of its numbers |
| Cleaning.FillMean | src/data_cleaning.py:29-31 | filling fails with `MissingColumn` on an absent column and with `NotNumeric` on one holding text; otherwise only the named column changes, and it becomes the column filled with its mean |
| Stats.Mean | src/data_cleaning.py:29-31 | the mean of a non-empty sequence is the value whose count-fold multiple is the sum |
| Stats.MeanBetween | src/data_cleaning.py:29-31 | the mean lies within any bounds that hold all the values |
| Cleaning.FillComplete | src/data_cleaning.py:29-31 | after filling a text-free column that has a number, every cell is a number, the original numbers are untouched, and the fill value stays within the numbers' bounds |
| Cleaning.FillKeepsMean | src/data_cleaning.py:29-31 | after filling, every cell is counted and the mean of the numbers is unchanged |
| Cleaning.FilledCount | src/data_cleaning.py:29-31 | a text-free column is its numbers plus its missing cells, and after filling it is all numbers |
| Cleaning.FilledSum | src/data_cleaning.py:29-31 | filling adds the fill value once per missing cell to the sum of the numbers |
| Numbers.TruncTowardZero | src/data_cleaning.py:34 | the integer cast keeps the sign and takes the integer part: never larger in size, and within one unit of the value |
| Cleaning.TruncBounds | src/data_cleaning.py:34 | truncation moves a value by less than one, never increases its size, and leaves a whole number as it is |
| Cleaning.TruncCells | src/data_cleaning.py:34 | each number is replaced by its truncation toward zero, so the column holds whole numbers only |
| Cleaning.AsInt64 | src/data_cleaning.py:34 | the cast succeeds exactly when the column exists and holds numbers only; otherwise it fails with `CannotCastToInteger` (or `MissingColumn`); only the named column changes, to its truncated cells |
| Distinct.FirstOccurrences | src/data_cleaning.py:35 | the kept positions are increasing, each is the first occurrence of its value, and every first occurrence is kept |
| Distinct.KeptDistinct | src/data_cleaning.py:35 | no two kept values are equal |
| Distinct.KeptCover | src/data_cleaning.py:35 | every value equals some kept value |
| Dedup.DropDuplicates | src/data_cleaning.py:35 | no two output rows are equal; every input row equals some output row; the kept rows are the first occurrences in their original order, under the same columns |
| Dedup.DropDuplicatesCells | src/data_cleaning.py:35 | each column after de-duplication holds only cells the column held before |
| Dedup.DropDuplicatesKeepsCells | src/data_cleaning.py:35 | every cell of a column before de-duplication is still a cell of it afterwards |
| Dedup.DropDuplicatesDistinct | src/data_cleaning.py:35 | a frame whose rows are already distinct keeps all its rows |
| Stats.Sort | src/data_cleaning.py:37-65 | the values are sorted ascending, as a permutation of the input |
| Stats.SortedUnique | src/data_cleaning.py:37-65 | two sorted arrangements of the same values are the same sequence |
| Stats.QuantileIndex | src/data_cleaning.py:37-65 | the interpolation index is the integer part of `(n - 1) * p`, inside the sequence |
| Stats.Quantile | src/data_cleaning.py:37-65 | the linearly interpolated quantile lies between the two sorted values it interpolates |
| Stats.QuantileValue | src/data_cleaning.py:37-65 | spells out the interpolation step of the definition: the quantile is `v[i] + (h - i) * (v[i + 1] - v[i])` with `h = (n - 1) * p` and `i = floor(h)`; a step of the proof of `Stats.QuantileMonotone`, not a separate property |
| Stats.QuantileMonotone | src/data_cleaning.py:37-65 | a higher quantile is never below a lower one, so Q1 never exceeds Q3 |
| Stats.IqrFences | src/data_cleaning.py:37-39 | the lower fence is at most Q1, Q1 is at most Q3, and Q3 is at most the upper fence, so the range is never empty |
| Stats.SortedFences | src/data_cleaning.py:37-39 | for values in ascending order, the lower fence is at most Q1, Q1 at most Q3, and Q3 at most the upper fence |
| Stats.IqrFencesFormula | src/data_cleaning.py:37-39 | spells out the definition of the fences for a reader: `Q1 - 1.5 * IQR` and `Q3 + 1.5 * IQR`, with `IQR = Q3 - Q1`, over the values in ascending order; no other member depends on it |
| Stats.IqrFencesOrderFree | src/data_cleaning.py:37-65 | the fences depend on the multiset of values only, not on row order |
| Stats.Clamp | src/data_cleaning.py:40 | the capped value lies within the bounds, equals the input when that is already inside, and is the nearest point of the range |
| Stats.ClampIdempotent | src/data_cleaning.py:40 | capping twice with the same bounds is capping once |
| Outliers.ClipCells | src/data_cleaning.py:40 | every number ends within the bounds: below becomes the lower bound, above becomes the upper bound, inside stays; missing cells and text are untouched |
| Outliers.ClipIdempotent | src/data_cleaning.py:40 | clipping again with the same bounds changes nothing |
| Outliers.ClipColumn | src/data_cleaning.py:37-40 | a column without numbers is unchanged; otherwise it is clipped to the fences of its own numbers |
| Outliers.ClipColumnText | src/data_cleaning.py:37-40 | capping a column holds text exactly when the column did |
| Outliers.ClipIqr | src/data_cleaning.py:37-40 | capping one column fails with `MissingColumn` or `NotNumeric` (text); on success only that column changes, to its capped cells, and the height is kept |
| Outliers.ClipColumnWithinFences | src/data_cleaning.py:37-40 | after capping, every number is within fences that are ordered; numbers already inside are unchanged; missing stays missing; capping again changes nothing |
| Preprocess.ClipAll | src/data_cleaning.py:37-65 | capping the listed columns in turn succeeds exactly when each listed column is present and holds no text (`Clippable`); a failure names a listed label that is absent (`MissingColumn`) or holds text (`NotNumeric`); on success names and height are kept, unlisted columns are unchanged, and with distinct labels each listed column is capped by the fences of its own values |
| Preprocess.ClipAllOutcome | src/data_cleaning.py:37-65 | after capping the first listed column, the rest can be capped exactly when the whole list could, and a fault found then was a fault before |
| Categories.TextLessTotal | src/data_cleaning.py:67 | any two different labels are ordered one way or the other by code point |
| Categories.TextLessTransitive | src/data_cleaning.py:67 | the code-point order on labels is transitive |
| Categories.SortedDistinct | src/data_cleaning.py:67 | the categories are strictly ascending, and are exactly the values present |
| Encoding.CategoriesOf | src/data_cleaning.py:67 | a column's categories are strictly ascending and are exactly its text values |
| Encoding.DummyNameInjective | src/data_cleaning.py:67 | different categories of one column get different indicator labels |
| Encoding.Indicator | src/data_cleaning.py:67 | an indicator is 0 or 1 in every row, and 1 exactly where the row holds its category |
| Encoding.Dummies | src/data_cleaning.py:67 | there is one indicator for each category but the first, labelled `name_category` |
| Encoding.OneHotIndicators | src/data_cleaning.py:67 | indicators are 0 or 1; an indicator is 1 exactly in the rows of its category; at most one is 1 per row; a row is all zero exactly when it holds the first category or is missing |
| Encoding.OneHotExclusive | src/data_cleaning.py:67 | no row has two indicators set |
| Encoding.OneHotAllZero | src/data_cleaning.py:67 | a row has every indicator clear exactly when it is missing or holds the first category |
| Encoding.OneHotLabels | src/data_cleaning.py:67 | every category but the first has an indicator, and no two indicators share a label |
| Encoding.OneHot | src/data_cleaning.py:67 | encoding a column fails on an absent column or a number among its values; otherwise it removes the column, keeps every other column in place, and appends the indicators |
| Encoding.OneHotRemoves | src/data_cleaning.py:67 | when one column carries the encoded label, the label is gone after encoding |
| Encoding.OneHotDummy | src/data_cleaning.py:67 | when no column already carries an indicator label of the encoded column, the label `name_c` of each category `c` but the first reads the indicator of `c` over the encoded column |
| Encoding.OneHotAtMostOnce | src/data_cleaning.py:67 | encoding one column never makes another label, one that is not an indicator label of it, appear twice |
| Encoding.KeptColumn | src/data_cleaning.py:67 | removing the encoded column and appending indicators leaves every other present label reading the same cells |
| Preprocess.EncodeAll | src/data_cleaning.py:67 | for independent labels (distinct, none an indicator label of another), encoding succeeds exactly when each listed column is present and holds no number (`Categorical`), and a failure names a listed label that is absent (`MissingColumn`) or holds a number (`NumericCategory`); for any labels, a failure names a listed label with one of those kinds; on success height and unlisted columns are kept, every new label is an indicator of a listed column, a listed label is present in the input or an indicator label of another listed one; for an encodable frame every listed label was present and is gone, and each indicator label reads the indicator of its category over the input column |
| Preprocess.EncodeAllOutcome | src/data_cleaning.py:67 | for independent labels, after encoding the first listed column the rest stay independent, can be encoded exactly when the whole list could, and a fault found then was a fault before |
| Categories.OwnerCodeTable | src/data_cleaning.py:68 | a label has a code exactly when it is one of the five known labels; codes are First 3, Second 2, Third 1, Fourth & Above 0; Test Drive Car shares 3 with First Owner |
| Encoding.OwnerCell | src/data_cleaning.py:68 | a cell becomes a code in `0..3` exactly when it is a known label, and it becomes that label's code; anything else becomes missing |
| Encoding.OwnerCells | src/data_cleaning.py:68 | `.map` acts on each cell alone: the column keeps its length and row `i` of the result is row `i` mapped by `OwnerCell` |
| Encoding.MapOwner | src/data_cleaning.py:68 | mapping fails only when `owner` is absent, and replaces exactly the `owner` column by its codes |
| Preprocess.StripAll | src/data_cleaning.py:21-23 | stripping succeeds exactly when `mileage` and `engine` are present, else fails with `MissingColumn` for one of them that is absent; it keeps every name and the height; `mileage` loses `kmpl` and then `km/kg`, `engine` loses `CC`, and every other label reads what it read before |
| Preprocess.DropAndStrip | src/data_cleaning.py:20-23 | dropping and stripping succeed exactly when the three dropped labels, `mileage` and `engine` are present; a failure is `MissingColumn` for one of those labels that the raw frame lacks; on success the columns are the undropped ones in order, `mileage` is the raw column without `kmpl` and then `km/kg`, `engine` is the raw column without `CC`, every other undropped label reads its raw cells, and no engine text contains `CC` |
| Preprocess.StripOutcome | src/data_cleaning.py:20-23 | after the drop, stripping succeeds exactly when the raw frame has `mileage` and `engine`, and fails on one it lacks |
| Preprocess.CoerceAll | src/data_cleaning.py:25-27 | coercion of the three columns succeeds exactly when they are present, keeps every name, replaces each of the three by its cell-wise coercion, leaves every other label alone, and leaves all three free of text |
| Preprocess.FillOne | src/data_cleaning.py:29-31 | filling a text-free column replaces it by the column filled with its own mean, leaves it complete and leaves every other column unchanged |
| Preprocess.FillCompletes | src/data_cleaning.py:29-31 | a column filled with its mean is complete: no text, and no missing value if it holds a number |
| Preprocess.FillAll | src/data_cleaning.py:29-31 | each of `mileage`, `engine` and `seats` becomes itself filled with its own mean, every other label is unchanged, every name is kept, and all three are complete |
| Preprocess.Clean | src/data_cleaning.py:20-34 | the cleaned frame has the raw height and the undropped columns in order; `mileage` is the raw column stripped of `kmpl` and `km/kg`, coerced and mean-filled; `engine` is stripped of `CC`, coerced and mean-filled; `seats` is coerced, mean-filled (then all numbers) and truncated toward zero; every other undropped label reads its raw cells |
| Preprocess.CleanColumns | src/data_cleaning.py:20-34 | cleaning removes exactly the dropped columns, and succeeds only on a frame holding them and `mileage`, `engine` and `seats` |
| Preprocess.CleanValues | src/data_cleaning.py:29-34 | after cleaning, `mileage` and `engine` are complete and `seats` holds whole numbers only |
| Preprocess.CleanSucceeds | src/data_cleaning.py:20-34 | cleaning succeeds exactly on a `Cleanable` raw frame: the dropped labels and `mileage`, `engine` and `seats` present, and `seats`, coerced and filled with its mean, all numbers |
| Preprocess.CleanErrors | src/data_cleaning.py:20-34 | cleaning fails only with `MissingColumn` for a label it reads that the raw frame lacks, or with `CannotCastToInteger` on a present `seats` column that, coerced and filled with its mean, still holds a missing value |
| Preprocess.HandleData | src/data_cleaning.py:17-73 | a successful call returns a rectangular frame with no more rows than the input |
| Preprocess.HandleDataErrors | src/data_cleaning.py:17-73 | a failed call fails with an error `Explained` by the raw frame: `MissingColumn` for a label the call reads that the raw frame lacks; `CannotCastToInteger` on a present `seats` column that, coerced and mean-filled, still holds a missing value; `NotNumeric` for `year`, `selling_price` or `km_driven` present and holding text; or `NumericCategory` for an encoded label present and holding a number |
| Preprocess.HandleDataSucceeds | src/data_cleaning.py:17-73 | a call succeeds exactly on a `Ready` raw frame: cleanable, with `year`, `selling_price` and `km_driven` present and free of text, `fuel`, `seller_type` and `transmission` present and free of numbers, and `owner` present |
| Preprocess.UniqueColumn | src/data_cleaning.py:20-35 | a kept column that cleaning does not convert reaches the capping stage present exactly when it was in the raw frame, and holding text, and numbers, exactly when the raw column did |
| Preprocess.ConvertedClean | src/data_cleaning.py:25-35 | `mileage`, `engine` and `seats` reach the capping stage present and free of text |
| Preprocess.ClipFaultRaw | src/data_cleaning.py:35-65 | a capping fault names a raw label that is absent, or one of `year`, `selling_price`, `km_driven` holding text in the raw frame |
| Preprocess.EncodeFaultRaw | src/data_cleaning.py:35-67 | an encoding fault names an encoded raw label that is absent or holds a number in the raw frame |
| Preprocess.OwnerFaultRaw | src/data_cleaning.py:35-68 | the owner mapping fails only when the raw frame has no `owner` |
| Preprocess.HandleDataReads | src/data_cleaning.py:20-68 | a successful call had every dropped, capped and encoded column and `owner` in its input |
| Preprocess.HandleDataClipped | src/data_cleaning.py:35-65 | each of the six capped columns of the result is its de-duplicated cleaned column clipped to its own fences |
| Preprocess.HandleDataFilled | src/data_cleaning.py:21-35 | after de-duplication, every `mileage` and `engine` cell is a cell of the raw column stripped of its units, coerced and filled with its mean |
| Preprocess.HandleDataEncoded | src/data_cleaning.py:35-67 | for an encodable input, each of `fuel`, `seller_type` and `transmission` is present after de-duplication and gone from the result, and each indicator label reads the indicator of its category over the de-duplicated column |
| Preprocess.HandleDataOwner | src/data_cleaning.py:68 | the `owner` column of the result is the `owner` column of the de-duplicated cleaned frame, mapped cell by cell through the ownership code table; each entry is an ordinal code in `0..3` or missing, one per row |
| Preprocess.HandleDataComplete | src/data_cleaning.py:29-65 | `mileage`, `engine` and `seats` are still complete in the result: neither de-duplication nor capping brings back a missing value |
| Preprocess.Handle | src/data_cleaning.py:107-119 | the context applies the strategy it holds to the frame it holds, and passes that result or error through unchanged |

## Left out

- `DataSplitStrategy` (lines 75-85) is not modelled: it is a random train/test split done by scikit-learn's `train_test_split`, whose shuffle is not part of this model.
- `DataScaleStrategy` (lines 87-105) is not modelled: standard scaling needs floating-point square roots and a library fit.
- The abstract `DataStrategy` (lines 9-13) is represented by the datatype `Preprocess.Strategy`, whose only variant is preprocessing.
- Logging is not modelled. A raised exception is the `Failure` of a `Result`, passed on unchanged.
- `steps/model_evaluate.py` and `steps/run_pipeline.py` are orchestration and I/O, and are not part of this model. So is reading the CSV file: the model starts from a frame of text, number and missing cells.
- Floating point is not modelled. Means, quantiles and fences are exact reals, so rounding in the library's float arithmetic is not represented.
- Numbers.ParseNumber accepts plain decimals only. It does not model exponents, `inf`/`nan` spellings or other forms `pd.to_numeric` reads; in the model those become missing.
- Cleaning.StripCell turns a non-text cell into a missing value, as `.str` does on a mixed column. It does not model the `AttributeError` pandas raises when a whole column has a non-text type.
- Cleaning.StripUnits does not state that no unit remains. That property is false for `mileage` (`Text.MileageResidue`); it is stated for `engine` (`Cleaning.StripEngineClean`).
- Cleaning.AsInt64 does not model 64-bit overflow: a value beyond the int64 range is truncated like any other.
- The `astype('float64')` of `engine` (line 33) changes no value in the model, because numbers are already reals.
- Encoding.OneHot reports a number among the encoded values as `NumericCategory`. pandas would instead make the number a category of its own.
- Preprocess.HandleData: its own contract states only the shape of the result (rectangular, at most the input's rows). When it succeeds is stated by `Preprocess.HandleDataSucceeds` and `Preprocess.HandleDataErrors`; what the result holds is stated by `Preprocess.HandleDataFilled`, `Preprocess.HandleDataClipped`, `Preprocess.HandleDataEncoded`, `Preprocess.HandleDataOwner` and `Preprocess.HandleDataComplete`.
- Preprocess.EncodeAll states its exact success condition only for independent labels, as `Encoded` is. When one listed label is an indicator label of another, whether the later one is found depends on the indicator columns the earlier one created; the contract then states only the kinds of error.
- Preprocess.HandleDataEncoded and Preprocess.EncodeAll state the encoded values only for an `Encodable` frame: one column per encoded label, and no column already carrying a label of the form `name_category` for an encoded `name`. Otherwise pandas would produce clashing labels, which the first-match lookup cannot tell apart.
- Preprocess.FillOne, Preprocess.FillAll and Preprocess.Clean state the filled columns as `FillColumn` of the coerced cells. Neither the mean's floating-point rounding nor the `float64` cast of `engine` is modelled.
- `drop_duplicates` keeps the original index labels of the rows it keeps, so the index of the result has gaps. The model has no index: rows are positions, renumbered from 0.
- Duplicate column labels are not modelled separately. A label reads the first column that carries it, whereas pandas would return all of them.
- The chained `fillna(..., inplace=True)` (lines 29-31) is modelled as taking effect, as it does under pandas before copy-on-write.
- After capping, `seats` may hold a fractional fence value (pandas upcasts the column). The model keeps that value; `Preprocess.HandleDataComplete` claims completeness, not integrality, for the result.

=== FILE: categories.dfy ===
/** The vocabularies of the categorical columns. `pd.get_dummies` orders a
    column's categories by sorting its distinct values (Python compares text
    by code point), and the ownership column is translated through a fixed
    lookup table. */
module Categories {
  import opened Wrappers

  /** Lexicographic order on text, comparing characters by code point. */
  predicate TextLess(a: string, b: string)
    decreases |a|
  {
    if |a| == 0 then |b| > 0
    else if |b| == 0 then false
    else if a[0] == b[0] then TextLess(a[1..], b[1..])
    else a[0] < b[0]
  }

  lemma {:induction false} TextLessIrreflexive(a: string)
    ensures !TextLess(a, a)
    decreases |a|
  {
    if |a| > 0 {
      TextLessIrreflexive(a[1..]);
    }
  }

  lemma {:induction false} TextLessTransitive(a: string, b: string, c: string)
    requires TextLess(a, b) && TextLess(b, c)
    ensures TextLess(a, c)
    decreases |a|
  {
    if |a| > 0 && a[0] == b[0] && b[0] == c[0] {
      TextLessTransitive(a[1..], b[1..], c[1..]);
    }
  }

  /** Any two different texts are ordered one way or the other. */
  lemma {:induction false} TextLessTotal(a: string, b: string)
    requires a != b
    ensures TextLess(a, b) || TextLess(b, a)
    decreases |a|
  {
    if |a| > 0 && |b| > 0 && a[0] == b[0] {
      assert a == [a[0]] + a[1..] && b == [b[0]] + b[1..];
      TextLessTotal(a[1..], b[1..]);
    }
  }

  /** Strictly ascending, hence without repetition. */
  predicate StrictlySorted(cs: seq<string>) {
    forall i, j :: 0 <= i < j < |cs| ==> TextLess(cs[i], cs[j])
  }

  /** `x` added to a strictly ascending list of categories, unless present. */
  function InsertCategory(cs: seq<string>, x: string): (r: seq<string>)
    requires StrictlySorted(cs)
    ensures StrictlySorted(r)
    ensures forall y :: y in r <==> y in cs || y == x
    decreases |cs|
  {
    if |cs| == 0 then [x]
    else if x == cs[0] then cs
    else if TextLess(x, cs[0]) then
      assert forall j :: 0 <= j < |cs| ==> TextLess(x, cs[j]) by {
        forall j | 0 <= j < |cs|
          ensures TextLess(x, cs[j])
        {
          if j > 0 {
            TextLessTransitive(x, cs[0], cs[j]);
          }
        }
      }
      [x] + cs
    else
      TextLessTotal(x, cs[0]);
      var rest := InsertCategory(cs[1..], x);
      assert forall j :: 0 <= j < |rest| ==> TextLess(cs[0], rest[j]) by {
        forall j | 0 <= j < |rest|
          ensures TextLess(cs[0], rest[j])
        {
          assert rest[j] in cs[1..] || rest[j] == x;
        }
      }
      [cs[0]] + rest
  }

  /** The distinct values of `xs` in ascending order: the category list that
      indicator columns are generated from. */
  function SortedDistinct(xs: seq<string>): (cs: seq<string>)
    ensures StrictlySorted(cs)
    ensures forall y :: y in cs <==> y in xs
    decreases |xs|
  {
    if |xs| == 0 then []
    else
      var cs := InsertCategory(SortedDistinct(xs[..|xs| - 1]), xs[|xs| - 1]);
      assert xs == xs[..|xs| - 1] + [xs[|xs| - 1]];
      cs
  }

  /** Categories in a strictly ascending list sit at different positions. */
  lemma SortedDistinctPositions(cs: seq<string>, i: nat, j: nat)
    requires StrictlySorted(cs)
    requires i < |cs| && j < |cs| && i != j
    ensures cs[i] != cs[j]
  {
    if i < j {
      TextLessIrreflexive(cs[i]);
    } else {
      TextLessIrreflexive(cs[j]);
    }
  }

  /** The ordinal code of an ownership-history name. The two labels
      `First Owner` and `Test Drive Car` share code 3; any other name has
      no code and becomes a missing value. */
  function OwnerCode(name: string): Option<int> {
    if name == "Test Drive Car" then Some(3)
    else if name == "Fourth & Above Owner" then Some(0)
    else if name == "Third Owner" then Some(1)
    else if name == "Second Owner" then Some(2)
    else if name == "First Owner" then Some(3)
    else None
  }

  /** The five known labels are exactly the ones with a code. */
  predicate KnownOwner(name: string) {
    name in ["First Owner", "Second Owner", "Third Owner", "Fourth & Above Owner", "Test Drive Car"]
  }

  /** Codes are in `0..3`; a name has one exactly when it is known; the
      ordinary owners are numbered down from 3 as ownership count rises;
      and a test-drive car collides with a first-owner car at 3. */
  lemma OwnerCodeTable(name: string)
    ensures OwnerCode(name).Some? <==> KnownOwner(name)
    ensures OwnerCode(name).Some? ==> 0 <= OwnerCode(name).value <= 3
    ensures OwnerCode("First Owner") == Some(3)
    ensures OwnerCode("Second Owner") == Some(2)
    ensures OwnerCode("Third Owner") == Some(1)
    ensures OwnerCode("Fourth & Above Owner") == Some(0)
    ensures OwnerCode("Test Drive Car") == OwnerCode("First Owner")
  {
  }
}

=== FILE: cleaning.dfy ===
/** The cleaning half of the preprocessing step: dropping unused columns,
    stripping unit suffixes, coercing text to numbers, filling missing
    numbers with the column mean, and casting a column to integers. Each
    step looks its column up by name and fails as the lookup would when the
    column is absent. */
module Cleaning {
  import opened Wrappers
  import opened Frames
  import opened Text
  import opened Numbers
  import opened Stats

  // ---------------------------------------------------------------------
  // Dropping columns

  /** The columns whose names are not listed, in their original order. */
  function Without(cols: seq<Column>, drop: seq<string>): (r: seq<Column>)
    ensures |r| <= |cols|
    ensures forall c :: c in r <==> c in cols && c.name !in drop
    decreases |cols|
  {
    if |cols| == 0 then []
    else
      assert cols == [cols[0]] + cols[1..];
      (if cols[0].name in drop then [] else [cols[0]]) + Without(cols[1..], drop)
  }

  /** Filtering distributes over concatenation; with the membership
      property of `Without`, this says the kept columns keep their order. */
  lemma {:induction false} WithoutAppend(a: seq<Column>, b: seq<Column>, drop: seq<string>)
    ensures Without(a + b, drop) == Without(a, drop) + Without(b, drop)
    decreases |a|
  {
    if |a| > 0 {
      assert (a + b)[1..] == a[1..] + b;
      WithoutAppend(a[1..], b, drop);
    } else {
      assert a + b == b;
    }
  }

  /** A frame none of whose columns is listed is left as it is. */
  lemma {:induction false} WithoutNothing(cols: seq<Column>, drop: seq<string>)
    requires forall k :: 0 <= k < |cols| ==> cols[k].name !in drop
    ensures Without(cols, drop) == cols
    decreases |cols|
  {
    if |cols| > 0 {
      WithoutNothing(cols[1..], drop);
      assert cols == [cols[0]] + cols[1..];
    }
  }

  /** A label that is not dropped finds, among the kept columns, the column
      it found before. */
  lemma {:induction false} WithoutColumnOf(h: nat, cols: seq<Column>, drop: seq<string>, n: string)
    requires n !in drop
    ensures ColumnOf(Frame(h, Without(cols, drop)), n) == ColumnOf(Frame(h, cols), n)
    decreases |cols|
  {
    if |cols| > 0 {
      WithoutColumnOf(h, cols[1..], drop, n);
      if cols[0].name in drop {
        WithoutColumnOfDropped(h, cols, drop, n);
      } else {
        WithoutColumnOfKept(h, cols, drop, n);
      }
    }
  }

  /** The inductive step of `WithoutColumnOf` when the front column is dropped. */
  lemma WithoutColumnOfDropped(h: nat, cols: seq<Column>, drop: seq<string>, n: string)
    requires |cols| > 0 && n !in drop && cols[0].name in drop
    requires ColumnOf(Frame(h, Without(cols[1..], drop)), n) == ColumnOf(Frame(h, cols[1..]), n)
    ensures ColumnOf(Frame(h, Without(cols, drop)), n) == ColumnOf(Frame(h, cols), n)
  {
    assert Without(cols, drop) == Without(cols[1..], drop);
    ColumnOfFront(h, cols, n);
  }

  /** The inductive step of `WithoutColumnOf` when the front column is kept. */
  lemma WithoutColumnOfKept(h: nat, cols: seq<Column>, drop: seq<string>, n: string)
    requires |cols| > 0 && n !in drop && cols[0].name !in drop
    requires ColumnOf(Frame(h, Without(cols[1..], drop)), n) == ColumnOf(Frame(h, cols[1..]), n)
    ensures ColumnOf(Frame(h, Without(cols, drop)), n) == ColumnOf(Frame(h, cols), n)
  {
    var w := Without(cols, drop);
    assert w == [cols[0]] + Without(cols[1..], drop);
    assert w[0] == cols[0] && w[1..] == Without(cols[1..], drop);
    ColumnOfFront(h, cols, n);
    ColumnOfFront(h, w, n);
  }

  /** Looking a label up starts at the front column. */
  lemma ColumnOfFront(h: nat, cols: seq<Column>, n: string)
    requires |cols| > 0
    ensures ColumnOf(Frame(h, cols), n) == if cols[0].name == n then Some(cols[0].cells) else ColumnOf(Frame(h, cols[1..]), n)
  {
  }

  /** Dropping columns cannot make a label appear twice. */
  lemma {:induction false} WithoutAtMostOnce(cols: seq<Column>, drop: seq<string>, e: string)
    requires LabelAtMostOnce(cols, e)
    ensures LabelAtMostOnce(Without(cols, drop), e)
    decreases |cols|
  {
    if |cols| > 0 {
      var rest := cols[1..];
      forall i, j | 0 <= i < |rest| && 0 <= j < |rest| && rest[i].name == e && rest[j].name == e
        ensures i == j
      {
        assert cols[i + 1].name == e && cols[j + 1].name == e;
      }
      WithoutAtMostOnce(rest, drop, e);
      var w, wr := Without(cols, drop), Without(rest, drop);
      if cols[0].name in drop {
        assert w == wr;
      } else {
        assert w == [cols[0]] + wr;
        if cols[0].name == e {
          forall t | 0 <= t < |wr|
            ensures wr[t].name != e
          {
            var i :| 0 <= i < |rest| && rest[i] == wr[t];
            assert cols[i + 1] == wr[t];
          }
        }
        forall i, j | 0 <= i < |w| && 0 <= j < |w| && w[i].name == e && w[j].name == e
          ensures i == j
        {
          if 0 < i && 0 < j {
            assert wr[i - 1].name == e && wr[j - 1].name == e;
          }
        }
      }
    }
  }

  /** The first listed name that is not a column of `f`. */
  function FirstAbsent(f: Frame, names: seq<string>): (r: Option<string>)
    ensures r.None? <==> forall n :: n in names ==> HasColumn(f, n)
    ensures r.Some? ==> r.value in names && !HasColumn(f, r.value)
    decreases |names|
  {
    if |names| == 0 then None
    else if !HasColumn(f, names[0]) then Some(names[0])
    else
      assert names == [names[0]] + names[1..];
      FirstAbsent(f, names[1..])
  }

  /** `data.drop(columns=drop)`: every listed label must name a column, or
      the call raises; otherwise all columns with a listed name are removed
      and the rest keep their order, names and cells. */
  function DropColumns(f: Frame, drop: seq<string>): (r: Result<Frame, Error>)
    requires Rectangular(f)
    ensures r.Success? <==> forall n :: n in drop ==> HasColumn(f, n)
    ensures r.Failure? ==> exists n :: n in drop && !HasColumn(f, n) && r.error == MissingColumn(n)
    ensures r.Success? ==> Rectangular(r.value) && r.value.height == f.height
    ensures r.Success? ==> forall n :: HasColumn(r.value, n) <==> HasColumn(f, n) && n !in drop
    ensures r.Success? ==> forall c :: c in r.value.cols <==> c in f.cols && c.name !in drop
    ensures r.Success? ==> r.value.cols == Without(f.cols, drop)
    ensures r.Success? ==> forall n :: n !in drop ==> ColumnOf(r.value, n) == ColumnOf(f, n)
  {
    match FirstAbsent(f, drop)
    case Some(n) => Failure(MissingColumn(n))
    case None =>
      var g := Frame(f.height, Without(f.cols, drop));
      assert forall n :: HasColumn(g, n) <==> HasColumn(f, n) && n !in drop by {
        forall n
          ensures HasColumn(g, n) <==> HasColumn(f, n) && n !in drop
        {
          if HasColumn(g, n) {
            var k :| 0 <= k < |g.cols| && g.cols[k].name == n;
            assert g.cols[k] in f.cols;
          }
          if HasColumn(f, n) && n !in drop {
            var k :| 0 <= k < |f.cols| && f.cols[k].name == n;
            assert f.cols[k] in g.cols;
          }
        }
      }
      assert Rectangular(g) by {
        forall k | 0 <= k < |g.cols|
          ensures |g.cols[k].cells| == f.height
        {
          assert g.cols[k] in f.cols;
        }
      }
      forall n | n !in drop
        ensures ColumnOf(g, n) == ColumnOf(f, n)
      {
        WithoutColumnOf(f.height, f.cols, drop, n);
      }
      Success(g)
  }

  // ---------------------------------------------------------------------
  // Stripping units

  /** `.str.replace(unit, '')` on one cell: text loses every occurrence of
      the unit; a cell that is not text has no string value and comes out
      missing. */
  function StripCell(c: Cell, unit: string): (r: Cell)
    requires |unit| > 0
    ensures r.Text? <==> c.Text?
    ensures r.Text? ==> |r.s| <= |c.s|
    ensures c.Text? ==> (r == c <==> !Contains(c.s, unit))
  {
    match c
    case Text(s) => Text(RemoveAll(s, unit))
    case _ => Missing
  }

  function StripCells(cells: seq<Cell>, unit: string): (r: seq<Cell>)
    requires |unit| > 0
    ensures |r| == |cells|
    ensures forall i :: 0 <= i < |cells| ==> r[i] == StripCell(cells[i], unit)
  {
    seq(|cells|, i requires 0 <= i < |cells| => StripCell(cells[i], unit))
  }

  /** `data[name] = data[name].str.replace(unit, '')`. */
  function StripUnits(f: Frame, name: string, unit: string): (r: Result<Frame, Error>)
    requires Rectangular(f) && |unit| > 0
    ensures r.Success? <==> HasColumn(f, name)
    ensures r.Failure? ==> r.error == MissingColumn(name)
    ensures r.Success? ==> Rectangular(r.value) && r.value.height == f.height && SameNames(f, r.value)
    ensures r.Success? ==> forall n :: n != name ==> ColumnOf(r.value, n) == ColumnOf(f, n)
    ensures r.Success? ==> ColumnOf(r.value, name) == Some(StripCells(ColumnOf(f, name).value, unit))
  {
    var k :- Find(f, name);
    var g := Replace(f, k, StripCells(f.cols[k].cells, unit));
    ReplaceLabels(f, k, StripCells(f.cols[k].cells, unit));
    Success(g)
  }

  /** Stripping `"CC"` from an engine reading leaves no `"CC"` behind:
      a doubled letter cannot be reassembled from the pieces around a
      removed occurrence. */
  lemma StripEngineClean(cells: seq<Cell>)
    ensures forall i :: 0 <= i < |cells| && StripCells(cells, "CC")[i].Text? ==>
      !Contains(StripCells(cells, "CC")[i].s, "CC")
  {
    forall i | 0 <= i < |cells| && StripCells(cells, "CC")[i].Text?
      ensures !Contains(StripCells(cells, "CC")[i].s, "CC")
    {
      RemoveDoubledLeavesNone(cells[i].s, 'C');
    }
  }

  /** A reading written once with its unit at the end loses exactly the
      unit. */
  lemma StripSuffix(a: string, unit: string)
    requires |unit| > 0
    requires forall i :: 0 <= i < |a| ==> !OccursAt(a + unit, unit, i)
    ensures StripCell(Text(a + unit), unit) == Text(a)
  {
    RemoveTrailing(a, unit);
  }

  // ---------------------------------------------------------------------
  // Coercing to numbers

  /** `pd.to_numeric(errors='coerce')` on one cell: text that reads as a
      number becomes that number and any other text becomes missing;
      numbers and missing values pass through. */
  function CoerceCell(c: Cell): (r: Cell)
    ensures !r.Text?
    ensures !c.Text? ==> r == c
    ensures c.Text? ==> (r.Num? <==> ParseNumber(c.s).Some?)
    ensures c.Text? && r.Num? ==> r.x == ParseNumber(c.s).value
  {
    match c
    case Text(s) =>
      (match ParseNumber(s)
       case Some(x) => Num(x)
       case None => Missing)
    case _ => c
  }

  function CoerceCells(cells: seq<Cell>): (r: seq<Cell>)
    ensures |r| == |cells| && !HasText(r)
    ensures forall i :: 0 <= i < |cells| ==> r[i] == CoerceCell(cells[i])
  {
    seq(|cells|, i requires 0 <= i < |cells| => CoerceCell(cells[i]))
  }

  /** `data[name] = pd.to_numeric(data[name], errors='coerce')`: it fails
      only on an absent column; afterwards the column holds no text. */
  function Coerce(f: Frame, name: string): (r: Result<Frame, Error>)
    requires Rectangular(f)
    ensures r.Success? <==> HasColumn(f, name)
    ensures r.Failure? ==> r.error == MissingColumn(name)
    ensures r.Success? ==> Rectangular(r.value) && r.value.height == f.height && SameNames(f, r.value)
    ensures r.Success? ==> forall n :: n != name ==> ColumnOf(r.value, n) == ColumnOf(f, n)
    ensures r.Success? ==> ColumnOf(r.value, name) == Some(CoerceCells(ColumnOf(f, name).value))
  {
    var k :- Find(f, name);
    ReplaceLabels(f, k, CoerceCells(f.cols[k].cells));
    Success(Replace(f, k, CoerceCells(f.cols[k].cells)))
  }

  /** Coercion is idempotent: a coerced column holds no text left to read. */
  lemma CoerceIdempotent(cells: seq<Cell>)
    ensures CoerceCells(CoerceCells(cells)) == CoerceCells(cells)
  {
  }

  /** A value written as a decimal numeral, with its unit after a space,
      comes through stripping and coercion as its number. */
  lemma StripThenCoerce(w: nat, v: nat, k: nat, unit: string)
    requires v < Pow10(k)
    requires |unit| > 0 && unit[0] != ' ' && unit[0] != '.' && !IsDigit(unit[0])
    ensures CoerceCell(StripCell(Text(ShowFixed(w, v, k) + " " + unit), unit)) == Num(FixedValue(w, v, k))
  {
    var a := ShowFixed(w, v, k) + " ";
    assert forall i :: 0 <= i < |a| ==> a[i] == ' ' || a[i] == '.' || IsDigit(a[i]) by {
      ShowFixedChars(w, v, k);
    }
    forall i | 0 <= i < |a|
      ensures !OccursAt(a + unit, unit, i)
    {
      assert (a + unit)[i] == a[i];
      if i + |unit| <= |a + unit| {
        assert (a + unit)[i..i + |unit|][0] == (a + unit)[i];
      }
    }
    RemoveTrailing(a, unit);
    assert a == "" + ShowFixed(w, v, k) + " ";
    ParsePadded("", ShowFixed(w, v, k), " ");
    ParseShowFixed(w, v, k);
  }

  /** A fixed-point numeral is made of digits and one point. */
  lemma ShowFixedChars(w: nat, v: nat, k: nat)
    requires v < Pow10(k)
    ensures var s := ShowFixed(w, v, k);
      forall i :: 0 <= i < |s| ==> s[i] == '.' || IsDigit(s[i])
  {
    var a, b := ShowNat(w), ShowPadded(v, k);
    var s := ShowFixed(w, v, k);
    forall i | 0 <= i < |s|
      ensures s[i] == '.' || IsDigit(s[i])
    {
      if i < |a| {
        assert s[i] == a[i];
      } else if i > |a| {
        assert s[i] == b[i - |a| - 1];
      }
    }
  }

  // ---------------------------------------------------------------------
  // Filling missing values with the mean

  /** Missing cells replaced by `v`; every other cell unchanged. */
  function FillCells(cells: seq<Cell>, v: real): (r: seq<Cell>)
    ensures |r| == |cells|
    ensures forall i :: 0 <= i < |cells| ==> r[i] == (if cells[i].Missing? then Num(v) else cells[i])
  {
    seq(|cells|, i requires 0 <= i < |cells| => if cells[i].Missing? then Num(v) else cells[i])
  }

  /** A column after filling with its mean: unchanged when it holds no
      number (the mean is then missing), otherwise its missing cells take
      the mean of its numbers. */
  function FillColumn(cells: seq<Cell>): (r: seq<Cell>)
    ensures |r| == |cells|
    ensures |NumValues(cells)| == 0 ==> r == cells
    ensures |NumValues(cells)| > 0 ==> r == FillCells(cells, Mean(NumValues(cells)))
  {
    var xs := NumValues(cells);
    if |xs| == 0 then cells else FillCells(cells, Mean(xs))
  }

  /** `data[name].fillna(data[name].mean(), inplace=True)`. The mean skips
      missing values and fails on text. With no number in the column the
      mean is itself missing, and filling with it changes nothing. */
  function FillMean(f: Frame, name: string): (r: Result<Frame, Error>)
    requires Rectangular(f)
    ensures r.Success? <==> HasColumn(f, name) && !HasText(ColumnOf(f, name).value)
    ensures r.Failure? ==> r.error == (if HasColumn(f, name) then NotNumeric(name) else MissingColumn(name))
    ensures r.Success? ==> Rectangular(r.value) && r.value.height == f.height && SameNames(f, r.value)
    ensures r.Success? ==> forall n :: n != name ==> ColumnOf(r.value, n) == ColumnOf(f, n)
    ensures r.Success? ==> ColumnOf(r.value, name) == Some(FillColumn(ColumnOf(f, name).value))
  {
    var k :- Find(f, name);
    var cells := f.cols[k].cells;
    ReplaceLabels(f, k, cells);
    if HasText(cells) then Failure(NotNumeric(name))
    else if |NumValues(cells)| == 0 then
      assert Replace(f, k, cells) == f;
      Success(f)
    else
      ReplaceLabels(f, k, FillColumn(cells));
      Success(Replace(f, k, FillColumn(cells)))
  }

  /** After filling a text-free column that holds at least one number, no
      value is missing, the numbers that were there are untouched, and the
      fill value is within any bounds that hold all the original numbers. */
  lemma FillComplete(cells: seq<Cell>, lo: real, hi: real)
    requires !HasText(cells) && |NumValues(cells)| > 0
    requires forall i :: 0 <= i < |cells| && cells[i].Num? ==> lo <= cells[i].x <= hi
    ensures var r := FillCells(cells, Mean(NumValues(cells)));
      AllNum(r) &&
      (forall i :: 0 <= i < |cells| && cells[i].Num? ==> r[i] == cells[i]) &&
      (forall i :: 0 <= i < |cells| ==> lo <= r[i].x <= hi)
  {
    var xs := NumValues(cells);
    NumValuesMembers(cells);
    forall j | 0 <= j < |xs|
      ensures lo <= xs[j] <= hi
    {
      assert xs[j] in xs;
      assert Num(xs[j]) in cells;
    }
    MeanBetween(xs, lo, hi);
  }

  /** Filling with the mean keeps the mean: the numbers after filling have
      the same mean as the numbers before. */
  lemma FillKeepsMean(cells: seq<Cell>)
    requires !HasText(cells) && |NumValues(cells)| > 0
    ensures |NumValues(FillCells(cells, Mean(NumValues(cells))))| == |cells|
    ensures Mean(NumValues(FillCells(cells, Mean(NumValues(cells))))) == Mean(NumValues(cells))
  {
    var xs := NumValues(cells);
    var ys := NumValues(FillCells(cells, Mean(xs)));
    FilledCount(cells, Mean(xs));
    FilledSum(cells, Mean(xs));
    MeanOfExtended(xs, ys, MissingCount(cells));
  }

  /** Adding `k` more copies of the mean to some values keeps their mean. */
  lemma MeanOfExtended(xs: seq<real>, ys: seq<real>, k: nat)
    requires |xs| > 0 && |ys| == |xs| + k
    requires Sum(ys) == Sum(xs) + Times(k, Mean(xs))
    ensures Mean(ys) == Mean(xs)
  {
    var s, t, n, kk, m := Sum(xs), Sum(ys), |xs| as real, k as real, Mean(xs);
    assert m == s / n;
    assert t == s + kk * m by {
      TimesProduct(k, m);
    }
    ExtendedRatio(s, t, n, kk, m);
    assert |ys| as real == n + kk;
    assert Mean(ys) == t / (n + kk);
  }

  /** `t = s + k * (s / n)` gives `t / (n + k) = s / n`. */
  lemma ExtendedRatio(s: real, t: real, n: real, k: real, m: real)
    requires n > 0.0 && k >= 0.0
    requires m == s / n
    requires t == s + k * m
    ensures t / (n + k) == m
  {
    DivBack(s, n);
    assert t == (n + k) * m;
    DivBack(t, n + k);
    assert (n + k) * (t / (n + k)) == (n + k) * m;
  }

  lemma DivBack(s: real, n: real)
    requires n > 0.0
    ensures n * (s / n) == s
  {
  }

  /** The number of missing cells. */
  function MissingCount(cells: seq<Cell>): nat
    decreases |cells|
  {
    if |cells| == 0 then 0 else (if cells[0].Missing? then 1 else 0) + MissingCount(cells[1..])
  }

  /** The numbers of a column with one more cell in front. */
  lemma NumValuesCons(c: Cell, rest: seq<Cell>)
    ensures NumValues([c] + rest) == (if c.Num? then [c.x] else []) + NumValues(rest)
  {
    assert ([c] + rest)[1..] == rest;
  }

  lemma SumCons(x: real, rest: seq<real>)
    ensures Sum([x] + rest) == x + Sum(rest)
  {
    assert ([x] + rest)[1..] == rest;
  }

  /** A text-free column is its numbers and its missing cells; after
      filling, all of it is numbers. */
  lemma {:induction false} FilledCount(cells: seq<Cell>, m: real)
    requires !HasText(cells)
    ensures |NumValues(cells)| + MissingCount(cells) == |cells|
    ensures |NumValues(FillCells(cells, m))| == |cells|
    decreases |cells|
  {
    if |cells| > 0 {
      var c, rest := cells[0], cells[1..];
      var g := FillCells(cells, m);
      NoTextTail(cells);
      FilledCount(rest, m);
      FillCons(cells, m);
      assert |NumValues(cells)| + MissingCount(cells) == |cells| by {
        assert cells == [c] + rest;
        NumValuesCons(c, rest);
      }
      assert |NumValues(g)| == |cells| by {
        NumValuesCons(g[0], FillCells(rest, m));
      }
    }
  }

  /** Filling adds the value `m` once per missing cell to the numbers. */
  lemma {:induction false} FilledSum(cells: seq<Cell>, m: real)
    requires !HasText(cells)
    ensures Sum(NumValues(FillCells(cells, m))) == Sum(NumValues(cells)) + Times(MissingCount(cells), m)
    decreases |cells|
  {
    if |cells| > 0 {
      var c, rest := cells[0], cells[1..];
      var g := FillCells(cells, m);
      NoTextTail(cells);
      FilledSum(rest, m);
      assert g[1..] == FillCells(rest, m);
      if c.Num? {
        assert NumValues(cells) == [c.x] + NumValues(rest);
        assert NumValues(g) == [c.x] + NumValues(FillCells(rest, m));
        SumCons(c.x, NumValues(rest));
        SumCons(c.x, NumValues(FillCells(rest, m)));
      } else {
        assert NumValues(cells) == NumValues(rest);
        assert NumValues(g) == [m] + NumValues(FillCells(rest, m));
        SumCons(m, NumValues(FillCells(rest, m)));
      }
    }
  }

  /** `k` copies of `m` added up. */
  function Times(k: nat, m: real): real {
    if k == 0 then 0.0 else m + Times(k - 1, m)
  }

  lemma {:induction false} TimesProduct(k: nat, m: real)
    ensures Times(k, m) == k as real * m
  {
    if k > 0 {
      TimesProduct(k - 1, m);
      assert k as real * m == (k - 1) as real * m + m;
    }
  }

  /** Filling a column is filling its first cell and then the rest. */
  lemma FillCons(cells: seq<Cell>, m: real)
    requires |cells| > 0
    ensures FillCells(cells, m) == [FillCells(cells, m)[0]] + FillCells(cells[1..], m)
    ensures FillCells(cells, m)[0] == if cells[0].Missing? then Num(m) else cells[0]
  {
    assert FillCells(cells, m)[1..] == FillCells(cells[1..], m);
  }

  lemma NoTextTail(cells: seq<Cell>)
    requires |cells| > 0 && !HasText(cells)
    ensures !HasText(cells[1..]) && !cells[0].Text?
  {
  }

  // ---------------------------------------------------------------------
  // Casting to integers

  /** `data[name] = data[name].astype('int64')`: every value must be a
      number (a missing value cannot be cast), and each is truncated toward
      zero, so a fractional fill mean keeps only its integer part. */
  function AsInt64(f: Frame, name: string): (r: Result<Frame, Error>)
    requires Rectangular(f)
    ensures r.Success? <==> HasColumn(f, name) && AllNum(ColumnOf(f, name).value)
    ensures r.Failure? ==> r.error == (if HasColumn(f, name) then CannotCastToInteger(name) else MissingColumn(name))
    ensures r.Success? ==> Rectangular(r.value) && r.value.height == f.height && SameNames(f, r.value)
    ensures r.Success? ==> forall n :: n != name ==> ColumnOf(r.value, n) == ColumnOf(f, n)
    ensures r.Success? ==> ColumnOf(r.value, name) == Some(TruncCells(ColumnOf(f, name).value))
  {
    var k :- Find(f, name);
    var cells := f.cols[k].cells;
    ReplaceLabels(f, k, cells);
    if !AllNum(cells) then Failure(CannotCastToInteger(name))
    else
      ReplaceLabels(f, k, TruncCells(cells));
      Success(Replace(f, k, TruncCells(cells)))
  }

  /** Each number truncated toward zero, as the cast to a 64-bit integer
      does. The result holds whole numbers only. */
  function TruncCells(cells: seq<Cell>): (r: seq<Cell>)
    requires AllNum(cells)
    ensures |r| == |cells| && AllNum(r)
    ensures forall i :: 0 <= i < |cells| ==> r[i] == Num(TruncTowardZero(cells[i].x) as real)
    ensures forall i :: 0 <= i < |cells| ==> r[i].x == r[i].x.Floor as real
  {
    seq(|cells|, i requires 0 <= i < |cells| => Num(TruncTowardZero(cells[i].x) as real))
  }

  /** Truncation keeps the sign and never moves a value by a whole unit or
      more, and an integer value is left as it is. */
  lemma TruncBounds(x: real)
    ensures Dist(TruncTowardZero(x) as real, x) < 1.0
    ensures Dist(TruncTowardZero(x) as real, 0.0) <= Dist(x, 0.0)
    ensures x == x.Floor as real ==> TruncTowardZero(x) as real == x
  {
  }
}

=== FILE: dedup.dfy ===
/** `DataFrame.drop_duplicates()`: rows equal in every column (a missing
    value counting as equal to a missing value) are reduced to their first
    occurrence. */
module Dedup {
  import opened Frames
  import opened Distinct

  /** `g` is the rows of `f` at positions `idx`, and those positions are
      exactly the first occurrences of the rows of `f`, in increasing order. */
  predicate FirstRowsInOrder(f: Frame, g: Frame, idx: seq<nat>)
    requires Rectangular(f) && Rectangular(g)
  {
    |idx| == g.height &&
    (forall m :: 0 <= m < |idx| ==> idx[m] < f.height && IsFirst(Rows(f), idx[m]) && Row(g, m) == Row(f, idx[m])) &&
    (forall m, m' :: 0 <= m < m' < |idx| ==> idx[m] < idx[m']) &&
    (forall i :: 0 <= i < f.height && IsFirst(Rows(f), i) ==> i in idx)
  }

  /** The frame with repeated rows removed. No two rows of the result are
      equal, every row of the input appears in it, and the rows kept are
      the first occurrences, in their original order, under the same
      columns. */
  function DropDuplicates(f: Frame): (g: Frame)
    requires Rectangular(f)
    ensures Rectangular(g) && SameNames(f, g) && g.height <= f.height
    ensures forall m, m' :: 0 <= m < m' < g.height ==> Row(g, m) != Row(g, m')
    ensures forall i :: 0 <= i < f.height ==> exists m :: 0 <= m < g.height && Row(g, m) == Row(f, i)
    ensures exists idx :: FirstRowsInOrder(f, g, idx)
  {
    var keep := FirstOccurrences(Rows(f));
    var g := SelectRows(f, keep);
    SelectedDistinct(f, keep, g);
    SelectedCover(f, keep, g);
    assert FirstRowsInOrder(f, g, keep);
    g
  }

  /** The rows kept at first occurrences are pairwise different. */
  lemma SelectedDistinct(f: Frame, keep: seq<nat>, g: Frame)
    requires Rectangular(f) && keep == FirstOccurrences(Rows(f)) && g == SelectRows(f, keep)
    ensures forall m, m' :: 0 <= m < m' < g.height ==> Row(g, m) != Row(g, m')
  {
    KeptDistinct(Rows(f));
  }

  /** Every row of `f` equals one of the rows kept. */
  lemma SelectedCover(f: Frame, keep: seq<nat>, g: Frame)
    requires Rectangular(f) && keep == FirstOccurrences(Rows(f)) && g == SelectRows(f, keep)
    ensures forall i :: 0 <= i < f.height ==> exists m :: 0 <= m < g.height && Row(g, m) == Row(f, i)
  {
    var rows := Rows(f);
    forall i | 0 <= i < f.height
      ensures exists m :: 0 <= m < g.height && Row(g, m) == Row(f, i)
    {
      KeptCover(rows, i);
      var m :| 0 <= m < |keep| && rows[keep[m]] == rows[i];
      assert Row(g, m) == Row(f, i);
    }
  }

  /** Every cell of a column after de-duplication is a cell of that column
      before it. */
  lemma DropDuplicatesCells(f: Frame, name: string)
    requires Rectangular(f) && HasColumn(f, name)
    ensures ColumnOf(DropDuplicates(f), name).Some?
    ensures forall c :: c in ColumnOf(DropDuplicates(f), name).value ==> c in ColumnOf(f, name).value
  {
    var g := DropDuplicates(f);
    var idx :| FirstRowsInOrder(f, g, idx);
    SameNamesFind(f, g, name);
    SelectedCells(f, g, idx, IndexOf(f.cols, name));
  }

  /** Conversely, every cell of a column before de-duplication is still a
      cell of it afterwards: a repeated row leaves its first occurrence. */
  lemma DropDuplicatesKeepsCells(f: Frame, name: string)
    requires Rectangular(f) && HasColumn(f, name)
    ensures ColumnOf(DropDuplicates(f), name).Some?
    ensures forall c :: c in ColumnOf(f, name).value ==> c in ColumnOf(DropDuplicates(f), name).value
  {
    var g := DropDuplicates(f);
    SameNamesFind(f, g, name);
    var k := IndexOf(f.cols, name);
    var before, after := f.cols[k].cells, g.cols[k].cells;
    assert ColumnOf(f, name).value == before && ColumnOf(g, name).value == after;
    forall i | 0 <= i < |before|
      ensures before[i] in after
    {
      var m :| 0 <= m < g.height && Row(g, m) == Row(f, i);
      assert Row(g, m)[k] == after[m];
    }
  }

  /** Rows taken from `f` hold, column by column, only cells of `f`. */
  lemma SelectedCells(f: Frame, g: Frame, idx: seq<nat>, k: nat)
    requires Rectangular(f) && Rectangular(g) && SameNames(f, g) && k < |f.cols|
    requires FirstRowsInOrder(f, g, idx)
    ensures forall c :: c in g.cols[k].cells ==> c in f.cols[k].cells
  {
    forall c | c in g.cols[k].cells
      ensures c in f.cols[k].cells
    {
      var m :| 0 <= m < |g.cols[k].cells| && g.cols[k].cells[m] == c;
      assert Row(g, m)[k] == Row(f, idx[m])[k];
    }
  }

  /** De-duplicating a frame whose rows are already distinct changes
      nothing. */
  lemma DropDuplicatesDistinct(f: Frame)
    requires Rectangular(f)
    requires forall i, j :: 0 <= i < j < f.height ==> Row(f, i) != Row(f, j)
    ensures DropDuplicates(f).height == f.height
  {
    var rows := Rows(f);
    var keep := FirstOccurrences(rows);
    forall i | 0 <= i < f.height
      ensures IsFirst(rows, i)
    {
      assert forall j :: 0 <= j < i ==> rows[..i][j] == Row(f, j);
    }
    AllKept(keep, f.height);
  }

  /** A strictly increasing list of positions below `n` that holds every
      position below `n` has length `n`. */
  lemma {:induction false} AllKept(keep: seq<nat>, n: nat)
    requires forall m :: 0 <= m < |keep| ==> keep[m] < n
    requires forall m, m' :: 0 <= m < m' < |keep| ==> keep[m] < keep[m']
    requires forall i :: 0 <= i < n ==> i in keep
    ensures |keep| == n
    decreases n
  {
    if n > 0 {
      assert n - 1 in keep;
      var m :| 0 <= m < |keep| && keep[m] == n - 1;
      assert keep[|keep| - 1] < n;
      assert m == |keep| - 1;
      var front := keep[..|keep| - 1];
      forall i | 0 <= i < n - 1
        ensures i in front
      {
        assert i in keep;
        var j :| 0 <= j < |keep| && keep[j] == i;
        assert j < |keep| - 1;
        assert front[j] == i;
      }
      AllKept(front, n - 1);
    }
  }
}

=== FILE: distinct.dfy ===
/** First-occurrence de-duplication, as `DataFrame.drop_duplicates` with its
    default `keep='first'` selects rows: a row is kept exactly when no equal
    row comes before it, and kept rows stay in their original order. */
module Distinct {

  /** Position `i` holds the first occurrence of its value. */
  predicate IsFirst<T(==)>(s: seq<T>, i: nat)
    requires i < |s|
  {
    s[i] !in s[..i]
  }

  /** The indices of first occurrences, in increasing order. */
  function FirstOccurrences<T(==)>(s: seq<T>): (keep: seq<nat>)
    ensures |keep| <= |s|
    ensures forall m :: 0 <= m < |keep| ==> keep[m] < |s| && IsFirst(s, keep[m])
    ensures forall m, m' :: 0 <= m < m' < |keep| ==> keep[m] < keep[m']
    ensures forall i :: 0 <= i < |s| && IsFirst(s, i) ==> i in keep
    decreases |s|
  {
    if |s| == 0 then []
    else
      var n := |s| - 1;
      var front := s[..n];
      var keep := FirstOccurrences(front);
      assert forall i :: 0 <= i < n ==> front[..i] == s[..i];
      if s[n] in front then keep else keep + [n]
  }

  /** Every value of `s` is found at the first-occurrence index of itself. */
  lemma {:induction false} HasFirst<T>(s: seq<T>, i: nat)
    requires i < |s|
    ensures exists j :: 0 <= j <= i && s[j] == s[i] && IsFirst(s, j)
    decreases i
  {
    if !IsFirst(s, i) {
      var j :| 0 <= j < i && s[j] == s[i];
      HasFirst(s, j);
    }
  }

  /** The kept values are pairwise different. */
  lemma KeptDistinct<T>(s: seq<T>)
    ensures var keep := FirstOccurrences(s);
      forall m, m' :: 0 <= m < m' < |keep| ==> s[keep[m]] != s[keep[m']]
  {
    var keep := FirstOccurrences(s);
    forall m, m' | 0 <= m < m' < |keep|
      ensures s[keep[m]] != s[keep[m']]
    {
      assert keep[m] < keep[m'];
      assert s[..keep[m']][keep[m]] == s[keep[m]];
    }
  }

  /** Every value of `s` is one of the kept values. */
  lemma KeptCover<T>(s: seq<T>, i: nat)
    requires i < |s|
    ensures exists m :: 0 <= m < |FirstOccurrences(s)| && s[FirstOccurrences(s)[m]] == s[i]
  {
    var keep := FirstOccurrences(s);
    HasFirst(s, i);
    var j :| 0 <= j <= i && s[j] == s[i] && IsFirst(s, j);
    assert j in keep;
    var m :| 0 <= m < |keep| && keep[m] == j;
    assert s[keep[m]] == s[i];
  }
}

=== FILE: encoding.dfy ===
/** The encoding half of the preprocessing step: one-hot encoding of the
    categorical columns with the first category dropped (`pd.get_dummies`
    with `drop_first=True` and integer indicators), and the ordinal coding
    of the ownership column through a lookup table (`Series.map` with a
    dictionary). */
module Encoding {
  import opened Wrappers
  import opened Frames
  import opened Categories

  /** The text values of a column in row order. */
  function TextValues(cells: seq<Cell>): (ts: seq<string>)
    ensures forall t :: t in ts <==> Text(t) in cells
    decreases |cells|
  {
    if |cells| == 0 then []
    else
      assert cells == [cells[0]] + cells[1..];
      (match cells[0] case Text(t) => [t] case _ => []) + TextValues(cells[1..])
  }

  /** The categories of a column: its distinct text values, ascending. */
  function CategoriesOf(cells: seq<Cell>): (cats: seq<string>)
    ensures StrictlySorted(cats)
    ensures forall t :: t in cats <==> Text(t) in cells
  {
    SortedDistinct(TextValues(cells))
  }

  predicate HasNum(cells: seq<Cell>) {
    exists i :: 0 <= i < |cells| && cells[i].Num?
  }

  /** The label of the indicator column of category `cat` of column `name`
      (`get_dummies` joins them with its default separator `_`). */
  function DummyName(name: string, cat: string): string {
    name + "_" + cat
  }

  /** Different categories of one column get different indicator labels. */
  lemma DummyNameInjective(name: string, a: string, b: string)
    requires DummyName(name, a) == DummyName(name, b)
    ensures a == b
  {
    var p := name + "_";
    assert DummyName(name, a)[|p|..] == a;
    assert DummyName(name, b)[|p|..] == b;
  }

  /** The integer indicator of one category: 1 in the rows holding it, 0
      in every other row, missing rows included. */
  function Indicator(cells: seq<Cell>, cat: string): (r: seq<Cell>)
    ensures |r| == |cells|
    ensures forall i :: 0 <= i < |cells| ==> r[i] == Num(1.0) || r[i] == Num(0.0)
    ensures forall i :: 0 <= i < |cells| ==> (r[i] == Num(1.0) <==> cells[i] == Text(cat))
  {
    seq(|cells|, i requires 0 <= i < |cells| => if cells[i] == Text(cat) then Num(1.0) else Num(0.0))
  }

  /** One indicator column for each category but the first. */
  function Dummies(name: string, cells: seq<Cell>, cats: seq<string>): (ds: seq<Column>)
    ensures |ds| == if |cats| == 0 then 0 else |cats| - 1
    ensures forall j :: 0 <= j < |ds| ==> ds[j] == Column(DummyName(name, cats[j + 1]), Indicator(cells, cats[j + 1]))
    ensures forall j :: 0 <= j < |ds| ==> |ds[j].cells| == |cells| && IsDummyOf(ds[j].name, name)
  {
    assert forall c :: (name + "_" + c)[..|name| + 1] == name + "_";
    if |cats| == 0 then []
    else seq(|cats| - 1, j requires 0 <= j < |cats| - 1 => Column(DummyName(name, cats[j + 1]), Indicator(cells, cats[j + 1])))
  }

  /** The indicators of a text column. Each is 0 or 1, and it is 1 exactly
      in the rows holding its category. At most one indicator is 1 in any
      row. A row has all indicators 0 exactly when it holds the first
      category or is missing. */
  lemma OneHotIndicators(name: string, cells: seq<Cell>, cats: seq<string>, ds: seq<Column>)
    requires !HasNum(cells)
    requires cats == CategoriesOf(cells) && ds == Dummies(name, cells, cats)
    ensures forall i, j :: 0 <= i < |cells| && 0 <= j < |ds| ==>
      ds[j].cells[i] == Num(0.0) || ds[j].cells[i] == Num(1.0)
    ensures forall i, j :: 0 <= i < |cells| && 0 <= j < |ds| ==>
      (ds[j].cells[i] == Num(1.0) <==> cells[i] == Text(cats[j + 1]))
    ensures forall i, j, j' :: 0 <= i < |cells| && 0 <= j < j' < |ds| ==>
      !(ds[j].cells[i] == Num(1.0) && ds[j'].cells[i] == Num(1.0))
    ensures forall i :: 0 <= i < |cells| ==>
      ((forall j :: 0 <= j < |ds| ==> ds[j].cells[i] == Num(0.0)) <==>
       (cells[i].Missing? || (|cats| > 0 && cells[i] == Text(cats[0]))))
  {
    OneHotExclusive(name, cells, cats, ds);
    OneHotAllZero(name, cells, cats, ds);
  }

  /** No row has two indicators set. */
  lemma OneHotExclusive(name: string, cells: seq<Cell>, cats: seq<string>, ds: seq<Column>)
    requires cats == CategoriesOf(cells) && ds == Dummies(name, cells, cats)
    ensures forall i, j, j' :: 0 <= i < |cells| && 0 <= j < j' < |ds| ==>
      !(ds[j].cells[i] == Num(1.0) && ds[j'].cells[i] == Num(1.0))
  {
    forall i, j, j' | 0 <= i < |cells| && 0 <= j < j' < |ds|
      ensures !(ds[j].cells[i] == Num(1.0) && ds[j'].cells[i] == Num(1.0))
    {
      SortedDistinctPositions(cats, j + 1, j' + 1);
    }
  }

  /** A row has every indicator clear exactly when it is missing or holds
      the first category. */
  lemma OneHotAllZero(name: string, cells: seq<Cell>, cats: seq<string>, ds: seq<Column>)
    requires !HasNum(cells)
    requires cats == CategoriesOf(cells) && ds == Dummies(name, cells, cats)
    ensures forall i :: 0 <= i < |cells| ==>
      ((forall j :: 0 <= j < |ds| ==> ds[j].cells[i] == Num(0.0)) <==>
       (cells[i].Missing? || (|cats| > 0 && cells[i] == Text(cats[0]))))
  {
    forall i | 0 <= i < |cells|
      ensures (forall j :: 0 <= j < |ds| ==> ds[j].cells[i] == Num(0.0)) <==>
              (cells[i].Missing? || (|cats| > 0 && cells[i] == Text(cats[0])))
    {
      RowAllZero(name, cells, cats, ds, i);
    }
  }

  /** One row of `OneHotIndicators`' all-zero property. */
  lemma RowAllZero(name: string, cells: seq<Cell>, cats: seq<string>, ds: seq<Column>, i: nat)
    requires !HasNum(cells) && i < |cells|
    requires cats == CategoriesOf(cells) && ds == Dummies(name, cells, cats)
    ensures (forall j :: 0 <= j < |ds| ==> ds[j].cells[i] == Num(0.0)) <==>
            (cells[i].Missing? || (|cats| > 0 && cells[i] == Text(cats[0])))
  {
    assert !cells[i].Num?;
    if cells[i].Text? {
      assert Text(cells[i].s) in cells;
      var m :| 0 <= m < |cats| && cats[m] == cells[i].s;
      if m > 0 {
        assert ds[m - 1].cells[i] == Num(1.0);
        SortedDistinctPositions(cats, 0, m);
      } else {
        forall j | 0 <= j < |ds|
          ensures ds[j].cells[i] == Num(0.0)
        {
          SortedDistinctPositions(cats, 0, j + 1);
        }
      }
    }
  }

  /** Every category but the first has an indicator, and no two
      indicators share a label. */
  lemma OneHotLabels(name: string, cells: seq<Cell>, cats: seq<string>, ds: seq<Column>)
    requires cats == CategoriesOf(cells) && ds == Dummies(name, cells, cats)
    ensures forall c :: c in cats ==> c == cats[0] || exists j :: 0 <= j < |ds| && ds[j].name == DummyName(name, c)
    ensures forall j, j' :: 0 <= j < j' < |ds| ==> ds[j].name != ds[j'].name
  {
    OneHotCovers(name, cells, cats, ds);
    OneHotLabelsDistinct(name, cells, cats, ds);
  }

  /** Every category but the first has an indicator. */
  lemma OneHotCovers(name: string, cells: seq<Cell>, cats: seq<string>, ds: seq<Column>)
    requires cats == CategoriesOf(cells) && ds == Dummies(name, cells, cats)
    ensures forall c :: c in cats ==> c == cats[0] || exists j :: 0 <= j < |ds| && ds[j].name == DummyName(name, c)
  {
    forall c | c in cats && c != cats[0]
      ensures exists j :: 0 <= j < |ds| && ds[j].name == DummyName(name, c)
    {
      var m :| 0 <= m < |cats| && cats[m] == c;
      assert ds[m - 1].name == DummyName(name, c);
    }
  }

  /** No two indicators share a label. */
  lemma OneHotLabelsDistinct(name: string, cells: seq<Cell>, cats: seq<string>, ds: seq<Column>)
    requires cats == CategoriesOf(cells) && ds == Dummies(name, cells, cats)
    ensures forall j, j' :: 0 <= j < j' < |ds| ==> ds[j].name != ds[j'].name
  {
    forall j, j' | 0 <= j < j' < |ds|
      ensures ds[j].name != ds[j'].name
    {
      SortedDistinctPositions(cats, j + 1, j' + 1);
      if ds[j].name == ds[j'].name {
        DummyNameInjective(name, cats[j + 1], cats[j' + 1]);
      }
    }
  }

  /** `name` with a separator and a category appended. */
  predicate IsDummyOf(n: string, name: string) {
    |n| > |name| && n[..|name| + 1] == name + "_"
  }

  /** One-hot encoding of column `name`, as `get_dummies` does it for each
      listed column: the column is removed, every other column keeps its
      place, and the indicators of its categories but the first are
      appended. A number among the categories is outside this model and
      is reported instead of encoded. */
  function OneHot(f: Frame, name: string): (r: Result<Frame, Error>)
    requires Rectangular(f)
    ensures r.Success? <==> HasColumn(f, name) && !HasNum(ColumnOf(f, name).value)
    ensures r.Failure? ==> r.error == (if HasColumn(f, name) then NumericCategory(name) else MissingColumn(name))
    ensures r.Success? ==> Rectangular(r.value) && r.value.height == f.height
    ensures r.Success? ==>
      r.value.cols == f.cols[..IndexOf(f.cols, name)] + f.cols[IndexOf(f.cols, name) + 1..] +
        Dummies(name, ColumnOf(f, name).value, CategoriesOf(ColumnOf(f, name).value))
    ensures r.Success? ==> forall n :: n != name && HasColumn(f, n) ==> ColumnOf(r.value, n) == ColumnOf(f, n)
    ensures r.Success? ==> forall n :: HasColumn(r.value, n) ==> HasColumn(f, n) || IsDummyOf(n, name)
  {
    var k :- Find(f, name);
    var cells := f.cols[k].cells;
    if HasNum(cells) then Failure(NumericCategory(name))
    else
      var ds := Dummies(name, cells, CategoriesOf(cells));
      var g := Frame(f.height, f.cols[..k] + f.cols[k + 1..] + ds);
      RemoveAppendShape(f, k, ds, name);
      forall n | n != name && HasColumn(f, n)
        ensures ColumnOf(g, n) == ColumnOf(f, n)
      {
        KeptColumn(f, k, ds, n);
      }
      Success(g)
  }

  /** Removing column `k` and appending indicators of `name` keeps the
      frame rectangular and brings in no label but indicator labels. */
  lemma RemoveAppendShape(f: Frame, k: nat, ds: seq<Column>, name: string)
    requires Rectangular(f) && k < |f.cols|
    requires forall j :: 0 <= j < |ds| ==> |ds[j].cells| == f.height && IsDummyOf(ds[j].name, name)
    ensures Rectangular(Frame(f.height, f.cols[..k] + f.cols[k + 1..] + ds))
    ensures forall n :: HasColumn(Frame(f.height, f.cols[..k] + f.cols[k + 1..] + ds), n) ==>
      HasColumn(f, n) || IsDummyOf(n, name)
  {
    var kept := f.cols[..k] + f.cols[k + 1..];
    var g := Frame(f.height, kept + ds);
    forall j | 0 <= j < |g.cols|
      ensures |g.cols[j].cells| == f.height
      ensures HasColumn(f, g.cols[j].name) || IsDummyOf(g.cols[j].name, name)
    {
      if j < k {
        assert g.cols[j] == f.cols[j];
      } else if j < |kept| {
        assert g.cols[j] == f.cols[j + 1];
      } else {
        assert g.cols[j] == ds[j - |kept|];
      }
    }
  }

  /** Removing column `k` and appending columns leaves every other label
      reading the cells it read, provided the label names a column. */
  lemma KeptColumn(f: Frame, k: nat, ds: seq<Column>, n: string)
    requires k < |f.cols| && k == IndexOf(f.cols, f.cols[k].name)
    requires n != f.cols[k].name && HasColumn(f, n)
    ensures ColumnOf(Frame(f.height, f.cols[..k] + f.cols[k + 1..] + ds), n) == ColumnOf(f, n)
  {
    var kn := IndexOf(f.cols, n);
    if kn < k {
      KeptBefore(f.cols, k, ds, n);
    } else {
      KeptAfter(f.cols, k, ds, n);
    }
  }

  lemma KeptBefore(cols: seq<Column>, k: nat, ds: seq<Column>, n: string)
    requires IndexOf(cols, n) < k < |cols|
    ensures IndexOf(cols[..k] + cols[k + 1..] + ds, n) == IndexOf(cols, n)
    ensures (cols[..k] + cols[k + 1..] + ds)[IndexOf(cols, n)] == cols[IndexOf(cols, n)]
  {
    var kn := IndexOf(cols, n);
    RemovedAt(cols, k, ds);
    IndexOfAt(cols[..k] + cols[k + 1..] + ds, n, kn);
  }

  lemma KeptAfter(cols: seq<Column>, k: nat, ds: seq<Column>, n: string)
    requires k < IndexOf(cols, n) < |cols|
    ensures IndexOf(cols[..k] + cols[k + 1..] + ds, n) == IndexOf(cols, n) - 1
    ensures (cols[..k] + cols[k + 1..] + ds)[IndexOf(cols, n) - 1] == cols[IndexOf(cols, n)]
  {
    var kn := IndexOf(cols, n);
    var rest := cols[..k] + cols[k + 1..] + ds;
    RemovedAt(cols, k, ds);
    forall i | 0 <= i < kn - 1
      ensures rest[i].name != n
    {
      if i < k {
        assert rest[i] == cols[i];
      } else {
        assert rest[i] == cols[i + 1];
      }
    }
    IndexOfAt(rest, n, kn - 1);
  }

  /** Positions in a column list with entry `k` removed and `ds` appended. */
  lemma RemovedAt(cols: seq<Column>, k: nat, ds: seq<Column>)
    requires k < |cols|
    ensures forall i :: 0 <= i < k ==> (cols[..k] + cols[k + 1..] + ds)[i] == cols[i]
    ensures forall i :: k < i < |cols| ==> (cols[..k] + cols[k + 1..] + ds)[i - 1] == cols[i]
  {
  }

  /** A label that is an indicator label of two columns `a` and `b` shows
      that the two are equal or one is an indicator label of the other. */
  lemma DummyPrefixes(n: string, a: string, b: string)
    requires IsDummyOf(n, a) && IsDummyOf(n, b)
    ensures a == b || IsDummyOf(a, b) || IsDummyOf(b, a)
  {
    if |a| < |b| {
      assert b[..|a| + 1] == n[..|b| + 1][..|a| + 1];
    } else if |b| < |a| {
      assert a[..|b| + 1] == n[..|a| + 1][..|b| + 1];
    } else {
      assert a == n[..|a|] == b;
    }
  }

  lemma DummyNameIsDummy(name: string, c: string)
    ensures IsDummyOf(DummyName(name, c), name)
  {
    assert (name + "_" + c)[..|name| + 1] == name + "_";
  }

  /** Encoding removes the encoded column when it was the only one with
      its label. */
  lemma OneHotRemoves(f: Frame, name: string)
    requires Rectangular(f) && OneHot(f, name).Success? && LabelAtMostOnce(f.cols, name)
    ensures !HasColumn(OneHot(f, name).value, name)
  {
    var k := IndexOf(f.cols, name);
    var cells := ColumnOf(f, name).value;
    var ds := Dummies(name, cells, CategoriesOf(cells));
    RemovedLabel(f.cols, k, ds, name, OneHot(f, name).value.cols);
  }

  /** Taking out the only column labelled `name` and appending columns
      whose labels extend it leaves no column labelled `name`. */
  lemma RemovedLabel(cols: seq<Column>, k: nat, ds: seq<Column>, name: string, g: seq<Column>)
    requires k < |cols| && cols[k].name == name && LabelAtMostOnce(cols, name)
    requires forall j :: 0 <= j < |ds| ==> IsDummyOf(ds[j].name, name)
    requires g == cols[..k] + cols[k + 1..] + ds
    ensures forall j :: 0 <= j < |g| ==> g[j].name != name
  {
    var m := |cols| - 1;
    RemovedAt(cols, k, ds);
    forall j | 0 <= j < |g|
      ensures g[j].name != name
    {
      if j < k {
        assert g[j] == cols[j];
      } else if j < m {
        assert g[j] == cols[j + 1];
      } else {
        assert g[j] == ds[j - m];
      }
    }
  }

  /** The columns kept from a frame with no indicator label of `name`
      carry no such label either. */
  lemma KeptNotDummy(f: Frame, k: nat, kept: seq<Column>, name: string, d: string)
    requires k < |f.cols| && kept == f.cols[..k] + f.cols[k + 1..] && IsDummyOf(d, name)
    requires forall n :: HasColumn(f, n) ==> !IsDummyOf(n, name)
    ensures forall i :: 0 <= i < |kept| ==> kept[i].name != d
  {
    forall i | 0 <= i < |kept|
      ensures kept[i].name != d
    {
      var p := if i < k then i else i + 1;
      assert kept[i] == f.cols[p];
      assert HasColumn(f, f.cols[p].name);
    }
  }

  /** The first column labelled `d` after columns none of which is. */
  lemma IndexOfAppended(kept: seq<Column>, ds: seq<Column>, d: string, j: nat)
    requires forall i :: 0 <= i < |kept| ==> kept[i].name != d
    requires j < |ds| && ds[j].name == d && forall i :: 0 <= i < j ==> ds[i].name != d
    ensures IndexOf(kept + ds, d) == |kept| + j && (kept + ds)[|kept| + j] == ds[j]
  {
    IndexOfAt(kept + ds, d, |kept| + j);
  }

  /** Encoding a column whose frame holds no label of its indicators yet:
      each category but the first is found as its indicator column. */
  lemma OneHotDummy(f: Frame, name: string, c: string)
    requires Rectangular(f) && OneHot(f, name).Success?
    requires forall n :: HasColumn(f, n) ==> !IsDummyOf(n, name)
    requires c in CategoriesOf(ColumnOf(f, name).value) && c != CategoriesOf(ColumnOf(f, name).value)[0]
    ensures ColumnOf(OneHot(f, name).value, DummyName(name, c)) == Some(Indicator(ColumnOf(f, name).value, c))
  {
    var g := OneHot(f, name).value;
    var k := IndexOf(f.cols, name);
    var cells := ColumnOf(f, name).value;
    var cats := CategoriesOf(cells);
    var ds := Dummies(name, cells, cats);
    var kept := f.cols[..k] + f.cols[k + 1..];
    var d := DummyName(name, c);
    assert g.cols == kept + ds;
    OneHotLabels(name, cells, cats, ds);
    var j :| 0 <= j < |ds| && ds[j].name == d;
    DummyNameIsDummy(name, c);
    KeptNotDummy(f, k, kept, name, d);
    IndexOfAppended(kept, ds, d, j);
    DummyNameInjective(name, c, cats[j + 1]);
  }

  /** Encoding one column keeps another label unique, as long as that
      label is not an indicator label of the encoded column. */
  lemma OneHotAtMostOnce(f: Frame, name: string, e: string)
    requires Rectangular(f) && OneHot(f, name).Success?
    requires LabelAtMostOnce(f.cols, e) && e != name && !IsDummyOf(e, name)
    ensures LabelAtMostOnce(OneHot(f, name).value.cols, e)
  {
    var g := OneHot(f, name).value;
    var k := IndexOf(f.cols, name);
    var cells := ColumnOf(f, name).value;
    var ds := Dummies(name, cells, CategoriesOf(cells));
    forall i, j | 0 <= i < |g.cols| && 0 <= j < |g.cols| && g.cols[i].name == e && g.cols[j].name == e
      ensures i == j
    {
      var pi := Origin(f, g, k, ds, e, i);
      var pj := Origin(f, g, k, ds, e, j);
    }
  }

  /** The position in `f` of a column of `f` without its column `k` and
      with `ds` appended, when the label is none of the appended ones. */
  lemma Origin(f: Frame, g: Frame, k: nat, ds: seq<Column>, e: string, i: nat) returns (p: nat)
    requires k < |f.cols| && g.cols == f.cols[..k] + f.cols[k + 1..] + ds
    requires forall j :: 0 <= j < |ds| ==> ds[j].name != e
    requires i < |g.cols| && g.cols[i].name == e
    ensures p < |f.cols| && p != k && f.cols[p].name == e
    ensures p == if i < k then i else i + 1
  {
    var m := |f.cols| - 1;
    RemovedAt(f.cols, k, ds);
    forall t | m <= t < |g.cols|
      ensures g.cols[t].name != e
    {
      assert g.cols[t] == ds[t - m];
    }
    p := if i < k then i else i + 1;
  }

  /** `data['owner'].map(table)` on one cell: a known ownership label
      becomes its code; anything else, missing values included, becomes
      missing. */
  function OwnerCell(c: Cell): (r: Cell)
    ensures r.Missing? || (r.Num? && r.x in {0.0, 1.0, 2.0, 3.0})
    ensures r.Num? <==> c.Text? && KnownOwner(c.s)
    ensures r.Num? ==> r.x == OwnerCode(c.s).value as real
  {
    match c
    case Text(s) =>
      OwnerCodeTable(s);
      (match OwnerCode(s) case Some(v) => Num(v as real) case None => Missing)
    case _ => Missing
  }

  function OwnerCells(cells: seq<Cell>): (r: seq<Cell>)
    ensures |r| == |cells|
    ensures forall i :: 0 <= i < |cells| ==> r[i] == OwnerCell(cells[i])
  {
    seq(|cells|, i requires 0 <= i < |cells| => OwnerCell(cells[i]))
  }

  /** `data['owner'] = data['owner'].map(table)`. */
  function MapOwner(f: Frame): (r: Result<Frame, Error>)
    requires Rectangular(f)
    ensures r.Success? <==> HasColumn(f, "owner")
    ensures r.Failure? ==> r.error == MissingColumn("owner")
    ensures r.Success? ==> Rectangular(r.value) && r.value.height == f.height && SameNames(f, r.value)
    ensures r.Success? ==> forall n :: n != "owner" ==> ColumnOf(r.value, n) == ColumnOf(f, n)
    ensures r.Success? ==> ColumnOf(r.value, "owner") == Some(OwnerCells(ColumnOf(f, "owner").value))
  {
    var k :- Find(f, "owner");
    ReplaceLabels(f, k, OwnerCells(f.cols[k].cells));
    Success(Replace(f, k, OwnerCells(f.cols[k].cells)))
  }
}

=== FILE: frames.dfy ===
/** A data frame as the preprocessing step sees it: named columns of equal
    length, each cell a text value, a number, or the missing marker (`NaN`).
    Rows have no key; a row is its position. */
module Frames {
  import opened Wrappers

  datatype Cell = Text(s: string) | Num(x: real) | Missing

  datatype Column = Column(name: string, cells: seq<Cell>)

  datatype Frame = Frame(height: nat, cols: seq<Column>)

  /** Why preprocessing raises instead of returning a frame. */
  datatype Error =
    | MissingColumn(name: string)         // a column label that is not in the frame
    | NotNumeric(name: string)            // a statistic taken over a column holding text
    | CannotCastToInteger(name: string)   // an integer cast of a column holding a missing value or text
    | NumericCategory(name: string)       // a number in a column encoded as categories

  /** Every column is as long as the frame is high. */
  predicate Rectangular(f: Frame) {
    forall k :: 0 <= k < |f.cols| ==> |f.cols[k].cells| == f.height
  }

  predicate HasColumn(f: Frame, name: string) {
    exists k :: 0 <= k < |f.cols| && f.cols[k].name == name
  }

  /** No two columns share the label `name`. */
  predicate LabelAtMostOnce(cols: seq<Column>, name: string) {
    forall i, j :: 0 <= i < |cols| && 0 <= j < |cols| && cols[i].name == name && cols[j].name == name ==> i == j
  }

  /** Position of the first column called `name`, or `|cols|` if none is. */
  function IndexOf(cols: seq<Column>, name: string): (k: nat)
    ensures k <= |cols|
    ensures k < |cols| ==> cols[k].name == name
    ensures forall j :: 0 <= j < k ==> cols[j].name != name
    decreases |cols|
  {
    if |cols| == 0 then 0
    else if cols[0].name == name then 0
    else 1 + IndexOf(cols[1..], name)
  }

  /** The first column with a name is the one `IndexOf` finds. */
  lemma IndexOfAt(cols: seq<Column>, name: string, j: nat)
    requires j < |cols| && cols[j].name == name
    requires forall i :: 0 <= i < j ==> cols[i].name != name
    ensures IndexOf(cols, name) == j
  {
  }

  /** `frame[name]`: the position of the named column, or the error that
      looking up an absent label raises. */
  function Find(f: Frame, name: string): (r: Result<nat, Error>)
    ensures r.Success? <==> HasColumn(f, name)
    ensures r.Success? ==> r.value < |f.cols| && f.cols[r.value].name == name
    ensures r.Success? ==> r.value == IndexOf(f.cols, name)
    ensures r.Failure? ==> r.error == MissingColumn(name)
  {
    var k := IndexOf(f.cols, name);
    if k < |f.cols| then Success(k) else Failure(MissingColumn(name))
  }

  /** The cells of the first column called `name`, if there is one. */
  function ColumnOf(f: Frame, name: string): (c: Option<seq<Cell>>)
    ensures c.Some? <==> HasColumn(f, name)
    ensures c.Some? ==> exists k :: 0 <= k < |f.cols| && f.cols[k].name == name && f.cols[k].cells == c.value
  {
    var k := IndexOf(f.cols, name);
    if k < |f.cols| then Some(f.cols[k].cells) else None
  }

  /** Same column names in the same order. */
  predicate SameNames(f: Frame, g: Frame) {
    |f.cols| == |g.cols| && forall k :: 0 <= k < |f.cols| ==> f.cols[k].name == g.cols[k].name
  }

  /** `frame[name] = cells` for an existing column `k`: that column gets the
      new cells, every other column and every name stay as they were. */
  function Replace(f: Frame, k: nat, cells: seq<Cell>): (g: Frame)
    requires Rectangular(f) && k < |f.cols| && |cells| == f.height
    ensures Rectangular(g) && g.height == f.height && SameNames(f, g)
    ensures g.cols[k].cells == cells
    ensures forall j :: 0 <= j < |f.cols| && j != k ==> g.cols[j] == f.cols[j]
  {
    Frame(f.height, f.cols[k := Column(f.cols[k].name, cells)])
  }

  /** Frames with the same names find the same column for every label. */
  lemma SameNamesFind(f: Frame, g: Frame, name: string)
    requires SameNames(f, g)
    ensures IndexOf(f.cols, name) == IndexOf(g.cols, name)
    ensures HasColumn(f, name) <==> HasColumn(g, name)
  {
    var k, k' := IndexOf(f.cols, name), IndexOf(g.cols, name);
    if k < |f.cols| {
      assert g.cols[k].name == name;
    }
    if k' < |g.cols| {
      assert f.cols[k'].name == name;
    }
    if HasColumn(f, name) {
      var j :| 0 <= j < |f.cols| && f.cols[j].name == name;
      assert g.cols[j].name == name;
    }
    if HasColumn(g, name) {
      var j :| 0 <= j < |g.cols| && g.cols[j].name == name;
      assert f.cols[j].name == name;
    }
  }

  /** Having the same names is transitive. */
  lemma SameNamesTrans(f: Frame, g: Frame, h: Frame)
    requires SameNames(f, g) && SameNames(g, h)
    ensures SameNames(f, h)
  {
  }

  /** Frames with the same names have the same columns. */
  lemma SameNamesHas(f: Frame, g: Frame)
    requires SameNames(f, g)
    ensures forall n :: HasColumn(f, n) <==> HasColumn(g, n)
  {
    forall n
      ensures HasColumn(f, n) <==> HasColumn(g, n)
    {
      SameNamesFind(f, g, n);
    }
  }

  /** After `Replace`, a label names the new cells exactly when it named
      column `k` before; every other label still names the cells it did. */
  lemma ReplaceColumnOf(f: Frame, k: nat, cells: seq<Cell>, name: string)
    requires Rectangular(f) && k < |f.cols| && |cells| == f.height
    ensures ColumnOf(Replace(f, k, cells), name) ==
      if IndexOf(f.cols, name) == k then Some(cells) else ColumnOf(f, name)
  {
    SameNamesFind(f, Replace(f, k, cells), name);
  }

  /** `Replace` of the column a label finds: that label now reads the new
      cells and every other label reads what it read before. */
  lemma ReplaceLabels(f: Frame, k: nat, cells: seq<Cell>)
    requires Rectangular(f) && k < |f.cols| && |cells| == f.height
    requires k == IndexOf(f.cols, f.cols[k].name)
    ensures ColumnOf(Replace(f, k, cells), f.cols[k].name) == Some(cells)
    ensures forall n :: n != f.cols[k].name ==> ColumnOf(Replace(f, k, cells), n) == ColumnOf(f, n)
  {
    forall n
      ensures ColumnOf(Replace(f, k, cells), n) ==
        if IndexOf(f.cols, n) == k then Some(cells) else ColumnOf(f, n)
    {
      ReplaceColumnOf(f, k, cells, n);
    }
  }

  /** Row `i`, one cell per column. */
  function Row(f: Frame, i: nat): (row: seq<Cell>)
    requires Rectangular(f) && i < f.height
    ensures |row| == |f.cols|
    ensures forall k :: 0 <= k < |f.cols| ==> row[k] == f.cols[k].cells[i]
  {
    seq(|f.cols|, k requires 0 <= k < |f.cols| => f.cols[k].cells[i])
  }

  function Rows(f: Frame): (rows: seq<seq<Cell>>)
    requires Rectangular(f)
    ensures |rows| == f.height
    ensures forall i :: 0 <= i < f.height ==> rows[i] == Row(f, i)
  {
    seq(f.height, i requires 0 <= i < f.height => Row(f, i))
  }

  /** The rows at positions `idx`, in that order, under the same columns. */
  function SelectRows(f: Frame, idx: seq<nat>): (g: Frame)
    requires Rectangular(f)
    requires forall m :: 0 <= m < |idx| ==> idx[m] < f.height
    ensures Rectangular(g) && g.height == |idx| && SameNames(f, g)
    ensures forall k, m :: 0 <= k < |f.cols| && 0 <= m < |idx| ==>
      g.cols[k].cells[m] == f.cols[k].cells[idx[m]]
    ensures forall m :: 0 <= m < |idx| ==> Row(g, m) == Row(f, idx[m])
  {
    var g := Frame(|idx|, seq(|f.cols|, k requires 0 <= k < |f.cols| =>
      Column(f.cols[k].name, seq(|idx|, m requires 0 <= m < |idx| => f.cols[k].cells[idx[m]]))));
    assert forall m :: 0 <= m < |idx| ==> Row(g, m) == Row(f, idx[m]);
    g
  }

  /** Each cell of `cells` is a number. */
  predicate AllNum(cells: seq<Cell>) {
    forall i :: 0 <= i < |cells| ==> cells[i].Num?
  }

  predicate HasText(cells: seq<Cell>) {
    exists i :: 0 <= i < |cells| && cells[i].Text?
  }

  /** The numbers of a column in row order, skipping everything else: what
      pandas aggregates over when it skips missing values. */
  function NumValues(cells: seq<Cell>): (xs: seq<real>)
    ensures |xs| <= |cells|
    ensures |xs| == 0 <==> forall i :: 0 <= i < |cells| ==> !cells[i].Num?
    decreases |cells|
  {
    if |cells| == 0 then []
    else
      var rest := NumValues(cells[1..]);
      assert cells == [cells[0]] + cells[1..];
      match cells[0]
      case Num(x) => [x] + rest
      case _ => rest
  }

  /** Each number is collected as often as it occurs in the column. */
  lemma {:induction false} NumValuesMultiset(cells: seq<Cell>)
    ensures forall x :: multiset(NumValues(cells))[x] == multiset(cells)[Num(x)]
    decreases |cells|
  {
    if |cells| > 0 {
      NumValuesMultiset(cells[1..]);
      assert cells == [cells[0]] + cells[1..];
      assert multiset(cells) == multiset{cells[0]} + multiset(cells[1..]);
    }
  }

  /** The numbers collected are exactly the numbers in the column. */
  lemma {:induction false} NumValuesMembers(cells: seq<Cell>)
    ensures forall x :: x in NumValues(cells) <==> Num(x) in cells
    decreases |cells|
  {
    if |cells| > 0 {
      NumValuesMembers(cells[1..]);
      assert cells == [cells[0]] + cells[1..];
    }
  }
}

=== FILE: numbers.dfy ===
/** Number parsing as `pd.to_numeric(..., errors='coerce')` applies it to a
    text cell, and the toward-zero truncation of `astype('int64')`.

    The accepted grammar is a plain decimal: surrounding whitespace, an
    optional sign, digits, and an optional fractional part after a point,
    with at least one digit in all. Anything else parses to `None`, which a
    column turns into a missing value. */
module Numbers {
  import opened Wrappers

  predicate IsDigit(c: char) {
    '0' <= c <= '9'
  }

  predicate IsSpace(c: char) {
    // space, tab, line feed, vertical tab, form feed, carriage return
    c == ' ' || c == '\t' || c == '\n' || c as int == 11 || c as int == 12 || c == '\r'
  }

  predicate AllDigits(s: string) {
    forall i :: 0 <= i < |s| ==> IsDigit(s[i])
  }

  predicate AllSpace(s: string) {
    forall i :: 0 <= i < |s| ==> IsSpace(s[i])
  }

  function DigitValue(c: char): nat
    requires IsDigit(c)
  {
    c as int - '0' as int
  }

  function DigitChar(d: nat): (c: char)
    requires d < 10
    ensures IsDigit(c) && DigitValue(c) == d
  {
    ('0' as int + d) as char
  }

  function Pow10(n: nat): (p: nat)
    ensures p >= 1
  {
    if n == 0 then 1 else 10 * Pow10(n - 1)
  }

  /** The value of a string of decimal digits, most significant first. */
  function DigitsValue(s: string): nat
    requires AllDigits(s)
    decreases |s|
  {
    if |s| == 0 then 0 else DigitsValue(s[..|s| - 1]) * 10 + DigitValue(s[|s| - 1])
  }

  /** Leading whitespace removed: what is left is a suffix of `s` that does
      not start with whitespace, and everything dropped was whitespace. */
  function TrimStart(s: string): (r: string)
    ensures |r| <= |s| && r == s[|s| - |r|..]
    ensures forall j :: 0 <= j < |s| - |r| ==> IsSpace(s[j])
    ensures |r| == 0 || !IsSpace(r[0])
    decreases |s|
  {
    if |s| > 0 && IsSpace(s[0]) then TrimStart(s[1..]) else s
  }

  /** Trailing whitespace removed: a prefix of `s` that does not end with
      whitespace, and everything dropped was whitespace. */
  function TrimEnd(s: string): (r: string)
    ensures |r| <= |s| && r == s[..|r|]
    ensures forall j :: |r| <= j < |s| ==> IsSpace(s[j])
    ensures |r| == 0 || !IsSpace(r[|r| - 1])
    decreases |s|
  {
    if |s| > 0 && IsSpace(s[|s| - 1]) then TrimEnd(s[..|s| - 1]) else s
  }

  function Trim(s: string): string {
    TrimEnd(TrimStart(s))
  }

  /** Index of the first decimal point, or `|t|` when there is none. */
  function PointIndex(t: string): (p: nat)
    ensures p <= |t|
    ensures p < |t| ==> t[p] == '.'
    ensures forall i :: 0 <= i < p ==> t[i] != '.'
    decreases |t|
  {
    if |t| == 0 then 0 else if t[0] == '.' then 0 else 1 + PointIndex(t[1..])
  }

  /** The value spelled by the digits `whole`, a point and the digits `frac`. */
  function DecimalValue(whole: string, frac: string): (v: real)
    requires AllDigits(whole) && AllDigits(frac)
    ensures v >= DigitsValue(whole) as real
  {
    var x, q := DigitsValue(frac) as real, Pow10(|frac|) as real;
    assert x / q >= 0.0 by {
      assert q > 0.0 && x >= 0.0;
    }
    DigitsValue(whole) as real + x / q
  }

  /** A string with no decimal point has its point index at the end. */
  lemma PointIndexNone(t: string)
    requires forall i :: 0 <= i < |t| ==> t[i] != '.'
    ensures PointIndex(t) == |t|
  {
  }

  /** Text made of digits and decimal points only, with at most one point
      and at least one digit. */
  predicate Numeral(t: string) {
    && (forall i :: 0 <= i < |t| ==> IsDigit(t[i]) || t[i] == '.')
    && (forall i :: 0 <= i < |t| && t[i] == '.' ==> '.' !in t[i + 1..])
    && (exists i :: 0 <= i < |t| && IsDigit(t[i]))
  }

  /** A numeral, optionally preceded by one sign. */
  predicate SignedNumeral(t: string) {
    Numeral(t) || (|t| > 0 && (t[0] == '-' || t[0] == '+') && Numeral(t[1..]))
  }

  /** An unsigned decimal: digits, optionally a point and more digits, with
      at least one digit on either side of the point. */
  function ParseUnsigned(t: string): (r: Option<real>)
    ensures r.Some? ==> r.value >= 0.0
  {
    var p := PointIndex(t);
    var whole := t[..p];
    var frac := if p < |t| then t[p + 1..] else "";
    if |whole| + |frac| > 0 && AllDigits(whole) && AllDigits(frac) then
      Some(DecimalValue(whole, frac))
    else
      None
  }

  /** `ParseUnsigned` accepts exactly the numerals. */
  lemma UnsignedAccepts(t: string)
    ensures ParseUnsigned(t).Some? <==> Numeral(t)
  {
    NumeralSplit(t);
  }

  /** `ParseSigned` accepts exactly the signed numerals. */
  lemma SignedAccepts(t: string)
    ensures ParseSigned(t).Some? <==> SignedNumeral(t)
  {
    UnsignedAccepts(t);
    if |t| > 0 && (t[0] == '-' || t[0] == '+') {
      UnsignedAccepts(t[1..]);
      assert !Numeral(t) by {
        assert !IsDigit(t[0]);
      }
    }
  }

  /** A numeral splits at its first point into digits before and digits
      after, not both empty; and any text splitting so is a numeral. */
  lemma NumeralSplit(t: string)
    ensures Numeral(t) <==>
      var p := PointIndex(t);
      var frac := if p < |t| then t[p + 1..] else "";
      p + |frac| > 0 && AllDigits(t[..p]) && AllDigits(frac)
  {
    var p := PointIndex(t);
    var frac := if p < |t| then t[p + 1..] else "";
    if Numeral(t) {
      assert AllDigits(t[..p]);
      forall i | 0 <= i < |frac|
        ensures IsDigit(frac[i])
      {
        assert frac[i] == t[p + 1 + i];
      }
      var i :| 0 <= i < |t| && IsDigit(t[i]);
      assert i != p;
    }
    if p + |frac| > 0 && AllDigits(t[..p]) && AllDigits(frac) {
      forall i | 0 <= i < |t|
        ensures IsDigit(t[i]) || t[i] == '.'
        ensures i != p ==> IsDigit(t[i])
      {
        if i < p {
          assert t[i] == t[..p][i];
        } else if i > p {
          assert t[i] == frac[i - p - 1];
        }
      }
      if p < |t| {
        assert t[p + 1..] == frac;
      }
      if p > 0 {
        assert IsDigit(t[0]);
      } else {
        assert IsDigit(t[p + 1]);
      }
    }
  }

  /** The number a text cell holds, or `None` when it is not a number:
      after trimming, the text must be a numeral with an optional sign, and
      only a minus sign gives a negative number. */
  function ParseNumber(s: string): (r: Option<real>)
    ensures r.Some? && r.value < 0.0 ==> |Trim(s)| > 0 && Trim(s)[0] == '-'
  {
    ParseSigned(Trim(s))
  }

  /** `ParseNumber` accepts exactly the trimmed signed numerals. */
  lemma ParseNumberAccepts(s: string)
    ensures ParseNumber(s).Some? <==> SignedNumeral(Trim(s))
  {
    SignedAccepts(Trim(s));
  }

  /** An unsigned decimal with an optional leading sign. */
  function ParseSigned(t: string): (r: Option<real>)
    ensures r.Some? && r.value < 0.0 ==> |t| > 0 && t[0] == '-'
  {
    if |t| > 0 && (t[0] == '-' || t[0] == '+') then
      match ParseUnsigned(t[1..])
      case Some(m) => Some(if t[0] == '-' then -m else m)
      case None => None
    else
      ParseUnsigned(t)
  }

  /** The decimal digits of `n`, without leading zeros. */
  function ShowNat(n: nat): (s: string)
    ensures |s| > 0 && AllDigits(s) && DigitsValue(s) == n
  {
    if n < 10 then [DigitChar(n)]
    else
      var s := ShowNat(n / 10) + [DigitChar(n % 10)];
      assert s[..|s| - 1] == ShowNat(n / 10);
      s
  }

  /** Exactly `k` decimal digits of `v`, padded with leading zeros. */
  function ShowPadded(v: nat, k: nat): (s: string)
    requires v < Pow10(k)
    ensures |s| == k && AllDigits(s) && DigitsValue(s) == v
  {
    if k == 0 then ""
    else
      var s := ShowPadded(v / 10, k - 1) + [DigitChar(v % 10)];
      assert s[..|s| - 1] == ShowPadded(v / 10, k - 1);
      s
  }

  /** Truncation toward zero, as a cast from float to a 64-bit integer does
      it: the integer part of `x`, rounding neither up nor down in size. */
  function TruncTowardZero(x: real): (r: int)
    ensures 0.0 <= x ==> 0 <= r && r as real <= x < r as real + 1.0
    ensures x < 0.0 ==> r <= 0 && r as real - 1.0 < x <= r as real
  {
    if x >= 0.0 then x.Floor else -((-x).Floor)
  }

  lemma TrimDigitsUnchanged(t: string)
    requires |t| > 0 && !IsSpace(t[0]) && !IsSpace(t[|t| - 1])
    ensures Trim(t) == t
  {
  }

  /** A string of digits, a point and digits parses to the value it spells.
      `DecimalValue` is the reference meaning of such a numeral: the
      base-10 value of `w` plus that of `f` over `10^|f|`;
      `ParseFixedPointValue` states the same through `FixedValue`. */
  lemma ParseFixedPoint(w: string, f: string)
    requires AllDigits(w) && AllDigits(f) && |w| + |f| > 0
    ensures ParseUnsigned(w + "." + f) == Some(DecimalValue(w, f))
  {
    var t := w + "." + f;
    assert t[..|w|] == w;
    assert t[|w|] == '.';
    PointIndexNone(w);
    assert PointIndex(t) == |w|;
    assert t[|w| + 1..] == f;
  }

  /** The value of `ParseFixedPoint` as whole part plus fraction over the
      power of ten, the reference `ParseShowFixed` also uses. */
  lemma ParseFixedPointValue(w: string, f: string)
    requires AllDigits(w) && AllDigits(f) && |w| + |f| > 0
    ensures ParseUnsigned(w + "." + f) == Some(FixedValue(DigitsValue(w), DigitsValue(f), |f|))
  {
    ParseFixedPoint(w, f);
    assert DecimalValue(w, f) == FixedValue(DigitsValue(w), DigitsValue(f), |f|);
  }

  /** A string of digits alone, with no point, parses to its base-10
      value. */
  lemma ParseDigits(w: string)
    requires AllDigits(w) && |w| > 0
    ensures ParseUnsigned(w) == Some(DigitsValue(w) as real)
  {
    PointIndexNone(w);
    assert w[..|w|] == w;
    assert DigitsValue("") == 0 && Pow10(0) == 1;
    assert DecimalValue(w, "") == DigitsValue(w) as real + 0.0 / 1.0;
  }

  /** A leading plus sign is dropped and changes nothing else. */
  lemma ParsePlus(e: string)
    ensures ParseSigned("+" + e) == ParseUnsigned(e)
  {
    var t := "+" + e;
    assert |t| > 0 && t[0] == '+' && t[1..] == e;
  }

  /** Printing a natural number and parsing it back yields the number. */
  lemma ParseShowNat(n: nat)
    ensures ParseNumber(ShowNat(n)) == Some(n as real)
  {
    var s := ShowNat(n);
    assert IsDigit(s[0]) && IsDigit(s[|s| - 1]);
    TrimDigitsUnchanged(s);
    PointIndexNone(s);
    assert s[..|s|] == s;
    assert DecimalValue(s, "") == n as real;
  }

  /** The decimal text `w.ddd` with exactly `k` fractional digits spelling
      `v`: what a formatter writes for the value `w + v / 10^k`. */
  function ShowFixed(w: nat, v: nat, k: nat): (s: string)
    requires v < Pow10(k)
  {
    ShowNat(w) + "." + ShowPadded(v, k)
  }

  /** The value `w + v / 10^k`. */
  function FixedValue(w: nat, v: nat, k: nat): real {
    w as real + v as real / Pow10(k) as real
  }

  lemma DecimalOfShown(w: nat, v: nat, k: nat)
    requires v < Pow10(k)
    ensures DecimalValue(ShowNat(w), ShowPadded(v, k)) == FixedValue(w, v, k)
  {
    var whole, frac := ShowNat(w), ShowPadded(v, k);
    assert DigitsValue(whole) == w;
    assert DigitsValue(frac) == v;
    assert |frac| == k;
  }

  /** The fixed-point text starts with a digit and ends with a digit or
      the point, so there is no whitespace to trim. */
  lemma ShowFixedEnds(w: nat, v: nat, k: nat)
    requires v < Pow10(k)
    ensures var s := ShowFixed(w, v, k);
      |s| > 0 && IsDigit(s[0]) && !IsSpace(s[|s| - 1])
  {
    var s := ShowFixed(w, v, k);
    assert s[0] == ShowNat(w)[0];
    if k > 0 {
      assert s[|s| - 1] == ShowPadded(v, k)[k - 1];
    } else {
      assert s[|s| - 1] == '.';
    }
  }

  /** Printing `w + v / 10^k` with exactly `k` fractional digits and
      parsing it back yields that value. */
  lemma ParseShowFixed(w: nat, v: nat, k: nat)
    requires v < Pow10(k)
    ensures ParseNumber(ShowFixed(w, v, k)) == Some(FixedValue(w, v, k))
  {
    ParseFixedPoint(ShowNat(w), ShowPadded(v, k));
    DecimalOfShown(w, v, k);
    ShowFixedEnds(w, v, k);
    UnsignedText(ShowFixed(w, v, k), FixedValue(w, v, k));
  }

  lemma UnsignedText(body: string, x: real)
    requires |body| > 0 && IsDigit(body[0]) && !IsSpace(body[|body| - 1])
    requires ParseUnsigned(body) == Some(x)
    ensures ParseNumber(body) == Some(x)
  {
    TrimDigitsUnchanged(body);
  }

  /** A minus sign written directly before a value negates it, and leaves
      an unparseable value unparseable. */
  lemma ParseNegated(s: string)
    requires |s| > 0 && !IsSpace(s[0]) && s[0] != '-' && s[0] != '+'
    ensures ParseNumber(s).Some? ==> ParseNumber("-" + s) == Some(-ParseNumber(s).value)
    ensures ParseNumber(s).None? ==> ParseNumber("-" + s).None?
  {
    var t := "-" + s;
    assert TrimStart(t) == t;
    assert TrimStart(s) == s;
    TrimEndPrefixed(s);
    var e := TrimEnd(s);
    assert Trim(t) == "-" + e;
    assert Trim(s) == e;
    assert |e| > 0 && e[0] == s[0];
    NegatedTrimmed(s, t, e);
  }

  /** Texts that trim to an unsigned numeral and to it with a minus in front
      parse to a value and its negation. */
  lemma NegatedTrimmed(s: string, t: string, e: string)
    requires Trim(t) == "-" + e && Trim(s) == e && |e| > 0 && e[0] != '-' && e[0] != '+'
    ensures ParseNumber(s).Some? ==> ParseNumber(t) == Some(-ParseNumber(s).value)
    ensures ParseNumber(s).None? ==> ParseNumber(t).None?
  {
    assert ParseNumber(s) == ParseSigned(e);
    assert ParseNumber(t) == ParseSigned("-" + e);
    SignedNegated(e);
  }

  /** A leading minus negates an unsigned decimal. */
  lemma SignedNegated(e: string)
    requires |e| > 0 && e[0] != '-' && e[0] != '+'
    ensures ParseSigned(e) == ParseUnsigned(e)
    ensures ParseSigned("-" + e) == if ParseUnsigned(e).Some? then Some(-ParseUnsigned(e).value) else None
  {
    var t := "-" + e;
    assert |t| > 0 && t[0] == '-' && t[1..] == e;
    assert ParseSigned(t) == match ParseUnsigned(e) case Some(m) => Some(-m) case None => None;
  }

  lemma {:induction false} TrimEndPrefixed(s: string)
    requires |s| > 0 && !IsSpace(s[0])
    ensures TrimEnd("-" + s) == "-" + TrimEnd(s)
    decreases |s|
  {
    var t := "-" + s;
    if IsSpace(s[|s| - 1]) {
      assert |s| > 1;
      assert t[..|t| - 1] == "-" + s[..|s| - 1];
      TrimEndPrefixed(s[..|s| - 1]);
    }
  }

  /** Whitespace around a value does not change what it parses to, so the
      space that `"23.4 kmpl"` keeps after losing its unit is harmless. */
  lemma ParsePadded(a: string, s: string, b: string)
    requires AllSpace(a) && AllSpace(b)
    ensures ParseNumber(a + s + b) == ParseNumber(s)
  {
    assert a + s + b == a + (s + b);
    TrimStartSpaces(a, s + b);
    TrimAppendSpaces(s, b);
  }

  lemma {:induction false} TrimStartSpaces(a: string, x: string)
    requires AllSpace(a)
    ensures TrimStart(a + x) == TrimStart(x)
    decreases |a|
  {
    if |a| > 0 {
      assert (a + x)[1..] == a[1..] + x;
      TrimStartSpaces(a[1..], x);
    } else {
      assert a + x == x;
    }
  }

  lemma {:induction false} TrimEndSpaces(x: string, b: string)
    requires AllSpace(b)
    ensures TrimEnd(x + b) == TrimEnd(x)
    decreases |b|
  {
    if |b| > 0 {
      assert (x + b)[..|x + b| - 1] == x + b[..|b| - 1];
      TrimEndSpaces(x, b[..|b| - 1]);
    } else {
      assert x + b == x;
    }
  }

  lemma {:induction false} TrimAppendSpaces(x: string, b: string)
    requires AllSpace(b)
    ensures TrimEnd(TrimStart(x + b)) == TrimEnd(TrimStart(x))
    decreases |x|
  {
    if |x| == 0 {
      assert x + b == b;
      assert TrimStart(b) == "";
    } else if IsSpace(x[0]) {
      assert (x + b)[1..] == x[1..] + b;
      TrimAppendSpaces(x[1..], b);
    } else {
      TrimEndSpaces(x, b);
    }
  }

  /** A character that can be neither whitespace, a digit, a sign nor a
      point makes the whole cell unparseable: a value that still carries a
      unit (`"23.4 km/kg"` before stripping) becomes missing. */
  lemma ParseRejectsForeign(s: string, i: nat)
    requires i < |s|
    requires !IsSpace(s[i]) && !IsDigit(s[i]) && s[i] != '.' && s[i] != '+' && s[i] != '-'
    ensures ParseNumber(s) == None
  {
    var t := Trim(s);
    var j := TrimIndex(s, i);
    if |t| > 0 && (t[0] == '-' || t[0] == '+') {
      assert j > 0;
      UnsignedRejectsForeign(t[1..], j - 1);
    } else {
      UnsignedRejectsForeign(t, j);
    }
  }

  /** A character that is not whitespace survives trimming. */
  lemma TrimIndex(s: string, i: nat) returns (j: nat)
    requires i < |s| && !IsSpace(s[i])
    ensures j < |Trim(s)| && Trim(s)[j] == s[i]
  {
    var u := TrimStart(s);
    j := i - (|s| - |u|);
    assert 0 <= j < |u| && u[j] == s[i];
  }

  lemma UnsignedRejectsForeign(t: string, j: nat)
    requires j < |t| && !IsDigit(t[j]) && t[j] != '.'
    ensures ParseUnsigned(t) == None
  {
    var p := PointIndex(t);
    if j < p {
      assert t[..p][j] == t[j];
    } else {
      assert j > p;
      assert t[p + 1..][j - p - 1] == t[j];
    }
  }
}

=== FILE: outliers.dfy ===
/** Outlier capping by the interquartile-range rule: a numeric column's
    values are clipped to `[Q1 - 1.5 * IQR, Q3 + 1.5 * IQR]`, with the
    quartiles taken over the column's numbers as they stand. */
module Outliers {
  import opened Wrappers
  import opened Frames
  import opened Stats

  /** `Series.clip(lo, hi)`: numbers are capped to the range; missing
      values and text are left alone. */
  function ClipCells(cells: seq<Cell>, lo: real, hi: real): (r: seq<Cell>)
    requires lo <= hi
    ensures |r| == |cells|
    ensures forall i :: 0 <= i < |cells| ==> (r[i].Num? <==> cells[i].Num?)
    ensures forall i :: 0 <= i < |cells| && !cells[i].Num? ==> r[i] == cells[i]
    ensures forall i :: 0 <= i < |cells| && r[i].Num? ==> lo <= r[i].x <= hi
    ensures forall i :: 0 <= i < |cells| && cells[i].Num? && lo <= cells[i].x <= hi ==> r[i] == cells[i]
    ensures forall i :: 0 <= i < |cells| && cells[i].Num? && cells[i].x < lo ==> r[i] == Num(lo)
    ensures forall i :: 0 <= i < |cells| && cells[i].Num? && cells[i].x > hi ==> r[i] == Num(hi)
  {
    seq(|cells|, i requires 0 <= i < |cells| =>
      match cells[i]
      case Num(x) => Num(Clamp(x, lo, hi))
      case _ => cells[i])
  }

  /** Clipping with the same bounds a second time changes nothing. */
  lemma ClipIdempotent(cells: seq<Cell>, lo: real, hi: real)
    requires lo <= hi
    ensures ClipCells(ClipCells(cells, lo, hi), lo, hi) == ClipCells(cells, lo, hi)
  {
  }

  /** The column after outlier capping: unchanged when it holds no number
      (the quartiles are then missing and `clip` ignores missing bounds),
      otherwise clipped to the fences of its numbers. */
  function ClipColumn(cells: seq<Cell>): (r: seq<Cell>)
    ensures |r| == |cells|
    ensures |NumValues(cells)| == 0 ==> r == cells
    ensures |NumValues(cells)| > 0 ==> r == ClipCells(cells, IqrFences(NumValues(cells)).0, IqrFences(NumValues(cells)).1)
  {
    var xs := NumValues(cells);
    if |xs| == 0 then cells else ClipCells(cells, IqrFences(xs).0, IqrFences(xs).1)
  }

  /** Capping neither brings text into a column nor takes it out. */
  lemma ClipColumnText(cells: seq<Cell>)
    ensures HasText(ClipColumn(cells)) <==> HasText(cells)
  {
    var r := ClipColumn(cells);
    forall i | 0 <= i < |cells|
      ensures r[i].Text? <==> cells[i].Text?
    {
      if |NumValues(cells)| > 0 && !cells[i].Num? {
        assert r[i] == cells[i];
      }
    }
    if HasText(cells) {
      var i :| 0 <= i < |cells| && cells[i].Text?;
      assert r[i].Text?;
    }
    if HasText(r) {
      var i :| 0 <= i < |r| && r[i].Text?;
      assert cells[i].Text?;
    }
  }

  /** Lines 37-65 for one column: compute the quartiles of `data[name]`,
      then assign the column clipped to the fences. The quantile fails on a
      column holding text. */
  function ClipIqr(f: Frame, name: string): (r: Result<Frame, Error>)
    requires Rectangular(f)
    ensures r.Success? <==> HasColumn(f, name) && !HasText(ColumnOf(f, name).value)
    ensures r.Failure? ==> r.error == (if HasColumn(f, name) then NotNumeric(name) else MissingColumn(name))
    ensures r.Success? ==> Rectangular(r.value) && r.value.height == f.height && SameNames(f, r.value)
    ensures r.Success? ==> forall n :: n != name ==> ColumnOf(r.value, n) == ColumnOf(f, n)
    ensures r.Success? ==> ColumnOf(r.value, name) == Some(ClipColumn(ColumnOf(f, name).value))
  {
    var k :- Find(f, name);
    var cells := f.cols[k].cells;
    if HasText(cells) then Failure(NotNumeric(name))
    else
      ReplaceLabels(f, k, ClipColumn(cells));
      Success(Replace(f, k, ClipColumn(cells)))
  }

  /** After capping a column that holds numbers: every number lies between
      the fences (spelled out by `Stats.IqrFencesFormula`); numbers already
      between them are unchanged; missing values stay missing; and capping
      again with the same fences changes nothing. */
  lemma ClipColumnWithinFences(cells: seq<Cell>)
    requires |NumValues(cells)| > 0
    ensures IqrFences(NumValues(cells)).0 <= IqrFences(NumValues(cells)).1
    ensures forall i :: 0 <= i < |cells| && ClipColumn(cells)[i].Num? ==>
      IqrFences(NumValues(cells)).0 <= ClipColumn(cells)[i].x <= IqrFences(NumValues(cells)).1
    ensures forall i :: (0 <= i < |cells| && cells[i].Num? &&
      IqrFences(NumValues(cells)).0 <= cells[i].x <= IqrFences(NumValues(cells)).1) ==> ClipColumn(cells)[i] == cells[i]
    ensures forall i :: 0 <= i < |cells| ==> (ClipColumn(cells)[i].Missing? <==> cells[i].Missing?)
    ensures ClipCells(ClipColumn(cells), IqrFences(NumValues(cells)).0, IqrFences(NumValues(cells)).1) == ClipColumn(cells)
  {
    var b := IqrFences(NumValues(cells));
    ClipIdempotent(cells, b.0, b.1);
  }
}

=== FILE: preprocess.dfy ===
/** The preprocessing strategy of the car-price pipeline as one function:
    the cleaning steps, de-duplication, outlier capping of six columns and
    the encoding of the categorical columns, in the order the source
    applies them. Any failing step fails the whole call with that step's
    error, as the source logs and re-raises the exception. The strategy
    interface and the `DataCleaning` context that delegates to it are
    modelled as a datatype and a dispatching function. */
module Preprocess {
  import opened Wrappers
  import opened Frames
  import opened Text
  import opened Numbers
  import opened Stats
  import opened Cleaning
  import opened Dedup
  import opened Outliers
  import opened Encoding

  /** The columns dropped first, capped for outliers, and one-hot encoded. */
  const Dropped: seq<string> := ["name", "max_power", "torque"]
  const Clipped: seq<string> := ["year", "selling_price", "km_driven", "mileage", "engine", "seats"]
  const Encoded: seq<string> := ["fuel", "seller_type", "transmission"]

  predicate DistinctNames(names: seq<string>) {
    forall i, j :: 0 <= i < j < |names| ==> names[i] != names[j]
  }

  /** The names are distinct and none is an indicator label of another, so
      encoding one listed column neither removes nor creates another. */
  predicate Independent(names: seq<string>) {
    DistinctNames(names) && forall a, b :: a in names && b in names ==> !IsDummyOf(a, b)
  }

  /** The listed columns can be encoded one after another without their
      labels clashing: the names are independent, each labels at most one
      column, and no column of `f` already carries an indicator label of a
      listed name. */
  predicate Encodable(f: Frame, names: seq<string>) {
    && Independent(names)
    && (forall e :: e in names ==> LabelAtMostOnce(f.cols, e))
    && (forall e, k :: e in names && 0 <= k < |f.cols| ==> !IsDummyOf(f.cols[k].name, e))
  }

  /** A present column holding no text. */
  predicate Numeric(c: Option<seq<Cell>>) {
    c.Some? && !HasText(c.value)
  }

  /** A present column holding numbers and missing values only, and no
      missing value at all if it holds at least one number. */
  predicate Complete(c: Option<seq<Cell>>) {
    c.Some? && !HasText(c.value) && (|NumValues(c.value)| > 0 ==> AllNum(c.value))
  }

  /** A present column of whole numbers. */
  predicate Integral(c: Option<seq<Cell>>) {
    c.Some? && forall i :: 0 <= i < |c.value| ==> c.value[i].Num? && c.value[i].x == c.value[i].x.Floor as real
  }

  /** A present column of ownership codes: each in `0..3` or missing. */
  predicate OwnerCoded(c: Option<seq<Cell>>) {
    c.Some? && forall i :: 0 <= i < |c.value| ==>
      c.value[i].Missing? || (c.value[i].Num? && c.value[i].x in {0.0, 1.0, 2.0, 3.0})
  }

  /** Lines 21-23: strip `kmpl` and then `km/kg` from `mileage`, and `CC`
      from `engine`. The second replacement on `mileage` cannot fail once
      the first has succeeded; no other column changes. */
  function StripAll(f: Frame): (r: Result<Frame, Error>)
    requires Rectangular(f)
    ensures r.Success? <==> HasColumn(f, "mileage") && HasColumn(f, "engine")
    ensures r.Failure? ==> r.error == MissingColumn("mileage") || r.error == MissingColumn("engine")
    ensures r.Failure? ==> !HasColumn(f, r.error.name)
    ensures r.Success? ==> Rectangular(r.value) && r.value.height == f.height && SameNames(f, r.value)
    ensures r.Success? ==> ColumnOf(r.value, "mileage") == Some(StripCells(StripCells(ColumnOf(f, "mileage").value, "kmpl"), "km/kg"))
    ensures r.Success? ==> ColumnOf(r.value, "engine") == Some(StripCells(ColumnOf(f, "engine").value, "CC"))
    ensures r.Success? ==> forall n :: n != "mileage" && n != "engine" ==> ColumnOf(r.value, n) == ColumnOf(f, n)
  {
    var f2 :- StripUnits(f, "mileage", "kmpl");
    assert ColumnOf(f2, "mileage").Some?;
    var f3 := StripUnits(f2, "mileage", "km/kg").value;
    SameNamesFind(f, f2, "engine");
    SameNamesFind(f2, f3, "engine");
    var g :- StripUnits(f3, "engine", "CC");
    StripAllFacts(f, f2, f3, g);
    Success(g)
  }

  lemma StripAllFacts(f: Frame, f2: Frame, f3: Frame, g: Frame)
    requires Rectangular(f) && StripUnits(f, "mileage", "kmpl") == Success(f2)
    requires StripUnits(f2, "mileage", "km/kg") == Success(f3) && StripUnits(f3, "engine", "CC") == Success(g)
    ensures Rectangular(g) && g.height == f.height && SameNames(f, g)
    ensures ColumnOf(g, "mileage") == Some(StripCells(StripCells(ColumnOf(f, "mileage").value, "kmpl"), "km/kg"))
    ensures ColumnOf(g, "engine") == Some(StripCells(ColumnOf(f, "engine").value, "CC"))
    ensures forall n :: n != "mileage" && n != "engine" ==> ColumnOf(g, n) == ColumnOf(f, n)
  {
    SameNamesTrans(f, f2, f3);
    SameNamesTrans(f, f3, g);
    assert ColumnOf(f3, "engine") == ColumnOf(f, "engine");
    assert ColumnOf(g, "mileage") == ColumnOf(f3, "mileage");
  }

  /** Lines 20-23: drop the unused columns and strip the units. The kept
      columns stay in their order; `mileage` and `engine` lose their units
      and every other kept column is unchanged. */
  function DropAndStrip(raw: Frame): (r: Result<Frame, Error>)
    requires Rectangular(raw)
    ensures r.Success? ==> Rectangular(r.value) && r.value.height == raw.height
    ensures r.Success? ==> forall n :: HasColumn(r.value, n) <==> HasColumn(raw, n) && n !in Dropped
    ensures r.Success? ==> forall n :: n in Dropped ==> HasColumn(raw, n)
    ensures r.Success? ==> HasColumn(raw, "mileage") && HasColumn(raw, "engine")
    ensures r.Success? <==> (forall n :: n in Dropped ==> HasColumn(raw, n)) && HasColumn(raw, "mileage") && HasColumn(raw, "engine")
    ensures r.Failure? ==> r.error.MissingColumn? && (r.error.name in Dropped || r.error.name in ["mileage", "engine"])
    ensures r.Failure? ==> !HasColumn(raw, r.error.name)
    ensures r.Success? ==> SameNames(Frame(raw.height, Without(raw.cols, Dropped)), r.value)
    ensures r.Success? ==> ColumnOf(r.value, "mileage") == Some(StripCells(StripCells(ColumnOf(raw, "mileage").value, "kmpl"), "km/kg"))
    ensures r.Success? ==> ColumnOf(r.value, "engine") == Some(StripCells(ColumnOf(raw, "engine").value, "CC"))
    ensures r.Success? ==> forall n :: n !in Dropped && n != "mileage" && n != "engine" ==> ColumnOf(r.value, n) == ColumnOf(raw, n)
    ensures r.Success? ==> forall i :: 0 <= i < |ColumnOf(r.value, "engine").value| && ColumnOf(r.value, "engine").value[i].Text? ==>
      !Contains(ColumnOf(r.value, "engine").value[i].s, "CC")
  {
    var f1 :- DropColumns(raw, Dropped);
    var r := StripAll(f1);
    StripOutcome(raw, f1);
    if r.Success? then
      DropStripFacts(raw, f1, r.value);
      r
    else r
  }

  /** After the drop, stripping succeeds exactly when the raw frame has
      both columns it strips, and fails on one the raw frame lacks. */
  lemma StripOutcome(raw: Frame, f1: Frame)
    requires Rectangular(raw) && DropColumns(raw, Dropped) == Success(f1)
    ensures StripAll(f1).Success? <==> HasColumn(raw, "mileage") && HasColumn(raw, "engine")
    ensures StripAll(f1).Failure? ==> !HasColumn(raw, StripAll(f1).error.name)
  {
    KeptLabels();
    assert HasColumn(f1, "mileage") == HasColumn(raw, "mileage");
    assert HasColumn(f1, "engine") == HasColumn(raw, "engine");
    var r := StripAll(f1);
    if r.Failure? {
      assert r.error.name == "mileage" || r.error.name == "engine";
      assert !HasColumn(f1, r.error.name);
    }
  }

  lemma DropStripFacts(raw: Frame, f1: Frame, g: Frame)
    requires Rectangular(raw) && DropColumns(raw, Dropped) == Success(f1) && StripAll(f1) == Success(g)
    ensures forall n :: HasColumn(g, n) <==> HasColumn(raw, n) && n !in Dropped
    ensures HasColumn(raw, "mileage") && HasColumn(raw, "engine")
    ensures SameNames(Frame(raw.height, Without(raw.cols, Dropped)), g)
    ensures ColumnOf(g, "mileage") == Some(StripCells(StripCells(ColumnOf(raw, "mileage").value, "kmpl"), "km/kg"))
    ensures ColumnOf(g, "engine") == Some(StripCells(ColumnOf(raw, "engine").value, "CC"))
    ensures forall n :: n !in Dropped && n != "mileage" && n != "engine" ==> ColumnOf(g, n) == ColumnOf(raw, n)
    ensures forall i :: 0 <= i < |ColumnOf(g, "engine").value| && ColumnOf(g, "engine").value[i].Text? ==>
      !Contains(ColumnOf(g, "engine").value[i].s, "CC")
  {
    SameNamesHas(f1, g);
    assert "mileage" !in Dropped && "engine" !in Dropped;
    assert ColumnOf(f1, "mileage") == ColumnOf(raw, "mileage");
    assert ColumnOf(f1, "engine") == ColumnOf(raw, "engine");
    StripEngineClean(ColumnOf(f1, "engine").value);
  }

  /** Lines 25-27: coerce the three columns to numbers; this fails only on
      an absent column, leaves no text behind and changes no other column. */
  function CoerceAll(f: Frame): (r: Result<Frame, Error>)
    requires Rectangular(f)
    ensures r.Success? <==> HasColumn(f, "mileage") && HasColumn(f, "engine") && HasColumn(f, "seats")
    ensures r.Failure? ==> r.error.MissingColumn? && r.error.name in ["mileage", "engine", "seats"]
    ensures r.Failure? ==> !HasColumn(f, r.error.name)
    ensures r.Success? ==> Rectangular(r.value) && r.value.height == f.height && SameNames(f, r.value)
    ensures r.Success? ==> ColumnOf(r.value, "mileage") == Some(CoerceCells(ColumnOf(f, "mileage").value))
    ensures r.Success? ==> ColumnOf(r.value, "engine") == Some(CoerceCells(ColumnOf(f, "engine").value))
    ensures r.Success? ==> ColumnOf(r.value, "seats") == Some(CoerceCells(ColumnOf(f, "seats").value))
    ensures r.Success? ==> forall n :: n != "mileage" && n != "engine" && n != "seats" ==> ColumnOf(r.value, n) == ColumnOf(f, n)
    ensures r.Success? ==>
      Numeric(ColumnOf(r.value, "mileage")) && Numeric(ColumnOf(r.value, "engine")) && Numeric(ColumnOf(r.value, "seats"))
  {
    var f5 :- Coerce(f, "mileage");
    SameNamesFind(f, f5, "engine");
    SameNamesFind(f, f5, "seats");
    var f6 :- Coerce(f5, "engine");
    SameNamesFind(f5, f6, "seats");
    var f7 :- Coerce(f6, "seats");
    CoerceAllFacts(f, f5, f6, f7);
    Success(f7)
  }

  lemma CoerceAllFacts(f: Frame, f5: Frame, f6: Frame, f7: Frame)
    requires HasColumn(f, "mileage") && HasColumn(f, "engine") && HasColumn(f, "seats")
    requires Rectangular(f) && Coerce(f, "mileage") == Success(f5)
    requires Coerce(f5, "engine") == Success(f6) && Coerce(f6, "seats") == Success(f7)
    ensures Rectangular(f7) && f7.height == f.height && SameNames(f, f7)
    ensures ColumnOf(f7, "mileage") == Some(CoerceCells(ColumnOf(f, "mileage").value))
    ensures ColumnOf(f7, "engine") == Some(CoerceCells(ColumnOf(f, "engine").value))
    ensures ColumnOf(f7, "seats") == Some(CoerceCells(ColumnOf(f, "seats").value))
    ensures forall n :: n != "mileage" && n != "engine" && n != "seats" ==> ColumnOf(f7, n) == ColumnOf(f, n)
  {
    SameNamesTrans(f, f5, f6);
    SameNamesTrans(f, f6, f7);
    ThreeLabels();
    KeepsThrough(f, f5, f6, f7, "mileage", "engine", "seats");
  }

  /** The three converted labels differ from one another. */
  lemma ThreeLabels()
    ensures "mileage" != "engine" && "mileage" != "seats" && "engine" != "seats"
  {
    assert |"mileage"| == 7 && |"engine"| == 6 && |"seats"| == 5;
  }

  /** Three steps, each of which changes only the column of its own label:
      each label reads what its own step wrote, and every other label reads
      what it read before the first step. */
  lemma KeepsThrough(f: Frame, g: Frame, h: Frame, k: Frame, a: string, b: string, c: string)
    requires a != b && a != c && b != c
    requires forall n :: n != a ==> ColumnOf(g, n) == ColumnOf(f, n)
    requires forall n :: n != b ==> ColumnOf(h, n) == ColumnOf(g, n)
    requires forall n :: n != c ==> ColumnOf(k, n) == ColumnOf(h, n)
    ensures ColumnOf(k, a) == ColumnOf(g, a) && ColumnOf(k, b) == ColumnOf(h, b)
    ensures ColumnOf(g, b) == ColumnOf(f, b)
    ensures ColumnOf(h, c) == ColumnOf(f, c)
    ensures forall n :: n != a && n != b && n != c ==> ColumnOf(k, n) == ColumnOf(f, n)
  {
  }

  /** Line 29, 30 or 31: fill one text-free column with its mean, which
      cannot fail and leaves it complete. */
  function FillOne(f: Frame, name: string): (g: Frame)
    requires Rectangular(f) && Numeric(ColumnOf(f, name))
    ensures Rectangular(g) && g.height == f.height && SameNames(f, g)
    ensures ColumnOf(g, name) == Some(FillColumn(ColumnOf(f, name).value))
    ensures Complete(ColumnOf(g, name))
    ensures forall n :: n != name ==> ColumnOf(g, n) == ColumnOf(f, n)
  {
    FillCompletes(ColumnOf(f, name).value);
    FillMean(f, name).value
  }

  /** Lines 29-31: fill each of the three columns with its own mean. This
      cannot fail once they hold no text, leaves each complete and changes
      no other column. */
  function FillAll(f: Frame): (g: Frame)
    requires Rectangular(f)
    requires Numeric(ColumnOf(f, "mileage")) && Numeric(ColumnOf(f, "engine")) && Numeric(ColumnOf(f, "seats"))
    ensures Rectangular(g) && g.height == f.height && SameNames(f, g)
    ensures ColumnOf(g, "mileage") == Some(FillColumn(ColumnOf(f, "mileage").value))
    ensures ColumnOf(g, "engine") == Some(FillColumn(ColumnOf(f, "engine").value))
    ensures ColumnOf(g, "seats") == Some(FillColumn(ColumnOf(f, "seats").value))
    ensures forall n :: n != "mileage" && n != "engine" && n != "seats" ==> ColumnOf(g, n) == ColumnOf(f, n)
    ensures Complete(ColumnOf(g, "mileage")) && Complete(ColumnOf(g, "engine")) && Complete(ColumnOf(g, "seats"))
  {
    var f8 := FillOne(f, "mileage");
    var f9 := FillOne(f8, "engine");
    var f10 := FillOne(f9, "seats");
    FillAllFacts(f, f8, f9, f10);
    f10
  }

  lemma FillAllFacts(f: Frame, f8: Frame, f9: Frame, f10: Frame)
    requires Rectangular(f)
    requires Numeric(ColumnOf(f, "mileage")) && Numeric(ColumnOf(f, "engine")) && Numeric(ColumnOf(f, "seats"))
    requires f8 == FillOne(f, "mileage")
    requires Numeric(ColumnOf(f8, "engine")) && f9 == FillOne(f8, "engine")
    requires Numeric(ColumnOf(f9, "seats")) && f10 == FillOne(f9, "seats")
    ensures SameNames(f, f10)
    ensures ColumnOf(f10, "mileage") == Some(FillColumn(ColumnOf(f, "mileage").value))
    ensures ColumnOf(f10, "engine") == Some(FillColumn(ColumnOf(f, "engine").value))
    ensures ColumnOf(f10, "seats") == Some(FillColumn(ColumnOf(f, "seats").value))
    ensures forall n :: n != "mileage" && n != "engine" && n != "seats" ==> ColumnOf(f10, n) == ColumnOf(f, n)
    ensures Complete(ColumnOf(f10, "mileage")) && Complete(ColumnOf(f10, "engine"))
  {
    SameNamesTrans(f, f8, f9);
    SameNamesTrans(f, f9, f10);
    ThreeLabels();
    KeepsThrough(f, f8, f9, f10, "mileage", "engine", "seats");
  }

  /** Filling with the mean, as `FillMean` does, leaves a complete column. */
  lemma FillCompletes(cells: seq<Cell>)
    requires !HasText(cells)
    ensures Complete(Some(FillColumn(cells)))
  {
    if |NumValues(cells)| > 0 {
      var r := FillColumn(cells);
      assert AllNum(r);
      assert !HasText(r);
    }
  }

  /** Lines 20-34: the cleaning steps, ending with the cast of the seat
      count to integers. Casting the engine column to floating point
      changes no value here. Each converted column is its raw column with
      the units stripped, coerced, and filled with the mean of its own
      numbers; the other kept columns are the raw ones. */
  function Clean(raw: Frame): (r: Result<Frame, Error>)
    requires Rectangular(raw)
    ensures r.Success? ==> Rectangular(r.value) && r.value.height == raw.height
    ensures r.Success? ==> HasColumn(raw, "mileage") && HasColumn(raw, "engine") && HasColumn(raw, "seats")
    ensures r.Success? ==> SameNames(Frame(raw.height, Without(raw.cols, Dropped)), r.value)
    ensures r.Success? ==>
      ColumnOf(r.value, "mileage") == Some(FillColumn(CoerceCells(StripCells(StripCells(ColumnOf(raw, "mileage").value, "kmpl"), "km/kg"))))
    ensures r.Success? ==>
      ColumnOf(r.value, "engine") == Some(FillColumn(CoerceCells(StripCells(ColumnOf(raw, "engine").value, "CC"))))
    ensures r.Success? ==>
      AllNum(FillColumn(CoerceCells(ColumnOf(raw, "seats").value))) &&
      ColumnOf(r.value, "seats") == Some(TruncCells(FillColumn(CoerceCells(ColumnOf(raw, "seats").value))))
    ensures r.Success? ==> forall n :: n !in Dropped && n != "mileage" && n != "engine" && n != "seats" ==>
      ColumnOf(r.value, n) == ColumnOf(raw, n)
  {
    var stripped :- DropAndStrip(raw);
    var coerced :- CoerceAll(stripped);
    var filled := FillAll(coerced);
    var r := AsInt64(filled, "seats");
    if r.Success? then
      StripCoerceFacts(raw, stripped, coerced);
      CoerceSeatsFacts(raw, stripped, coerced);
      StripCoerceLabels(raw, stripped, coerced);
      FillCastFacts(coerced, filled, r.value);
      SameNamesTrans(Frame(raw.height, Without(raw.cols, Dropped)), coerced, r.value);
      r
    else r
  }

  /** The units stripped and the text coerced, in terms of the raw frame. */
  lemma StripCoerceFacts(raw: Frame, stripped: Frame, coerced: Frame)
    requires Rectangular(raw) && DropAndStrip(raw) == Success(stripped) && CoerceAll(stripped) == Success(coerced)
    ensures ColumnOf(coerced, "mileage") == Some(CoerceCells(StripCells(StripCells(ColumnOf(raw, "mileage").value, "kmpl"), "km/kg")))
    ensures ColumnOf(coerced, "engine") == Some(CoerceCells(StripCells(ColumnOf(raw, "engine").value, "CC")))
  {
  }

  /** The seat count is not stripped, only coerced. */
  lemma CoerceSeatsFacts(raw: Frame, stripped: Frame, coerced: Frame)
    requires HasColumn(stripped, "seats")
    requires forall n :: n !in Dropped && n != "mileage" && n != "engine" ==> ColumnOf(stripped, n) == ColumnOf(raw, n)
    requires ColumnOf(coerced, "seats") == Some(CoerceCells(ColumnOf(stripped, "seats").value))
    ensures HasColumn(raw, "seats")
    ensures ColumnOf(coerced, "seats") == Some(CoerceCells(ColumnOf(raw, "seats").value))
  {
    KeptLabels();
    ThreeLabels();
    assert ColumnOf(stripped, "seats") == ColumnOf(raw, "seats");
  }

  /** Stripping and coercing keep the labels of the kept columns, and the
      cells of every kept column they do not convert. */
  lemma StripCoerceLabels(raw: Frame, stripped: Frame, coerced: Frame)
    requires Rectangular(raw) && DropAndStrip(raw) == Success(stripped) && CoerceAll(stripped) == Success(coerced)
    ensures SameNames(Frame(raw.height, Without(raw.cols, Dropped)), coerced)
    ensures forall n :: n !in Dropped && n != "mileage" && n != "engine" && n != "seats" ==> ColumnOf(coerced, n) == ColumnOf(raw, n)
  {
    SameNamesTrans(Frame(raw.height, Without(raw.cols, Dropped)), stripped, coerced);
  }

  /** None of the converted columns is dropped. */
  lemma KeptLabels()
    ensures "mileage" !in Dropped && "engine" !in Dropped && "seats" !in Dropped
  {
  }

  /** The three columns filled and the seat count cast, in terms of the
      coerced frame. */
  lemma FillCastFacts(coerced: Frame, filled: Frame, r: Frame)
    requires Rectangular(coerced)
    requires Numeric(ColumnOf(coerced, "mileage")) && Numeric(ColumnOf(coerced, "engine")) && Numeric(ColumnOf(coerced, "seats"))
    requires filled == FillAll(coerced) && AsInt64(filled, "seats") == Success(r)
    ensures SameNames(coerced, r)
    ensures ColumnOf(r, "mileage") == Some(FillColumn(ColumnOf(coerced, "mileage").value))
    ensures ColumnOf(r, "engine") == Some(FillColumn(ColumnOf(coerced, "engine").value))
    ensures AllNum(FillColumn(ColumnOf(coerced, "seats").value)) &&
      ColumnOf(r, "seats") == Some(TruncCells(FillColumn(ColumnOf(coerced, "seats").value)))
    ensures forall n :: n != "mileage" && n != "engine" && n != "seats" ==> ColumnOf(r, n) == ColumnOf(coerced, n)
  {
    ThreeLabels();
    SameNamesTrans(coerced, filled, r);
  }

  /** The stages of a successful cleaning, each of which succeeded. */
  lemma CleanStages(raw: Frame) returns (stripped: Frame, filled: Frame)
    requires Rectangular(raw) && Clean(raw).Success?
    ensures DropAndStrip(raw).Success? && stripped == DropAndStrip(raw).value
    ensures CoerceAll(stripped).Success? && filled == FillAll(CoerceAll(stripped).value)
    ensures Clean(raw) == AsInt64(filled, "seats")
    ensures SameNames(stripped, Clean(raw).value)
  {
    stripped := DropAndStrip(raw).value;
    var coerced := CoerceAll(stripped).value;
    filled := FillAll(coerced);
    SameNamesTrans(stripped, coerced, filled);
    SameNamesTrans(stripped, filled, Clean(raw).value);
  }

  /** Cleaning removes exactly the dropped columns, and succeeds only on a
      frame holding them and the three columns it converts. */
  lemma CleanColumns(raw: Frame)
    requires Rectangular(raw)
    ensures Clean(raw).Success? ==> (forall n :: HasColumn(Clean(raw).value, n) <==> HasColumn(raw, n) && n !in Dropped)
    ensures Clean(raw).Success? ==> (forall n :: n in Dropped ==> HasColumn(raw, n))
    ensures Clean(raw).Success? ==> HasColumn(raw, "mileage") && HasColumn(raw, "engine") && HasColumn(raw, "seats")
  {
    if Clean(raw).Success? {
      var stripped, filled := CleanStages(raw);
      StrippedColumns(raw, stripped, Clean(raw).value);
    }
  }

  /** Dropping and stripping fix the labels; nothing after them changes
      one. */
  lemma StrippedColumns(raw: Frame, stripped: Frame, r: Frame)
    requires forall n :: HasColumn(stripped, n) <==> HasColumn(raw, n) && n !in Dropped
    requires HasColumn(stripped, "seats") && SameNames(stripped, r)
    ensures forall n :: HasColumn(r, n) <==> HasColumn(raw, n) && n !in Dropped
    ensures HasColumn(raw, "seats")
  {
    forall n
      ensures HasColumn(r, n) <==> HasColumn(stripped, n)
    {
      SameNamesFind(stripped, r, n);
    }
  }

  /** After cleaning, `mileage` and `engine` are complete and `seats` holds
      whole numbers only. */
  lemma CleanValues(raw: Frame)
    requires Rectangular(raw)
    ensures Clean(raw).Success? ==> Complete(ColumnOf(Clean(raw).value, "mileage")) && Complete(ColumnOf(Clean(raw).value, "engine"))
    ensures Clean(raw).Success? ==> Integral(ColumnOf(Clean(raw).value, "seats"))
  {
    if Clean(raw).Success? {
      var stripped, filled := CleanStages(raw);
      CastKeeps(filled, Clean(raw).value);
    }
  }

  /** The cast of `seats` leaves the other two filled columns alone. */
  lemma CastKeeps(filled: Frame, r: Frame)
    requires Rectangular(filled) && AsInt64(filled, "seats") == Success(r)
    requires Complete(ColumnOf(filled, "mileage")) && Complete(ColumnOf(filled, "engine"))
    ensures Complete(ColumnOf(r, "mileage")) && Complete(ColumnOf(r, "engine")) && Integral(ColumnOf(r, "seats"))
  {
    assert ColumnOf(r, "mileage") == ColumnOf(filled, "mileage");
    assert ColumnOf(r, "engine") == ColumnOf(filled, "engine");
  }

  /** What cleaning needs of the raw frame: the dropped columns and the
      three converted ones present, and a `seats` column that the integer
      cast accepts once coerced and filled with its mean. */
  predicate Cleanable(raw: Frame) {
    && (forall n :: n in Dropped ==> HasColumn(raw, n))
    && HasColumn(raw, "mileage") && HasColumn(raw, "engine") && HasColumn(raw, "seats")
    && AllNum(FillColumn(CoerceCells(ColumnOf(raw, "seats").value)))
  }

  /** Once dropping, stripping and coercing have succeeded, the raw frame
      has `seats`, and the filled frame holds it coerced and filled. */
  lemma CleanTail(raw: Frame, stripped: Frame, coerced: Frame)
    requires Rectangular(raw) && DropAndStrip(raw) == Success(stripped) && CoerceAll(stripped) == Success(coerced)
    ensures HasColumn(raw, "seats") && HasColumn(FillAll(coerced), "seats")
    ensures ColumnOf(FillAll(coerced), "seats") == Some(FillColumn(CoerceCells(ColumnOf(raw, "seats").value)))
  {
    CoerceSeatsFacts(raw, stripped, coerced);
  }

  /** Cleaning succeeds exactly on a cleanable frame. */
  lemma CleanSucceeds(raw: Frame)
    requires Rectangular(raw)
    ensures Clean(raw).Success? <==> Cleanable(raw)
  {
    if Clean(raw).Success? {
      CleanColumns(raw);
    }
    if Cleanable(raw) {
      CleanableCleans(raw);
    }
  }

  /** The direction of `CleanSucceeds` from the frame to the call. */
  lemma CleanableCleans(raw: Frame)
    requires Rectangular(raw) && Cleanable(raw)
    ensures Clean(raw).Success?
  {
    CleanErrors(raw);
    NoCleanFault(raw, Clean(raw));
  }

  /** A result whose every failure `CleanErrors` explains cannot be a
      failure on a cleanable frame. */
  lemma NoCleanFault(raw: Frame, r: Result<Frame, Error>)
    requires Cleanable(raw)
    requires r.Failure? ==> r.error.MissingColumn? || r.error == CannotCastToInteger("seats")
    requires r.Failure? && r.error.MissingColumn? ==>
      (r.error.name in Dropped || r.error.name in ["mileage", "engine", "seats"]) && !HasColumn(raw, r.error.name)
    requires r.Failure? && r.error.CannotCastToInteger? ==>
      !AllNum(FillColumn(CoerceCells(ColumnOf(raw, "seats").value)))
    ensures r.Success?
  {
  }

  /** Cleaning fails only on a column it reads that the raw frame lacks,
      or on a `seats` column that, coerced and filled, still holds a
      missing value, which the integer cast rejects. */
  lemma CleanErrors(raw: Frame)
    requires Rectangular(raw)
    ensures Clean(raw).Failure? ==> (Clean(raw).error.MissingColumn? || Clean(raw).error == CannotCastToInteger("seats"))
    ensures Clean(raw).Failure? ==> (Clean(raw).error.MissingColumn? ==>
      Clean(raw).error.name in Dropped || Clean(raw).error.name in ["mileage", "engine", "seats"])
    ensures Clean(raw).Failure? && Clean(raw).error.MissingColumn? ==> !HasColumn(raw, Clean(raw).error.name)
    ensures Clean(raw).Failure? && Clean(raw).error.CannotCastToInteger? ==>
      HasColumn(raw, "seats") && !AllNum(FillColumn(CoerceCells(ColumnOf(raw, "seats").value)))
  {
    var d := DropAndStrip(raw);
    if d.Success? {
      var c := CoerceAll(d.value);
      if c.Failure? {
        KeptLabels();
        assert !HasColumn(d.value, c.error.name);
      } else {
        CleanTail(raw, d.value, c.value);
      }
    }
  }


  /** Every listed column is present and holds no text, as capping needs. */
  predicate Clippable(f: Frame, names: seq<string>) {
    forall n :: n in names ==> HasColumn(f, n) && !HasText(ColumnOf(f, n).value)
  }

  /** A capping error names a column of `f` that is absent, or present and
      holding text. */
  predicate ClipFault(f: Frame, e: Error) {
    match e
    case MissingColumn(n) => !HasColumn(f, n)
    case NotNumeric(n) => HasColumn(f, n) && HasText(ColumnOf(f, n).value)
    case _ => false
  }

  /** Lines 37-65: cap each listed column in turn. Capping one column leaves
      every other column as it was, so with distinct names each listed
      column ends up capped by the fences of its own values in `f`. */
  function ClipAll(f: Frame, names: seq<string>): (r: Result<Frame, Error>)
    requires Rectangular(f)
    ensures r.Success? ==> Rectangular(r.value) && r.value.height == f.height && SameNames(f, r.value)
    ensures r.Success? ==> forall n :: n in names ==> HasColumn(f, n)
    ensures r.Success? ==> forall n :: n !in names ==> ColumnOf(r.value, n) == ColumnOf(f, n)
    ensures r.Success? && DistinctNames(names) ==>
      forall n :: n in names ==> ColumnOf(r.value, n) == Some(ClipColumn(ColumnOf(f, n).value))
    ensures r.Success? <==> Clippable(f, names)
    ensures r.Failure? ==> r.error.name in names && ClipFault(f, r.error)
    decreases |names|
  {
    if |names| == 0 then Success(f)
    else
      var g :- ClipIqr(f, names[0]);
      var rest := ClipAll(g, names[1..]);
      ClipAllOutcome(f, names, g);
      if rest.Failure? then
        assert rest.error.name in names;
        Failure(rest.error)
      else
        var h := rest.value;
        ClipAllStep(f, names, g, h);
        Success(h)
  }

  /** One step of `ClipAll`: after capping the first listed column, the
      rest can be capped exactly when the whole list could be, and a fault
      found then was already a fault before. */
  lemma ClipAllOutcome(f: Frame, names: seq<string>, g: Frame)
    requires Rectangular(f) && |names| > 0 && ClipIqr(f, names[0]) == Success(g)
    ensures Clippable(f, names) <==> Clippable(g, names[1..])
    ensures forall e :: ClipFault(g, e) ==> ClipFault(f, e)
  {
    var n0 := names[0];
    ClipColumnText(ColumnOf(f, n0).value);
    forall n
      ensures HasColumn(g, n) <==> HasColumn(f, n)
      ensures HasColumn(f, n) ==> (HasText(ColumnOf(g, n).value) <==> HasText(ColumnOf(f, n).value))
    {
      SameNamesFind(f, g, n);
    }
    if Clippable(g, names[1..]) {
      forall n | n in names
        ensures HasColumn(f, n) && !HasText(ColumnOf(f, n).value)
      {
        if n != n0 {
          assert n in names[1..];
        }
      }
    }
    if Clippable(f, names) {
      forall n | n in names[1..]
        ensures HasColumn(g, n) && !HasText(ColumnOf(g, n).value)
      {
        assert n in names;
      }
    }
  }

  /** One step of `ClipAll`: capping the first listed column, then the
      rest, gives the result promised for the whole list. */
  lemma ClipAllStep(f: Frame, names: seq<string>, g: Frame, h: Frame)
    requires Rectangular(f) && |names| > 0 && ClipIqr(f, names[0]) == Success(g)
    requires Rectangular(g) && SameNames(g, h)
    requires forall n :: n in names[1..] ==> HasColumn(g, n)
    requires forall n :: n !in names[1..] ==> ColumnOf(h, n) == ColumnOf(g, n)
    requires DistinctNames(names[1..]) ==> forall n :: n in names[1..] ==> ColumnOf(h, n) == Some(ClipColumn(ColumnOf(g, n).value))
    ensures SameNames(f, h)
    ensures forall n :: n in names ==> HasColumn(f, n)
    ensures forall n :: n !in names ==> ColumnOf(h, n) == ColumnOf(f, n)
    ensures DistinctNames(names) ==> forall n :: n in names ==> ColumnOf(h, n) == Some(ClipColumn(ColumnOf(f, n).value))
  {
    forall n | n in names
      ensures HasColumn(f, n)
    {
      SameNamesFind(f, g, n);
    }
    if DistinctNames(names) {
      assert DistinctNames(names[1..]) && names[0] !in names[1..];
      forall n | n in names
        ensures ColumnOf(h, n) == Some(ClipColumn(ColumnOf(f, n).value))
      {
        if n != names[0] {
          assert n in names[1..];
        }
      }
    }
    SameNamesTrans(f, g, h);
  }

  /** Every listed column is present and holds no number, as encoding
      needs. */
  predicate Categorical(f: Frame, names: seq<string>) {
    forall e :: e in names ==> HasColumn(f, e) && !HasNum(ColumnOf(f, e).value)
  }

  /** An encoding error names a column of `f` that is absent, or present
      and holding a number. */
  predicate EncodeFault(f: Frame, e: Error) {
    match e
    case MissingColumn(n) => !HasColumn(f, n)
    case NumericCategory(n) => HasColumn(f, n) && HasNum(ColumnOf(f, n).value)
    case _ => false
  }

  /** Line 67: one-hot encode each listed column in turn. Encoding one
      column at a time and appending its indicators gives the layout of
      the single `get_dummies` call: the untouched columns in order, then
      the indicators column by column. */
  function EncodeAll(f: Frame, names: seq<string>): (r: Result<Frame, Error>)
    requires Rectangular(f)
    ensures r.Success? ==> Rectangular(r.value) && r.value.height == f.height
    ensures r.Success? ==> forall n :: n !in names && HasColumn(f, n) ==> ColumnOf(r.value, n) == ColumnOf(f, n)
    ensures r.Success? ==> forall n :: HasColumn(r.value, n) ==> HasColumn(f, n) || exists e :: e in names && IsDummyOf(n, e)
    // A listed label absent from `f` can only be an indicator label that
    // encoding an earlier listed column created, as `a_x` after `a`.
    ensures r.Success? ==> forall n :: n in names ==> HasColumn(f, n) || exists e :: e in names && IsDummyOf(n, e)
    ensures r.Failure? ==> (r.error.MissingColumn? || r.error.NumericCategory?) && r.error.name in names
    ensures Independent(names) ==> (r.Success? <==> Categorical(f, names))
    ensures Independent(names) && r.Failure? ==> EncodeFault(f, r.error)
    ensures r.Success? && Encodable(f, names) ==> forall e :: e in names ==> HasColumn(f, e) && !HasColumn(r.value, e)
    ensures r.Success? && Encodable(f, names) ==>
      forall e, c :: e in names && c in CategoriesOf(ColumnOf(f, e).value) && c != CategoriesOf(ColumnOf(f, e).value)[0] ==>
        ColumnOf(r.value, DummyName(e, c)) == Some(Indicator(ColumnOf(f, e).value, c))
    decreases |names|
  {
    if |names| == 0 then Success(f)
    else
      var g :- OneHot(f, names[0]);
      var rest := EncodeAll(g, names[1..]);
      EncodeAllOutcome(f, names, g);
      if rest.Failure? then
        assert rest.error.name in names;
        Failure(rest.error)
      else
        var h := rest.value;
        forall n | n in names
          ensures HasColumn(f, n) || exists e :: e in names && IsDummyOf(n, e)
        {
          if n != names[0] {
            assert n in names[1..];
            if !HasColumn(g, n) {
              var e :| e in names[1..] && IsDummyOf(n, e);
              assert e in names;
            }
          }
        }
        forall n | HasColumn(h, n)
          ensures HasColumn(f, n) || exists e :: e in names && IsDummyOf(n, e)
        {
          if !HasColumn(g, n) {
            var e :| e in names[1..] && IsDummyOf(n, e);
            assert e in names;
          }
        }
        EncodeAllStep(f, names, g, h);
        Success(h)
  }

  /** One step of `EncodeAll` for independent names: after encoding the
      first listed column, the rest can be encoded exactly when the whole
      list could be, and a fault found then was already a fault before. */
  lemma EncodeAllOutcome(f: Frame, names: seq<string>, g: Frame)
    requires Rectangular(f) && |names| > 0 && OneHot(f, names[0]) == Success(g)
    ensures Independent(names) ==> Independent(names[1..])
    ensures Independent(names) ==> (Categorical(f, names) <==> Categorical(g, names[1..]))
    ensures Independent(names) ==> forall e: Error :: e.name in names[1..] && EncodeFault(g, e) ==> EncodeFault(f, e)
  {
    if Independent(names) {
      EncodeAllOutcomeIndependent(f, names, g);
    }
  }

  lemma EncodeAllOutcomeIndependent(f: Frame, names: seq<string>, g: Frame)
    requires Rectangular(f) && |names| > 0 && OneHot(f, names[0]) == Success(g) && Independent(names)
    ensures Independent(names[1..])
    ensures Categorical(f, names) <==> Categorical(g, names[1..])
    ensures forall e: Error :: e.name in names[1..] && EncodeFault(g, e) ==> EncodeFault(f, e)
  {
    var e0, rest := names[0], names[1..];
    forall n | n in rest
      ensures HasColumn(g, n) <==> HasColumn(f, n)
      ensures HasColumn(f, n) ==> ColumnOf(g, n) == ColumnOf(f, n)
    {
      assert n in names && n != e0 && !IsDummyOf(n, e0);
    }
    if Categorical(g, rest) {
      forall e | e in names
        ensures HasColumn(f, e) && !HasNum(ColumnOf(f, e).value)
      {
        if e != e0 {
          assert e in rest;
        }
      }
    }
    if Categorical(f, names) {
      forall e | e in rest
        ensures HasColumn(g, e) && !HasNum(ColumnOf(g, e).value)
      {
        assert e in names;
      }
    }
  }

  /** One step of `EncodeAll`: encoding the first listed column, then the
      rest, removes every listed column and leaves each indicator column
      of each one in place. */
  lemma EncodeAllStep(f: Frame, names: seq<string>, g: Frame, h: Frame)
    requires Rectangular(f) && |names| > 0 && OneHot(f, names[0]) == Success(g)
    requires forall n :: n !in names[1..] && HasColumn(g, n) ==> ColumnOf(h, n) == ColumnOf(g, n)
    requires forall n :: HasColumn(h, n) ==> HasColumn(g, n) || exists e :: e in names[1..] && IsDummyOf(n, e)
    requires Encodable(g, names[1..]) ==> forall e :: e in names[1..] ==> HasColumn(g, e) && !HasColumn(h, e)
    requires Encodable(g, names[1..]) ==>
      forall e, c :: e in names[1..] && c in CategoriesOf(ColumnOf(g, e).value) && c != CategoriesOf(ColumnOf(g, e).value)[0] ==>
        ColumnOf(h, DummyName(e, c)) == Some(Indicator(ColumnOf(g, e).value, c))
    ensures Encodable(f, names) ==> forall e :: e in names ==> HasColumn(f, e) && !HasColumn(h, e)
    ensures Encodable(f, names) ==>
      forall e, c :: e in names && c in CategoriesOf(ColumnOf(f, e).value) && c != CategoriesOf(ColumnOf(f, e).value)[0] ==>
        ColumnOf(h, DummyName(e, c)) == Some(Indicator(ColumnOf(f, e).value, c))
  {
    if Encodable(f, names) {
      var e0, rest := names[0], names[1..];
      EncodableRest(f, names, g);
      forall e' | e' in rest
        ensures e' != e0 && !IsDummyOf(e0, e') && !IsDummyOf(e', e0)
      {
        assert e' in names;
      }
      assert !HasColumn(g, e0) by {
        OneHotRemoves(f, e0);
      }
      forall e | e in names
        ensures HasColumn(f, e) && !HasColumn(h, e)
      {
        if e != e0 {
          assert e in rest && HasColumn(g, e);
        }
      }
      forall e, c | e in names && c in CategoriesOf(ColumnOf(f, e).value) && c != CategoriesOf(ColumnOf(f, e).value)[0]
        ensures ColumnOf(h, DummyName(e, c)) == Some(Indicator(ColumnOf(f, e).value, c))
      {
        if e == e0 {
          forall n | HasColumn(f, n)
            ensures !IsDummyOf(n, e0)
          {
            var k :| 0 <= k < |f.cols| && f.cols[k].name == n;
          }
          OneHotDummy(f, e0, c);
          DummyNameIsDummy(e0, c);
        } else {
          assert e in rest && HasColumn(g, e);
          assert ColumnOf(g, e) == ColumnOf(f, e);
        }
      }
    }
  }

  /** What remains to be encoded after the first listed column can still be
      encoded. */
  lemma EncodableRest(f: Frame, names: seq<string>, g: Frame)
    requires Rectangular(f) && |names| > 0 && OneHot(f, names[0]) == Success(g) && Encodable(f, names)
    ensures Encodable(g, names[1..])
  {
    var e0, rest := names[0], names[1..];
    forall e | e in rest
      ensures LabelAtMostOnce(g.cols, e)
    {
      assert e in names;
      OneHotAtMostOnce(f, e0, e);
    }
    forall e, k | e in rest && 0 <= k < |g.cols|
      ensures !IsDummyOf(g.cols[k].name, e)
    {
      var n := g.cols[k].name;
      assert e in names && HasColumn(g, n);
      if IsDummyOf(n, e) && !HasColumn(f, n) {
        assert IsDummyOf(n, e0);
        DummyPrefixes(n, e, e0);
      }
    }
  }

  /** `DataPreProcessStrategy.handle_data`. */
  function HandleData(raw: Frame): (r: Result<Frame, Error>)
    requires Rectangular(raw)
    ensures r.Success? ==> Rectangular(r.value) && r.value.height <= raw.height
  {
    var cleaned :- Clean(raw);
    var unique := DropDuplicates(cleaned);
    var clipped :- ClipAll(unique, Clipped);
    var encoded :- EncodeAll(clipped, Encoded);
    MapOwner(encoded)
  }


  /** No label the step reads is an indicator label of an encoded column. */
  lemma NotDummyLabel(n: string)
    requires n in Encoded || n == "owner"
    ensures forall e :: e in Encoded ==> !IsDummyOf(n, e)
  {
    forall e | e in Encoded
      ensures !IsDummyOf(n, e)
    {
      assert |n| <= |e| || n[0] != e[0];
    }
  }

  /** Encoding succeeded only on a frame holding the encoded columns, and a
      final `owner` column was already there before encoding. */
  lemma EncodeReads(clipped: Frame, n: string)
    requires Rectangular(clipped) && EncodeAll(clipped, Encoded).Success?
    requires n in Encoded || HasColumn(EncodeAll(clipped, Encoded).value, n)
    requires n in Encoded || n == "owner"
    ensures HasColumn(clipped, n)
  {
    NotDummyLabel(n);
  }

  /** Capping keeps every label, and succeeded only with the capped ones. */
  lemma ClipReads(unique: Frame, n: string)
    requires Rectangular(unique) && ClipAll(unique, Clipped).Success?
    requires n in Clipped || HasColumn(ClipAll(unique, Clipped).value, n)
    ensures HasColumn(unique, n)
  {
    SameNamesFind(unique, ClipAll(unique, Clipped).value, n);
  }

  /** A label present after de-duplicating the cleaned frame was present
      in the raw frame. */
  lemma CleanReads(raw: Frame, n: string)
    requires Rectangular(raw) && Clean(raw).Success?
    requires HasColumn(DropDuplicates(Clean(raw).value), n)
    ensures HasColumn(raw, n)
  {
    SameNamesFind(Clean(raw).value, DropDuplicates(Clean(raw).value), n);
    CleanColumns(raw);
  }

  /** The stages of a successful call, each of which succeeded. */
  lemma Stages(raw: Frame) returns (unique: Frame, clipped: Frame)
    requires Rectangular(raw) && HandleData(raw).Success?
    ensures Clean(raw).Success? && unique == DropDuplicates(Clean(raw).value) && Rectangular(unique)
    ensures ClipAll(unique, Clipped).Success? && clipped == ClipAll(unique, Clipped).value && Rectangular(clipped)
    ensures EncodeAll(clipped, Encoded).Success?
    ensures MapOwner(EncodeAll(clipped, Encoded).value) == HandleData(raw)
  {
    unique := DropDuplicates(Clean(raw).value);
    clipped := ClipAll(unique, Clipped).value;
  }

  /** A successful call read every column it names: the three dropped ones,
      the six capped ones, the three encoded ones and `owner`. */
  lemma HandleDataReads(raw: Frame)
    requires Rectangular(raw)
    ensures HandleData(raw).Success? ==> (forall n :: n in Dropped ==> HasColumn(raw, n))
    ensures HandleData(raw).Success? ==> (forall n :: n in Clipped ==> HasColumn(raw, n))
    ensures HandleData(raw).Success? ==> (forall n :: n in Encoded ==> HasColumn(raw, n))
    ensures HandleData(raw).Success? ==> HasColumn(raw, "owner")
  {
    if HandleData(raw).Success? {
      var unique, clipped := Stages(raw);
      CleanColumns(raw);
      forall n | n in Clipped
        ensures HasColumn(raw, n)
      {
        ClipReads(unique, n);
        CleanReads(raw, n);
      }
      forall n | n in Encoded
        ensures HasColumn(raw, n)
      {
        EncodeReads(clipped, n);
        ClipReads(unique, n);
        CleanReads(raw, n);
      }
      assert HasColumn(EncodeAll(clipped, Encoded).value, "owner");
      EncodeReads(clipped, "owner");
      ClipReads(unique, "owner");
      CleanReads(raw, "owner");
    }
  }

  /** The capped columns that cleaning leaves as they were in the raw
      frame; the other three capped columns are the converted ones. */
  const RawClipped: seq<string> := ["year", "selling_price", "km_driven"]

  /** What a call needs of the raw frame: what cleaning needs, the three
      capped columns cleaning does not convert present and free of text,
      the encoded columns present and free of numbers, and `owner`. */
  predicate Ready(raw: Frame) {
    && Cleanable(raw)
    && Clippable(raw, RawClipped)
    && Categorical(raw, Encoded)
    && HasColumn(raw, "owner")
  }

  /** The errors a call can raise, each traced back to the raw frame: an
      absent label it reads, a `seats` column the integer cast rejects, text
      in a capped column cleaning did not convert, or a number in an encoded
      column. */
  predicate Explained(raw: Frame, e: Error) {
    match e
    case MissingColumn(n) => (n in Dropped || n in Clipped || n in Encoded || n == "owner") && !HasColumn(raw, n)
    case NotNumeric(n) => n in RawClipped && HasColumn(raw, n) && HasText(ColumnOf(raw, n).value)
    case NumericCategory(n) => n in Encoded && HasColumn(raw, n) && HasNum(ColumnOf(raw, n).value)
    case CannotCastToInteger(n) =>
      n == "seats" && HasColumn(raw, "seats") && !AllNum(FillColumn(CoerceCells(ColumnOf(raw, "seats").value)))
  }

  /** A failing call fails with the error of the step that raised it, and
      that error names what is wrong with the raw frame. */
  lemma HandleDataErrors(raw: Frame)
    requires Rectangular(raw)
    ensures HandleData(raw).Failure? ==> Explained(raw, HandleData(raw).error)
  {
    if HandleData(raw).Failure? {
      var c := Clean(raw);
      if c.Failure? {
        CleanErrors(raw);
        assert HandleData(raw) == Failure(c.error);
        assert "mileage" in Clipped && "engine" in Clipped && "seats" in Clipped;
      } else {
        var unique := DropDuplicates(c.value);
        var clipped := ClipAll(unique, Clipped);
        if clipped.Failure? {
          assert HandleData(raw) == Failure(clipped.error);
          ClipFaultRaw(raw, clipped.error);
        } else {
          var encoded := EncodeAll(clipped.value, Encoded);
          EncodedLabels();
          if encoded.Failure? {
            assert HandleData(raw) == Failure(encoded.error);
            EncodeFaultRaw(raw, clipped.value, encoded.error);
          } else {
            assert HandleData(raw) == MapOwner(encoded.value);
            OwnerFaultRaw(raw, clipped.value, encoded.value);
          }
        }
      }
    }
  }

  /** A call succeeds exactly on a ready raw frame. */
  lemma HandleDataSucceeds(raw: Frame)
    requires Rectangular(raw)
    ensures HandleData(raw).Success? <==> Ready(raw)
  {
    if Ready(raw) {
      HandleDataErrors(raw);
      NoHandleFault(raw, HandleData(raw));
    }
    if HandleData(raw).Success? {
      HandledReady(raw);
    }
  }

  /** A result whose every failure `HandleDataErrors` explains cannot be a
      failure on a ready frame. */
  lemma NoHandleFault(raw: Frame, r: Result<Frame, Error>)
    requires Ready(raw)
    requires r.Failure? ==> Explained(raw, r.error)
    ensures r.Success?
  {
    KeptApart();
  }

  /** The direction of `HandleDataSucceeds` from the call to the frame. */
  lemma HandledReady(raw: Frame)
    requires Rectangular(raw) && HandleData(raw).Success?
    ensures Ready(raw)
  {
    var unique, clipped := Stages(raw);
    CleanSucceeds(raw);
    HandleDataReads(raw);
    KeptApart();
    forall n | n in RawClipped
      ensures HasColumn(raw, n) && !HasText(ColumnOf(raw, n).value)
    {
      UniqueColumn(raw, n);
    }
    EncodedLabels();
    forall e | e in Encoded
      ensures HasColumn(raw, e) && !HasNum(ColumnOf(raw, e).value)
    {
      EncodedApart(e, "");
      UniqueColumn(raw, e);
      SameNamesFind(unique, clipped, e);
    }
  }

  /** The labels the later steps read are not dropped, and the capped
      labels are the three unconverted ones and the three converted ones. */
  lemma KeptApart()
    ensures forall n :: n in Clipped || n in Encoded || n == "owner" ==> n !in Dropped
    ensures forall n :: n in Clipped <==> n in RawClipped || n == "mileage" || n == "engine" || n == "seats"
    ensures forall n :: n in RawClipped ==> n != "mileage" && n != "engine" && n != "seats"
  {
    forall n, m | n in Clipped + Encoded + ["owner"] && m in Dropped
      ensures n != m
    {
      assert |n| != |m| || n[0] != m[0];
    }
    forall n, m | n in RawClipped && m in ["mileage", "engine", "seats"]
      ensures n != m
    {
      assert |n| != |m|;
    }
  }

  /** Cells that occur in the same places hold text, and numbers, alike. */
  lemma SameCells(a: seq<Cell>, b: seq<Cell>)
    requires forall c :: c in a ==> c in b
    requires forall c :: c in b ==> c in a
    ensures HasText(a) <==> HasText(b)
    ensures HasNum(a) <==> HasNum(b)
  {
    if HasText(a) {
      var i :| 0 <= i < |a| && a[i].Text?;
      assert a[i] in b;
    }
    if HasText(b) {
      var i :| 0 <= i < |b| && b[i].Text?;
      assert b[i] in a;
    }
    if HasNum(a) {
      var i :| 0 <= i < |a| && a[i].Num?;
      assert a[i] in b;
    }
    if HasNum(b) {
      var i :| 0 <= i < |b| && b[i].Num?;
      assert b[i] in a;
    }
  }

  /** A kept column that cleaning does not convert reaches the capping
      stage with the cells of the raw column, less repeated rows: present
      exactly when it was, holding text and numbers exactly when it did. */
  lemma UniqueColumn(raw: Frame, n: string)
    requires Rectangular(raw) && Clean(raw).Success?
    ensures n !in Dropped && n != "mileage" && n != "engine" && n != "seats" ==>
      (HasColumn(DropDuplicates(Clean(raw).value), n) <==> HasColumn(raw, n))
    ensures n !in Dropped && n != "mileage" && n != "engine" && n != "seats" && HasColumn(raw, n) ==>
      (HasText(ColumnOf(DropDuplicates(Clean(raw).value), n).value) <==> HasText(ColumnOf(raw, n).value)) &&
      (HasNum(ColumnOf(DropDuplicates(Clean(raw).value), n).value) <==> HasNum(ColumnOf(raw, n).value))
  {
    if n !in Dropped && n != "mileage" && n != "engine" && n != "seats" {
      CleanColumns(raw);
      KeptColumn(raw, Clean(raw).value, n);
    }
  }

  /** `UniqueColumn` for a cleaned frame given by what it keeps. */
  lemma KeptColumn(raw: Frame, cleaned: Frame, n: string)
    requires Rectangular(cleaned)
    requires HasColumn(cleaned, n) <==> HasColumn(raw, n)
    requires HasColumn(raw, n) ==> ColumnOf(cleaned, n) == ColumnOf(raw, n)
    ensures HasColumn(DropDuplicates(cleaned), n) <==> HasColumn(raw, n)
    ensures HasColumn(raw, n) ==>
      (HasText(ColumnOf(DropDuplicates(cleaned), n).value) <==> HasText(ColumnOf(raw, n).value)) &&
      (HasNum(ColumnOf(DropDuplicates(cleaned), n).value) <==> HasNum(ColumnOf(raw, n).value))
  {
    SameNamesFind(cleaned, DropDuplicates(cleaned), n);
    if HasColumn(raw, n) {
      DropDuplicatesCells(cleaned, n);
      DropDuplicatesKeepsCells(cleaned, n);
      SameCells(ColumnOf(DropDuplicates(cleaned), n).value, ColumnOf(cleaned, n).value);
    }
  }

  /** The three converted columns reach the capping stage free of text. */
  lemma ConvertedClean(raw: Frame)
    requires Rectangular(raw) && Clean(raw).Success?
    ensures HasColumn(DropDuplicates(Clean(raw).value), "mileage") &&
      !HasText(ColumnOf(DropDuplicates(Clean(raw).value), "mileage").value)
    ensures HasColumn(DropDuplicates(Clean(raw).value), "engine") &&
      !HasText(ColumnOf(DropDuplicates(Clean(raw).value), "engine").value)
    ensures HasColumn(DropDuplicates(Clean(raw).value), "seats") &&
      !HasText(ColumnOf(DropDuplicates(Clean(raw).value), "seats").value)
  {
    var cleaned := Clean(raw).value;
    CleanValues(raw);
    IntegralComplete(ColumnOf(cleaned, "seats"));
    CompleteUnique(cleaned, "mileage");
    CompleteUnique(cleaned, "engine");
    CompleteUnique(cleaned, "seats");
  }

  /** A complete column stays present and free of text once repeated rows
      are dropped. */
  lemma CompleteUnique(cleaned: Frame, n: string)
    requires Rectangular(cleaned) && Complete(ColumnOf(cleaned, n))
    ensures HasColumn(DropDuplicates(cleaned), n) && !HasText(ColumnOf(DropDuplicates(cleaned), n).value)
  {
    DropDuplicatesCells(cleaned, n);
    CompleteSubset(ColumnOf(cleaned, n).value, ColumnOf(DropDuplicates(cleaned), n).value);
  }

  /** A capping fault is a fault of the raw frame. */
  lemma ClipFaultRaw(raw: Frame, e: Error)
    requires Rectangular(raw) && Clean(raw).Success?
    requires e.name in Clipped && ClipFault(DropDuplicates(Clean(raw).value), e)
    ensures Explained(raw, e)
  {
    KeptApart();
    ConvertedClean(raw);
    UniqueColumn(raw, e.name);
  }

  /** An encoding fault is a fault of the raw frame. */
  lemma EncodeFaultRaw(raw: Frame, clipped: Frame, e: Error)
    requires Rectangular(raw) && Clean(raw).Success?
    requires ClipAll(DropDuplicates(Clean(raw).value), Clipped) == Success(clipped)
    requires e.name in Encoded && EncodeFault(clipped, e)
    ensures Explained(raw, e)
  {
    var unique := DropDuplicates(Clean(raw).value);
    KeptApart();
    EncodedApart(e.name, "");
    UniqueColumn(raw, e.name);
    SameNamesFind(unique, clipped, e.name);
  }

  /** A failed `owner` mapping means the raw frame had no `owner`. */
  lemma OwnerFaultRaw(raw: Frame, clipped: Frame, encoded: Frame)
    requires Rectangular(raw) && Clean(raw).Success?
    requires ClipAll(DropDuplicates(Clean(raw).value), Clipped) == Success(clipped)
    requires Rectangular(clipped) && EncodeAll(clipped, Encoded) == Success(encoded)
    ensures MapOwner(encoded).Failure? ==> !HasColumn(raw, "owner")
  {
    var unique := DropDuplicates(Clean(raw).value);
    KeptApart();
    OwnerApart();
    UniqueColumn(raw, "owner");
    SameNamesFind(unique, clipped, "owner");
  }

  /** The encoding and the owner mapping leave a capped column alone. */
  lemma LaterStagesKeep(clipped: Frame, n: string)
    requires Rectangular(clipped) && EncodeAll(clipped, Encoded).Success?
    requires MapOwner(EncodeAll(clipped, Encoded).value).Success?
    requires n in Clipped && HasColumn(clipped, n)
    ensures ColumnOf(MapOwner(EncodeAll(clipped, Encoded).value).value, n) == ColumnOf(clipped, n)
  {
    ClippedNotEncoded(n);
  }

  /** A capped label is neither an encoded label nor `owner`. */
  lemma ClippedNotEncoded(n: string)
    requires n in Clipped
    ensures n !in Encoded && n != "owner"
  {
    forall m | m in Encoded + ["owner"]
      ensures n != m
    {
      assert |n| != |m| || n[0] != m[0];
    }
  }

  /** No label is capped twice. */
  lemma ClippedDistinct()
    ensures DistinctNames(Clipped)
  {
    forall i, j | 0 <= i < j < |Clipped|
      ensures Clipped[i] != Clipped[j]
    {
      assert |Clipped[i]| != |Clipped[j]|;
    }
  }

  /** After the capping stage a capped label reads its capped column. */
  lemma ClipStage(unique: Frame, n: string)
    requires Rectangular(unique) && ClipAll(unique, Clipped).Success? && n in Clipped
    ensures HasColumn(unique, n) && HasColumn(ClipAll(unique, Clipped).value, n)
    ensures ColumnOf(ClipAll(unique, Clipped).value, n) == Some(ClipColumn(ColumnOf(unique, n).value))
  {
    ClippedDistinct();
    SameNamesFind(unique, ClipAll(unique, Clipped).value, n);
  }

  /** The six numeric columns of the result are their de-duplicated
      cleaned columns capped by their own fences: the means are taken
      before de-duplication, the quartiles after it. */
  lemma HandleDataClipped(raw: Frame)
    requires Rectangular(raw)
    ensures HandleData(raw).Success? ==> Clean(raw).Success?
    ensures HandleData(raw).Success? ==> (forall n :: n in Clipped ==> HasColumn(DropDuplicates(Clean(raw).value), n))
    ensures HandleData(raw).Success? ==> (forall n :: n in Clipped ==>
      ColumnOf(HandleData(raw).value, n) == Some(ClipColumn(ColumnOf(DropDuplicates(Clean(raw).value), n).value)))
  {
    if HandleData(raw).Success? {
      var unique, clipped := Stages(raw);
      forall n | n in Clipped
        ensures HasColumn(unique, n)
        ensures ColumnOf(HandleData(raw).value, n) == Some(ClipColumn(ColumnOf(unique, n).value))
      {
        ClipStage(unique, n);
        LaterStagesKeep(clipped, n);
      }
    }
  }

  /** The `owner` column of the result is the de-duplicated `owner` column
      mapped through the code table: ordinal codes and missing values only,
      one per row. */
  lemma HandleDataOwner(raw: Frame)
    requires Rectangular(raw)
    ensures HandleData(raw).Success? ==>
      Clean(raw).Success? && HasColumn(DropDuplicates(Clean(raw).value), "owner") &&
      ColumnOf(HandleData(raw).value, "owner") == Some(OwnerCells(ColumnOf(DropDuplicates(Clean(raw).value), "owner").value))
    ensures HandleData(raw).Success? ==> OwnerCoded(ColumnOf(HandleData(raw).value, "owner"))
    ensures HandleData(raw).Success? ==> |ColumnOf(HandleData(raw).value, "owner").value| == HandleData(raw).value.height
  {
    if HandleData(raw).Success? {
      var unique, clipped := Stages(raw);
      var encoded := EncodeAll(clipped, Encoded).value;
      var cells := ColumnOf(encoded, "owner").value;
      assert ColumnOf(HandleData(raw).value, "owner") == Some(OwnerCells(cells));
      OwnerStage(unique, clipped);
    }
  }

  /** Capping and encoding pass the `owner` column through to the mapping. */
  lemma OwnerStage(unique: Frame, clipped: Frame)
    requires Rectangular(unique) && ClipAll(unique, Clipped).Success? && clipped == ClipAll(unique, Clipped).value
    requires Rectangular(clipped) && EncodeAll(clipped, Encoded).Success?
    requires MapOwner(EncodeAll(clipped, Encoded).value).Success?
    ensures HasColumn(unique, "owner")
    ensures ColumnOf(MapOwner(EncodeAll(clipped, Encoded).value).value, "owner") ==
      Some(OwnerCells(ColumnOf(unique, "owner").value))
  {
    OwnerApart();
    EncodeReads(clipped, "owner");
    ClipReads(unique, "owner");
    assert ColumnOf(EncodeAll(clipped, Encoded).value, "owner") == ColumnOf(clipped, "owner");
  }

  /** `owner` is neither capped nor encoded. */
  lemma OwnerApart()
    ensures "owner" !in Clipped && "owner" !in Encoded
  {
    forall m | m in Clipped + Encoded
      ensures m != "owner"
    {
      assert |m| != 5 || m[0] != 'o';
    }
  }

  /** Keeping only cells of a complete column keeps it complete. */
  lemma CompleteSubset(a: seq<Cell>, b: seq<Cell>)
    requires Complete(Some(a))
    requires forall c :: c in b ==> c in a
    ensures Complete(Some(b))
  {
    forall j | 0 <= j < |b|
      ensures !b[j].Text?
    {
      assert b[j] in a;
    }
    if |NumValues(b)| > 0 {
      var i :| 0 <= i < |b| && b[i].Num?;
      assert b[i] in a;
      forall j | 0 <= j < |b|
        ensures b[j].Num?
      {
        assert b[j] in a;
      }
    }
  }

  /** Capping a complete column keeps it complete. */
  lemma ClipKeepsComplete(cells: seq<Cell>)
    requires Complete(Some(cells))
    ensures Complete(Some(ClipColumn(cells)))
  {
    if |NumValues(cells)| > 0 {
      assert AllNum(ClipColumn(cells));
    }
  }

  /** A whole-number column is complete. */
  lemma IntegralComplete(c: Option<seq<Cell>>)
    requires Integral(c)
    ensures Complete(c)
  {
  }

  /** A column complete after cleaning is complete after de-duplication
      and capping. */
  lemma StaysComplete(cleaned: Frame, n: string)
    requires Rectangular(cleaned) && Complete(ColumnOf(cleaned, n))
    ensures HasColumn(DropDuplicates(cleaned), n)
    ensures Complete(Some(ClipColumn(ColumnOf(DropDuplicates(cleaned), n).value)))
  {
    DropDuplicatesCells(cleaned, n);
    CompleteSubset(ColumnOf(cleaned, n).value, ColumnOf(DropDuplicates(cleaned), n).value);
    ClipKeepsComplete(ColumnOf(DropDuplicates(cleaned), n).value);
  }

  /** The three filled columns reach the result complete: neither the
      de-duplication nor the capping brings a missing value back. */
  lemma HandleDataComplete(raw: Frame)
    requires Rectangular(raw)
    ensures HandleData(raw).Success? ==> Complete(ColumnOf(HandleData(raw).value, "mileage"))
    ensures HandleData(raw).Success? ==> Complete(ColumnOf(HandleData(raw).value, "engine"))
    ensures HandleData(raw).Success? ==> Complete(ColumnOf(HandleData(raw).value, "seats"))
  {
    if HandleData(raw).Success? {
      HandleDataClipped(raw);
      var cleaned := Clean(raw).value;
      CleanValues(raw);
      IntegralComplete(ColumnOf(cleaned, "seats"));
      StaysComplete(cleaned, "mileage");
      StaysComplete(cleaned, "engine");
      StaysComplete(cleaned, "seats");
      assert "mileage" in Clipped && "engine" in Clipped && "seats" in Clipped;
    }
  }

  /** Dropping columns keeps a frame encodable. */
  lemma EncodableWithout(raw: Frame, names: seq<string>, drop: seq<string>)
    requires Encodable(raw, names)
    ensures Encodable(Frame(raw.height, Without(raw.cols, drop)), names)
  {
    var w := Without(raw.cols, drop);
    forall e | e in names
      ensures LabelAtMostOnce(w, e)
    {
      WithoutAtMostOnce(raw.cols, drop, e);
    }
    forall e, k | e in names && 0 <= k < |w|
      ensures !IsDummyOf(w[k].name, e)
    {
      assert w[k] in raw.cols;
      var i :| 0 <= i < |raw.cols| && raw.cols[i] == w[k];
    }
  }

  /** Frames with the same labels are encodable alike. */
  lemma EncodableSameNames(f: Frame, g: Frame, names: seq<string>)
    requires SameNames(f, g) && Encodable(f, names)
    ensures Encodable(g, names)
  {
    forall e | e in names
      ensures LabelAtMostOnce(g.cols, e)
    {
      assert LabelAtMostOnce(f.cols, e);
    }
    forall e, k | e in names && 0 <= k < |g.cols|
      ensures !IsDummyOf(g.cols[k].name, e)
    {
      assert g.cols[k].name == f.cols[k].name;
    }
  }

  /** An encoded label is neither capped nor `owner`, and neither is any
      indicator label of it. */
  lemma EncodedApart(e: string, c: string)
    requires e in Encoded
    ensures e !in Clipped && DummyName(e, c) != "owner"
  {
    assert DummyName(e, c)[0] == e[0];
    forall m | m in Clipped
      ensures e != m
    {
      assert |e| != |m| || e[0] != m[0];
    }
  }

  /** The encoded labels can be encoded one after another. */
  lemma EncodedLabels()
    ensures DistinctNames(Encoded)
    ensures forall a, b :: a in Encoded && b in Encoded ==> !IsDummyOf(a, b)
  {
    forall a, b | a in Encoded && b in Encoded
      ensures !IsDummyOf(a, b)
    {
      assert a == b || a[0] != b[0];
    }
  }

  /** Each encoded column is replaced by the indicators of its categories
      in the de-duplicated rows, as long as the raw frame has one column
      per encoded label and no column already carrying an indicator label
      of one. */
  lemma HandleDataEncoded(raw: Frame)
    requires Rectangular(raw)
    ensures HandleData(raw).Success? && Encodable(raw, Encoded) ==>
      Clean(raw).Success? &&
      forall e :: e in Encoded ==> HasColumn(DropDuplicates(Clean(raw).value), e) && !HasColumn(HandleData(raw).value, e)
    ensures HandleData(raw).Success? && Encodable(raw, Encoded) ==>
      forall e, c ::
        (e in Encoded && c in CategoriesOf(ColumnOf(DropDuplicates(Clean(raw).value), e).value) &&
         c != CategoriesOf(ColumnOf(DropDuplicates(Clean(raw).value), e).value)[0]) ==>
        ColumnOf(HandleData(raw).value, DummyName(e, c)) == Some(Indicator(ColumnOf(DropDuplicates(Clean(raw).value), e).value, c))
  {
    if HandleData(raw).Success? && Encodable(raw, Encoded) {
      var unique, clipped := Stages(raw);
      var encoded := EncodeAll(clipped, Encoded).value;
      var out := HandleData(raw).value;
      EncodableWithout(raw, Encoded, Dropped);
      EncodableSameNames(Frame(raw.height, Without(raw.cols, Dropped)), Clean(raw).value, Encoded);
      EncodableSameNames(Clean(raw).value, unique, Encoded);
      EncodableSameNames(unique, clipped, Encoded);
      SameNamesHas(encoded, out);
      SameNamesHas(unique, clipped);
      forall e, c | e in Encoded && c in CategoriesOf(ColumnOf(unique, e).value) && c != CategoriesOf(ColumnOf(unique, e).value)[0]
        ensures ColumnOf(out, DummyName(e, c)) == Some(Indicator(ColumnOf(unique, e).value, c))
      {
        EncodedApart(e, c);
        assert ColumnOf(clipped, e) == ColumnOf(unique, e);
      }
    }
  }

  /** The means are taken before de-duplication: every cell of a filled
      column that reaches the capping stage is a cell of the raw column
      stripped, coerced and filled with the mean over all raw rows. */
  lemma HandleDataFilled(raw: Frame)
    requires Rectangular(raw)
    ensures HandleData(raw).Success? ==>
      Clean(raw).Success? &&
      HasColumn(DropDuplicates(Clean(raw).value), "mileage") && HasColumn(DropDuplicates(Clean(raw).value), "engine") &&
      HasColumn(raw, "mileage") && HasColumn(raw, "engine")
    ensures HandleData(raw).Success? ==> forall c :: c in ColumnOf(DropDuplicates(Clean(raw).value), "mileage").value ==>
      c in FillColumn(CoerceCells(StripCells(StripCells(ColumnOf(raw, "mileage").value, "kmpl"), "km/kg")))
    ensures HandleData(raw).Success? ==> forall c :: c in ColumnOf(DropDuplicates(Clean(raw).value), "engine").value ==>
      c in FillColumn(CoerceCells(StripCells(ColumnOf(raw, "engine").value, "CC")))
  {
    if HandleData(raw).Success? {
      var unique, clipped := Stages(raw);
      var cleaned := Clean(raw).value;
      DropDuplicatesCells(cleaned, "mileage");
      DropDuplicatesCells(cleaned, "engine");
    }
  }

  /** The strategies a cleaning context can hold. Only preprocessing is
      part of this model. */
  datatype Strategy = PreProcess

  /** A frame together with the strategy to apply to it. */
  datatype DataCleaning = DataCleaning(data: Frame, strategy: Strategy)

  /** `DataCleaning.handle_data`: hand the held frame to the held strategy
      and pass its result or its error through unchanged. */
  function Handle(dc: DataCleaning): (r: Result<Frame, Error>)
    requires Rectangular(dc.data)
    ensures dc.strategy == PreProcess ==> r == HandleData(dc.data)
    ensures r.Success? ==> Rectangular(r.value) && r.value.height <= dc.data.height
  {
    match dc.strategy
    case PreProcess => HandleData(dc.data)
  }
}

=== FILE: stats.dfy ===
/** The column statistics the preprocessing step relies on, over exact real
    numbers: the arithmetic mean that `Series.mean` computes, the quantile
    that `Series.quantile` computes with its default linear interpolation,
    the interquartile-range fences built from them, and the clamp that
    `Series.clip` applies. */
module Stats {

  function Sum(xs: seq<real>): real
    decreases |xs|
  {
    if |xs| == 0 then 0.0 else xs[0] + Sum(xs[1..])
  }

  /** The arithmetic mean of a non-empty sequence. */
  function Mean(xs: seq<real>): (m: real)
    requires |xs| > 0
    ensures |xs| as real * m == Sum(xs)
  {
    Sum(xs) / |xs| as real
  }

  /** A sum of `n` values each at least `lo` (at most `hi`) is at least
      `n * lo` (at most `n * hi`). */
  lemma {:induction false} SumBounds(xs: seq<real>, lo: real, hi: real)
    requires forall i :: 0 <= i < |xs| ==> lo <= xs[i] <= hi
    ensures |xs| as real * lo <= Sum(xs) <= |xs| as real * hi
    decreases |xs|
  {
    if |xs| > 0 {
      SumBounds(xs[1..], lo, hi);
      assert |xs| as real * lo == lo + (|xs| - 1) as real * lo;
      assert |xs| as real * hi == hi + (|xs| - 1) as real * hi;
    }
  }

  /** The mean lies between any lower and upper bound of the values: a fill
      value is never outside the range of the values it was computed from. */
  lemma MeanBetween(xs: seq<real>, lo: real, hi: real)
    requires |xs| > 0
    requires forall i :: 0 <= i < |xs| ==> lo <= xs[i] <= hi
    ensures lo <= Mean(xs) <= hi
  {
    SumBounds(xs, lo, hi);
    var n := |xs| as real;
    assert Sum(xs) / n >= lo by {
      assert Sum(xs) >= n * lo;
    }
    assert Sum(xs) / n <= hi by {
      assert Sum(xs) <= n * hi;
    }
  }

  predicate Sorted(xs: seq<real>) {
    forall i, j :: 0 <= i < j < |xs| ==> xs[i] <= xs[j]
  }

  /** `x` placed into a sorted sequence at its position. */
  function Insert(x: real, s: seq<real>): (r: seq<real>)
    requires Sorted(s)
    ensures Sorted(r)
    ensures multiset(r) == multiset(s) + multiset{x}
    decreases |s|
  {
    if |s| == 0 then [x]
    else if x <= s[0] then [x] + s
    else
      var rest := Insert(x, s[1..]);
      assert s == [s[0]] + s[1..];
      InsertAbove(x, s, rest);
      [s[0]] + rest
  }

  /** Inserting a value above the head of a sorted sequence into its tail
      keeps the head in front. */
  lemma InsertAbove(x: real, s: seq<real>, rest: seq<real>)
    requires Sorted(s) && |s| > 0 && s[0] < x && Sorted(rest)
    requires multiset(rest) == multiset(s[1..]) + multiset{x}
    ensures Sorted([s[0]] + rest)
  {
    forall j | 0 <= j < |rest|
      ensures s[0] <= rest[j]
    {
      assert rest[j] in multiset(rest);
      if rest[j] != x {
        assert rest[j] in multiset(s[1..]);
        assert rest[j] in s[1..];
      }
    }
  }

  /** The values in ascending order: a sorted permutation of `xs`. */
  function Sort(xs: seq<real>): (r: seq<real>)
    ensures Sorted(r)
    ensures multiset(r) == multiset(xs)
    decreases |xs|
  {
    if |xs| == 0 then []
    else
      assert xs == [xs[0]] + xs[1..];
      Insert(xs[0], Sort(xs[1..]))
  }

  /** A sorted arrangement of a multiset of values is unique. So the
      quantiles of a column depend on its values, not on its row order. */
  lemma {:induction false} SortedUnique(a: seq<real>, b: seq<real>)
    requires Sorted(a) && Sorted(b)
    requires multiset(a) == multiset(b)
    ensures a == b
    decreases |a|
  {
    assert |a| == |multiset(a)| == |multiset(b)| == |b|;
    if |a| > 0 {
      SortedSameHead(a, b);
      RestMultiset(a);
      RestMultiset(b);
      SortedUnique(a[1..], b[1..]);
      assert a == [a[0]] + a[1..];
      assert b == [b[0]] + b[1..];
    }
  }

  /** Sorted arrangements of one multiset start with the same value. */
  lemma SortedSameHead(a: seq<real>, b: seq<real>)
    requires Sorted(a) && Sorted(b) && |a| > 0 && |b| > 0
    requires multiset(a) == multiset(b)
    ensures a[0] == b[0]
  {
    assert a[0] in multiset(b);
    assert b[0] in multiset(a);
    var j :| 0 <= j < |b| && b[j] == a[0];
    var i :| 0 <= i < |a| && a[i] == b[0];
    assert a[0] <= a[i] && b[0] <= b[j];
  }

  lemma RestMultiset(a: seq<real>)
    requires |a| > 0
    ensures multiset(a[1..]) == multiset(a) - multiset{a[0]}
  {
    assert a == [a[0]] + a[1..];
  }

  /** The `p`-quantile of sorted values with linear interpolation: at
      position `h = (n - 1) * p`, the value at `floor(h)` plus the fraction
      `h - floor(h)` of the step to the next value. The result lies between
      the two values it interpolates. */
  function Quantile(v: seq<real>, p: real): (q: real)
    requires |v| > 0 && Sorted(v)
    requires 0.0 <= p <= 1.0
    ensures var i := QuantileIndex(|v|, p);
      v[i] <= q <= v[if i + 1 < |v| then i + 1 else i]
  {
    var i := QuantileIndex(|v|, p);
    var frac := (|v| - 1) as real * p - i as real;
    if i + 1 < |v| then
      var step := v[i + 1] - v[i];
      assert 0.0 <= frac * step <= step by {
        assert 0.0 <= frac <= 1.0;
        assert step >= 0.0;
        MulUnitInterval(frac, step);
      }
      v[i] + frac * step
    else
      v[i]
  }

  /** The integer part of the interpolation position `(n - 1) * p`. */
  function QuantileIndex(n: nat, p: real): (i: nat)
    requires n > 0 && 0.0 <= p <= 1.0
    ensures i < n
    ensures i as real <= (n - 1) as real * p < i as real + 1.0
  {
    var h := (n - 1) as real * p;
    assert 0.0 <= h <= (n - 1) as real by {
      MulUnitInterval(p, (n - 1) as real);
    }
    h.Floor
  }

  lemma MulUnitInterval(f: real, x: real)
    requires 0.0 <= f <= 1.0 && x >= 0.0
    ensures 0.0 <= f * x <= x
  {
    assert x - f * x == (1.0 - f) * x;
  }

  lemma MulMono(f: real, g: real, x: real)
    requires f <= g && x >= 0.0
    ensures f * x <= g * x && x * f <= x * g
  {
    assert g * x - f * x == (g - f) * x;
  }

  /** A higher quantile is never below a lower one: in particular the first
      quartile never exceeds the third. */
  lemma QuantileMonotone(v: seq<real>, p: real, p': real)
    requires |v| > 0 && Sorted(v)
    requires 0.0 <= p <= p' <= 1.0
    ensures Quantile(v, p) <= Quantile(v, p')
  {
    var i, i' := QuantileIndex(|v|, p), QuantileIndex(|v|, p');
    QuantileIndexMonotone(|v|, p, p');
    if i < i' {
      assert Quantile(v, p) <= v[i + 1];
      assert v[i + 1] <= v[i'];
    } else {
      QuantileWithin(v, p, p');
    }
  }

  lemma QuantileIndexMonotone(n: nat, p: real, p': real)
    requires n > 0 && 0.0 <= p <= p' <= 1.0
    ensures QuantileIndex(n, p) <= QuantileIndex(n, p')
  {
    var h, h' := (n - 1) as real * p, (n - 1) as real * p';
    MulMono(p, p', (n - 1) as real);
    assert h <= h';
    assert QuantileIndex(n, p) as real <= h;
    assert h' < QuantileIndex(n, p') as real + 1.0;
  }

  lemma ScaleMonotone(n: nat, p: real, p': real, h: real, h': real)
    requires n > 0 && p <= p'
    requires h == (n - 1) as real * p && h' == (n - 1) as real * p'
    ensures h <= h'
  {
    MulMono(p, p', (n - 1) as real);
  }

  /** Interpolating further along a rising step gives a larger value. */
  lemma InterpolationMonotone(a: real, b: real, f: real, g: real)
    requires a <= b && f <= g
    ensures a + f * (b - a) <= a + g * (b - a)
  {
    MulMono(f, g, b - a);
  }

  /** The interpolation step of `Quantile`, with the position `h` named. */
  lemma QuantileValue(v: seq<real>, p: real, h: real)
    requires |v| > 0 && Sorted(v) && 0.0 <= p <= 1.0
    requires h == (|v| - 1) as real * p
    requires QuantileIndex(|v|, p) + 1 < |v|
    ensures Quantile(v, p) ==
      v[QuantileIndex(|v|, p)] + (h - QuantileIndex(|v|, p) as real) * (v[QuantileIndex(|v|, p) + 1] - v[QuantileIndex(|v|, p)])
  {
  }

  /** Between the same two values, the interpolation grows with `p`. */
  lemma QuantileWithin(v: seq<real>, p: real, p': real)
    requires |v| > 0 && Sorted(v)
    requires 0.0 <= p <= p' <= 1.0
    requires QuantileIndex(|v|, p) == QuantileIndex(|v|, p')
    ensures Quantile(v, p) <= Quantile(v, p')
  {
    var n, i := |v|, QuantileIndex(|v|, p);
    if i + 1 < n {
      var h, h' := (n - 1) as real * p, (n - 1) as real * p';
      ScaleMonotone(n, p, p', h, h');
      assert v[i] <= v[i + 1];
      QuantileValue(v, p, h);
      QuantileValue(v, p', h');
      InterpolationMonotone(v[i], v[i + 1], h - i as real, h' - i as real);
    }
  }

  /** The outlier fences of a set of values: with quartiles `q1` and `q3`
      (taken over the values in ascending order) and `iqr = q3 - q1`, the
      closed range `[q1 - 1.5 * iqr, q3 + 1.5 * iqr]`. */
  function IqrFences(xs: seq<real>): (b: (real, real))
    requires |xs| > 0
    ensures b.0 <= b.1
    ensures b.0 <= Quantile(Sort(xs), 0.25) <= Quantile(Sort(xs), 0.75) <= b.1
  {
    SortedFences(Sort(xs))
  }

  /** The fences of values already in ascending order. The range is never
      empty, and it holds both quartiles. */
  function SortedFences(v: seq<real>): (b: (real, real))
    requires |v| > 0 && Sorted(v)
    ensures b.0 <= Quantile(v, 0.25) <= Quantile(v, 0.75) <= b.1
  {
    var q1 := Quantile(v, 0.25);
    var q3 := Quantile(v, 0.75);
    QuantileMonotone(v, 0.25, 0.75);
    var iqr := q3 - q1;
    (q1 - 1.5 * iqr, q3 + 1.5 * iqr)
  }

  /** The fences spelled out: with `Q1` and `Q3` the quartiles of the
      values in ascending order and `IQR = Q3 - Q1`, the lower fence is
      `Q1 - 1.5 * IQR` and the upper fence `Q3 + 1.5 * IQR`. */
  lemma IqrFencesFormula(xs: seq<real>)
    requires |xs| > 0
    ensures IqrFences(xs).0 == Quantile(Sort(xs), 0.25) - 1.5 * (Quantile(Sort(xs), 0.75) - Quantile(Sort(xs), 0.25))
    ensures IqrFences(xs).1 == Quantile(Sort(xs), 0.75) + 1.5 * (Quantile(Sort(xs), 0.75) - Quantile(Sort(xs), 0.25))
  {
  }

  /** The fences depend only on the multiset of values, not on their order. */
  lemma IqrFencesOrderFree(xs: seq<real>, ys: seq<real>)
    requires |xs| > 0
    requires multiset(xs) == multiset(ys)
    ensures |ys| > 0 && IqrFences(xs) == IqrFences(ys)
  {
    assert |ys| == |multiset(ys)| == |multiset(xs)| == |xs|;
    SortedUnique(Sort(xs), Sort(ys));
  }

  /** `x` capped to `[lo, hi]`: the point of the range nearest to `x`, which
      is `x` itself when it is already in range. */
  function Clamp(x: real, lo: real, hi: real): (r: real)
    requires lo <= hi
    ensures lo <= r <= hi
    ensures lo <= x <= hi ==> r == x
    ensures forall y :: lo <= y <= hi ==> Dist(r, x) <= Dist(y, x)
  {
    if x < lo then lo else if x > hi then hi else x
  }

  function Dist(a: real, b: real): real {
    if a < b then b - a else a - b
  }

  /** Capping twice with the same bounds is the same as capping once. */
  lemma ClampIdempotent(x: real, lo: real, hi: real)
    requires lo <= hi
    ensures Clamp(Clamp(x, lo, hi), lo, hi) == Clamp(x, lo, hi)
  {
  }
}

=== FILE: text.dfy ===
/** Python's `str.replace(pat, '')`: every non-overlapping occurrence of a
    pattern is removed, scanning from the left. This is what
    `Series.str.replace` applies to each text cell of a column. */
module Text {

  /** `pat` occurs in `s` starting at index `i`. */
  predicate OccursAt(s: string, pat: string, i: nat) {
    i + |pat| <= |s| && s[i..i + |pat|] == pat
  }

  predicate Contains(s: string, pat: string) {
    exists i :: 0 <= i <= |s| - |pat| && OccursAt(s, pat, i)
  }

  /** Dropping the first character shifts every later occurrence by one. */
  lemma ContainsTail(s: string, pat: string)
    requires |s| > 0
    requires !OccursAt(s, pat, 0)
    ensures Contains(s, pat) <==> Contains(s[1..], pat)
  {
    if Contains(s, pat) {
      var i :| 0 <= i <= |s| - |pat| && OccursAt(s, pat, i);
      assert i > 0;
      assert s[1..][i - 1..i - 1 + |pat|] == s[i..i + |pat|];
      assert OccursAt(s[1..], pat, i - 1);
    }
    if Contains(s[1..], pat) {
      var i :| 0 <= i <= |s[1..]| - |pat| && OccursAt(s[1..], pat, i);
      assert s[1..][i..i + |pat|] == s[i + 1..i + 1 + |pat|];
      assert OccursAt(s, pat, i + 1);
    }
  }

  /** The text left after removing the non-overlapping occurrences of `pat`
      from `s`, found left to right. A string is returned unchanged exactly when it holds no
      occurrence; it is never longer than `s`. */
  function RemoveAll(s: string, pat: string): (r: string)
    requires |pat| > 0
    ensures |r| <= |s|
    ensures r == s <==> !Contains(s, pat)
    decreases |s|
  {
    if |s| < |pat| then s
    else if s[..|pat|] == pat then
      assert OccursAt(s, pat, 0);
      RemoveAll(s[|pat|..], pat)
    else
      assert !OccursAt(s, pat, 0);
      ContainsTail(s, pat);
      [s[0]] + RemoveAll(s[1..], pat)
  }

  /** The text before the leftmost occurrence is kept, that occurrence is
      removed, and removal carries on after it. With the unchanged-exactly-
      when-absent property of `RemoveAll`, this fixes the result for every
      input: every non-overlapping occurrence, found left to right, goes. */
  lemma {:induction false} RemoveLeftmost(s: string, pat: string, i: nat)
    requires |pat| > 0 && OccursAt(s, pat, i)
    requires forall j :: 0 <= j < i ==> !OccursAt(s, pat, j)
    ensures RemoveAll(s, pat) == s[..i] + RemoveAll(s[i + |pat|..], pat)
  {
    KeepPrefix(s, pat, i);
    RemoveFront(s[i..], pat);
    assert s[i..][|pat|..] == s[i + |pat|..];
  }

  /** With no occurrence starting before `k`, the first `k` characters are
      kept as they are. */
  lemma {:induction false} KeepPrefix(s: string, pat: string, k: nat)
    requires |pat| > 0 && k + |pat| <= |s|
    requires forall j :: 0 <= j < k ==> !OccursAt(s, pat, j)
    ensures RemoveAll(s, pat) == s[..k] + RemoveAll(s[k..], pat)
  {
    if k == 0 {
      assert s[..0] == [] && s[0..] == s;
    } else {
      KeepPrefix(s, pat, k - 1);
      SkipAt(s, pat, k - 1);
    }
  }

  /** One step of `KeepPrefix`: a position where no occurrence starts moves
      from the unscanned part into the kept prefix. */
  lemma SkipAt(s: string, pat: string, k: nat)
    requires |pat| > 0 && k + |pat| <= |s| && !OccursAt(s, pat, k)
    ensures s[..k] + RemoveAll(s[k..], pat) == s[..k + 1] + RemoveAll(s[k + 1..], pat)
  {
    var u := s[k..];
    assert !OccursAt(u, pat, 0) by {
      assert u[..|pat|] == s[k..k + |pat|];
    }
    RemoveSkips(u, pat);
    assert u[1..] == s[k + 1..];
    PrefixGrows(s, k, RemoveAll(s[k + 1..], pat));
  }

  /** Moving the character at `k` from the front of the tail to the end of
      the prefix keeps the whole. */
  lemma PrefixGrows(s: string, k: nat, rest: string)
    requires k < |s|
    ensures s[..k] + ([s[k]] + rest) == s[..k + 1] + rest
  {
    assert s[..k] + [s[k]] == s[..k + 1];
  }

  /** Without an occurrence at the front, the first character is kept. */
  lemma RemoveSkips(u: string, pat: string)
    requires |pat| > 0 && |pat| <= |u| && !OccursAt(u, pat, 0)
    ensures RemoveAll(u, pat) == [u[0]] + RemoveAll(u[1..], pat)
  {
    assert u[..|pat|] != pat;
  }

  /** An occurrence at the front is dropped and removal carries on after it. */
  lemma RemoveFront(u: string, pat: string)
    requires |pat| > 0 && OccursAt(u, pat, 0)
    ensures RemoveAll(u, pat) == RemoveAll(u[|pat|..], pat)
  {
    assert u[..|pat|] == pat;
  }

  /** A unit written once at the end of a value, with no occurrence of the
      unit starting earlier, is stripped and leaves the value's text
      (`"23.4 kmpl"` becomes `"23.4 "`). */
  lemma {:induction false} RemoveTrailing(a: string, pat: string)
    requires |pat| > 0
    requires forall i :: 0 <= i < |a| ==> !OccursAt(a + pat, pat, i)
    ensures RemoveAll(a + pat, pat) == a
    decreases |a|
  {
    if |a| == 0 {
      assert a + pat == pat;
      assert pat[..|pat|] == pat;
      assert pat[|pat|..] == [];
    } else {
      var s := a + pat;
      assert !OccursAt(s, pat, 0);
      assert s[..|pat|] != pat;
      assert s[1..] == a[1..] + pat;
      forall i | 0 <= i < |a[1..]|
        ensures !OccursAt(a[1..] + pat, pat, i)
      {
        assert !OccursAt(s, pat, i + 1);
        assert (a[1..] + pat)[i..i + |pat|] == s[i + 1..i + 1 + |pat|];
      }
      RemoveTrailing(a[1..], pat);
      assert [a[0]] + a[1..] == a;
    }
  }

  /** Removing every occurrence of a doubled character never leaves a new
      one behind: no two of those characters end up adjacent. This is why no
      engine value keeps a `"CC"` after stripping. */
  lemma {:induction false} RemoveDoubledLeavesNone(s: string, c: char)
    ensures !Contains(RemoveAll(s, [c, c]), [c, c])
    decreases |s|
  {
    var pat := [c, c];
    var r := RemoveAll(s, pat);
    if |s| < 2 {
      assert r == s;
    } else if s[..2] == pat {
      assert r == RemoveAll(s[2..], pat);
      RemoveDoubledLeavesNone(s[2..], c);
    } else {
      var rest := RemoveAll(s[1..], pat);
      assert r == [s[0]] + rest;
      RemoveDoubledLeavesNone(s[1..], c);
      if s[0] == c {
        assert s[1] != c;
        HeadKept(s[1..], c);
      }
      assert !OccursAt(r, pat, 0);
      ContainsTail(r, pat);
      assert r[1..] == rest;
    }
  }

  /** A string that does not start with `c` keeps its first character when
      the doubled `c` is removed. */
  lemma HeadKept(s: string, c: char)
    requires |s| > 0 && s[0] != c
    ensures |RemoveAll(s, [c, c])| > 0 && RemoveAll(s, [c, c])[0] == s[0]
  {
    if |s| >= 2 {
      assert s[..2] != [c, c];
    }
  }

  /** Removal can create a fresh occurrence when the pattern surrounds one:
      `"kmkmplpl"` loses its inner `"kmpl"` and becomes `"kmpl"`. So, unlike
      the doubled-character case, a mileage value may still contain a unit
      after stripping. */
  lemma MileageResidue()
    ensures RemoveAll("kmkmplpl", "kmpl") == "kmpl"
    ensures Contains(RemoveAll("kmkmplpl", "kmpl"), "kmpl")
  {
    ResidueOuter();
    assert OccursAt("kmpl", "kmpl", 0);
  }

  /** The inner `"kmpl"` of `"kmplpl"` goes, leaving `"pl"`. */
  lemma ResidueInner()
    ensures RemoveAll("kmplpl", "kmpl") == "pl"
  {
    var s := "kmplpl";
    assert RemoveAll("pl", "kmpl") == "pl";
    assert s[..4] == "kmpl" && s[4..] == "pl";
    RemoveHit(s, "kmpl", "pl");
  }

  /** The leading `"km"` of `"kmkmplpl"` is kept around the removal. */
  lemma ResidueOuter()
    ensures RemoveAll("kmkmplpl", "kmpl") == "kmpl"
  {
    var s := "kmkmplpl";
    ResidueMiddle();
    assert s[..4][2] != "kmpl"[2] && s[1..] == "mkmplpl";
    RemoveMiss(s, "kmpl", "mpl");
  }

  /** The `"m"` in front of the inner occurrence is kept. */
  lemma ResidueMiddle()
    ensures RemoveAll("mkmplpl", "kmpl") == "mpl"
  {
    var s := "mkmplpl";
    ResidueInner();
    assert s[..4][0] != "kmpl"[0] && s[1..] == "kmplpl";
    RemoveMiss(s, "kmpl", "pl");
  }

  /** One step of removal where the pattern starts the string. */
  lemma RemoveHit(s: string, pat: string, tail: string)
    requires 0 < |pat| <= |s| && s[..|pat|] == pat
    requires RemoveAll(s[|pat|..], pat) == tail
    ensures RemoveAll(s, pat) == tail
  {
  }

  /** One step of removal where the pattern does not start the string. */
  lemma RemoveMiss(s: string, pat: string, tail: string)
    requires 0 < |pat| <= |s| && s[..|pat|] != pat
    requires RemoveAll(s[1..], pat) == tail
    ensures RemoveAll(s, pat) == [s[0]] + tail
  {
  }
}

=== FILE: wrappers.dfy ===
/** Failure-compatible wrappers used throughout the model: `Option` for a
    value that may be absent (a missing cell, a failed parse) and `Result`
    for an operation that either produces a value or raises an error. Both
    work with Dafny's `:-` operator, which stands in for an exception that
    propagates unchanged to the caller. */
module Wrappers {

  datatype Option<+T> = None | Some(value: T) {

    predicate IsFailure() {
      None?
    }

    function PropagateFailure<U>(): Option<U>
      requires None?
    {
      None
    }

    function Extract(): T
      requires Some?
    {
      value
    }
  }

  datatype Result<+T, +E> = Success(value: T) | Failure(error: E) {

    predicate IsFailure() {
      Failure?
    }

    function PropagateFailure<U>(): Result<U, E>
      requires Failure?
    {
      Failure(error)
    }

    function Extract(): T
      requires Success?
    {
      value
    }
  }
}
